=== FILE: README.md ===
# Content-generation pipeline: a Dafny model

This project models the deterministic core of an LLM-driven content pipeline.
The pipeline turns a product description into three pages: an FAQ page, a
product page and a comparison page. The model covers four parts:

- **Validation.** The content-quality and business-rule validators
  (`ContentQualityValidator`, `BusinessRequirementValidator`). On top of them sit
  the two families of Pydantic schemas: the strict ones of the single-file
  monolith and the loose ones of `src/core/schemas.py`.
  - Each rule is a ghost predicate plus an executable validator that returns
    `Pass` or `Fail(reason)`.
  - Each validator's contract states that it passes exactly when the predicate
    holds. It also names the first failing rule and the first failing item.
- **The retry decorator** `retry_with_exponential_backoff`.
  - The wrapped call is an oracle: `call(k)` is the outcome of attempt `k`.
    Jitter draws are a parameter too.
  - The decorator returns a trace: the result, the number of calls made and the
    delays it would have slept.
  - Alongside it are `is_retryable_error` and the per-agent budget table
    `RetryConfig.get_agent_config`.
- **The workflow.**
  - The state record and partial updates, and the graph's fixed edges and two
    routers.
  - The nodes: the monolith's parser, question-generation, page and reviewer
    nodes, and the page nodes of `src/agents/page_agents.py`.
  - A sequential engine: parser; then passes of question generation, the three
    pages and the reviewer, until `check_review` ends the run.
  - Every model call is an oracle indexed by pass and by call number.
- **The deterministic generators.**
  - `LogicBlocks` and the three `Template.render` classes.
  - `ParserAgent`, `QuestionGeneratorAgent`, and the FAQ, product-page and
    comparison-page agents.

Files, one module each:

| file | module | contents |
|---|---|---|
| wrappers.dfy | `Wrappers` | `Option`, `Result`, `Outcome` |
| text.dfy | `Text` | ASCII lowering, substring search, the line-bounded `X.*Y` match, `Join`/`Split` |
| json.dfy | `Json` | JSON values and string-list encoding |
| records.dfy | `Records` | Products, questions, pages, verdicts; the parsed product record |
| seqs.dfy | `Seqs` | Distinctness and counting over sequences |
| validators.dfy | `Validators` | The eight validators |
| schemas.dfy | `Schemas` | Loose and strict schemas and how they relate |
| retry.dfy | `Retry` | The decorator, backoff delays, error classifier, budgets |
| logic_blocks.dfy | `LogicBlocks` | Title, list, benefit, usage and ingredient blocks |
| templates.dfy | `Templates` | `render` with per-template defaults |
| parser_agent.dfy | `ParserAgent` | Key renaming with defaults |
| question_generator.dfy | `QuestionGenerator` | The fixed question list |
| faq_page_agent.dfy | `FaqPageAgent` | FAQ page assembly |
| product_page_agent.dfy | `ProductPageAgent` | Product page assembly |
| comparison_page_agent.dfy | `ComparisonPageAgent` | Comparison table construction |
| pipeline_state.dfy | `PipelineState` | State, partial updates, merging |
| nodes.dfy | `Nodes` | The monolith's nodes |
| page_nodes.dfy | `PageNodes` | The page nodes that `src/core/graph.py` wires in |
| reviewer.dfy | `Reviewer` | The reviewer node |
| graph.dfy | `Graph` | Edges, routers, the engine and the run bounds |

Notes on how the model reads the code:

- **Search indicators.** In Python's `re`, `.` does not match a newline. So the
  pattern `according to.*search` matches only when `search` starts on the same
  line, at or after the end of `according to`. `Text.Spans` models exactly that.
  A looser reading, "anywhere later in the text", would accept fewer texts than
  the code does.
- **The short-list check in the question node.** After the decorated call
  returns, the monolith's question node records an error when it holds fewer
  than 15 questions. That check cannot fire. The reply is parsed into the
  strict `QuestionList` schema inside the decorated call, and that schema
  requires at least 15 questions. A short reply therefore raises there and is
  retried. `Nodes.QgenNode` keeps the branch as written.
  `Nodes.CountCheckUnreachable` shows that, with schema-checked outcomes, the
  only error left is the failure of the decorated call.
- **Passes per run.** A run from `revision_count = 0` makes at most **three**
  question-generation passes, not four. Each pass that loops back has raised the
  count by one, and the router loops back only while the count is below 3.
  `Graph.AlwaysRejectedRunsThreePasses` shows the bound is reached.
- **Strict versus loose schemas.** The integration tests import the loose
  schemas but assert the strict limits: 15 questions, 20-character answers,
  50-character descriptions. Both families are modelled. Every strict value is
  loose (`Schemas.Strict*IsLoose`), and concrete values separate them in the
  other direction.
- **Which page nodes the graph uses.** `src/core/graph.py` wires in the page
  nodes of `src/agents/page_agents.py`. These have no retry and never write
  `error`. The monolith's page nodes retry and do write `error`. The engine
  takes the page-node variant as a parameter (`Graph.Variant`). Both variants
  use the monolith's `parser_node` and `qgen_node`. `src/core/graph.py` imports
  these from `src/agents/parser_agent.py` and
  `src/agents/question_generator_agent.py`, but neither file defines a node
  function.
- **Errors of the strict schemas.** A violated `Field` bound is collected and
  construction goes on. Every rule validator raises the monolith's own
  `ValidationError` (monolithic_content_generator.py:65). That class is a plain
  `Exception`, and it shadows Pydantic's import. Pydantic collects only
  `ValueError` and `AssertionError`, so a raising rule escapes at once. It drops
  what was collected and skips the later fields. The `Schemas.ValidateStrict*`
  methods return that rule's error alone.
- **Missing keys.** A missing state key and a key holding `None` are both
  `None` in the model. The one key read with a default is `revision_count`,
  read as 0 when missing (`PipelineState.Count`).

## Model

| member | source | states |
|---|---|---|
| Validators.MatchesIff | src/core/validators.py:26-33 | The executable pattern matcher agrees with the pattern meaning: a plain substring, or X followed on the same line by Y |
| Validators.FirstIndicator | src/core/validators.py:200-205 | Returns the first of the six patterns, in list order, that matches; none means no pattern matches |
| Validators.CheckExternalSearch | src/core/validators.py:198-205 | Rejects a text iff its lower-cased form matches a search pattern, naming the first matching pattern and the field |
| Validators.CheckFaqItem | src/core/validators.py:54-69 | An FAQ item passes iff its answer has at least 20 characters, its question at least 5, and the answer has no search indicator |
| Validators.ValidateFaqQuality | src/core/validators.py:49-81 | Fewer than 15 FAQs fail before any item is examined. Otherwise the list passes iff every item is good and there are at least 3 distinct categories. An item error names the first bad item |
| Validators.FirstPlaceholder | src/core/validators.py:106-113 | Finds the first placeholder phrase the text contains, or reports that it contains none |
| Validators.ValidateProductDescription | src/core/validators.py:97-113 | Passes iff the description has at least 50 characters, no search indicator and no placeholder phrase; a short text fails on length first |
| Validators.ValidateHeadline | src/core/validators.py:132-146 | Passes iff the length is within 10..100 and there is no search indicator; too short and too long are reported as such |
| Validators.ValidateFeaturesList | src/core/validators.py:166-181 | Passes iff there are at least `min_count` items, every item has at least 3 characters and no indicator, and the items are distinct. A duplicate is reported only once every item is good |
| Validators.ValidatePrice | src/core/validators.py:226-236 | Passes iff the price is at least 0.01. A non-positive price and a too-low price fail with different errors |
| Validators.ValidateCurrency | src/core/validators.py:253-266 | Passes iff the code has exactly 3 characters; membership in the known-currency set does not matter |
| Validators.UnknownCurrencyAccepted | src/core/validators.py:258-261 | A 3-letter code outside the known set is accepted |
| Validators.ValidateComparisonTable | src/core/validators.py:282-297 | Passes iff there are at least 2 rows, distinct feature names, and non-empty values in every row; an empty-value error names the first such row |
| Schemas.StrictProductSimplified | monolithic_content_generator.py:248-280 | The strict product schema is: name and category of at least 2 characters, price at least 0.01, a 3-letter currency, a valid feature list of at least 3 items and a valid description |
| Schemas.StrictQuestionSimplified | monolithic_content_generator.py:283-295 | A strict question has a question of at least 5 characters and an answer of at least 20 |
| Schemas.StrictFaqTitle | monolithic_content_generator.py:336-340 | A strict FAQ page title is a valid headline: 10 to 100 characters, no search indicator |
| Schemas.StrictProductIsLoose | src/core/schemas.py:4-13 | Every strict product is a loose product |
| Schemas.StrictQuestionIsLoose | src/core/schemas.py:15-18 | Every strict question is a loose question |
| Schemas.StrictQuestionListIsLoose | src/core/schemas.py:20-21 | Every strict question list is a loose one |
| Schemas.StrictFaqPageIsLoose | src/core/schemas.py:23-27 | Every strict FAQ page is a loose one |
| Schemas.StrictProductPageIsLoose | src/core/schemas.py:29-37 | Every strict product page is a loose one |
| Schemas.StrictComparisonPageIsLoose | src/core/schemas.py:39-47 | Every strict comparison page is a loose one |
| Schemas.ShortAnswerSeparates | monolithic_content_generator.py:288-295 | A question with a short answer is loose but not strict |
| Schemas.TenQuestionsSeparate | monolithic_content_generator.py:304-308 | Ten strict questions form a loose list but not a strict one |
| Schemas.ShortDescriptionSeparates | monolithic_content_generator.py:259-263 | A loose product whose description is under 50 characters is not strict |
| Schemas.ProductBounds | monolithic_content_generator.py:250-256 | The product's bound errors: one per violated `Field` bound (name, category, price, currency, features, description), and nothing else |
| Schemas.FieldErrors | monolithic_content_generator.py:248-274 | Nothing is reported iff every bound holds and every field rule accepts. A raising features rule, or else a raising description rule, is reported alone. Otherwise each bound is reported iff it is violated |
| Schemas.ValidateStrictProduct | monolithic_content_generator.py:248-280 | No errors iff the product is strict. A raising features or description rule is reported alone. Otherwise, when some bound fails, exactly the violated bounds of the six fields are reported. When every field passes, the price rule's error is reported alone iff the price is below 0.01 |
| Schemas.QuestionsBound | monolithic_content_generator.py:324-329 | True iff there are at least `minCount` questions and all are strict |
| Schemas.ValidateStrictQuestionList | monolithic_content_generator.py:298-318 | Reports no errors iff the list is strict; under 15 questions yields exactly the count error |
| Schemas.ValidateStrictFaqPage | monolithic_content_generator.py:321-340 | No errors iff the FAQ page is strict. A raising title rule is reported alone, and so, failing that, is a raising FAQ-quality rule. Otherwise the title, description and FAQ bounds are reported iff violated |
| Schemas.ValidateStrictProductPage | monolithic_content_generator.py:343-369 | No errors iff the product page is strict. The first raising rule (headline, features, benefits) is reported alone. Otherwise the headline, features, benefits and usage bounds are reported iff violated |
| Schemas.ValidateStrictComparisonPage | monolithic_content_generator.py:378-387 | No errors iff the comparison page is strict. A raising table rule is reported alone, before the summary is looked at. Otherwise the table and summary bounds are reported iff violated |
| Retry.RetryWithBackoff | src/core/retry_utils.py:39-75 | The loop makes at most `max_retries + 1` calls. A returned value is the last call's success, and every earlier call failed with a caught exception. It sleeps once between calls, never after the last, and sleep k is the delay for attempt k. The loop agrees with the recursive reference `Wrapper` |
| Retry.RunShape | src/core/retry_utils.py:44-71 | From any attempt within the budget, a run makes between 1 and the remaining attempts' calls. Every call before the last failed with a caught exception, a returned value is the last call's success, and the k-th sleep is that attempt's backoff delay |
| Retry.ReturnsFirstSuccess | src/core/retry_utils.py:44-46 | From any attempt, the first success is returned immediately, after one sleep per failure before it |
| Retry.SuccessAfterFailures | src/core/retry_utils.py:44-71 | If k caught failures are followed by a success, with k at most `max_retries`, the wrapper returns that value after k+1 calls and k sleeps |
| Retry.ExhaustsFrom | src/core/retry_utils.py:50-57 | When every remaining attempt fails, the run ends exhausted, with one call per attempt and one sleep fewer |
| Retry.ExhaustedIff | src/core/retry_utils.py:44-57 | The wrapper raises `RetryExhaustedError` iff all `max_retries + 1` calls fail with caught exceptions; it then made that many calls and `max_retries` sleeps |
| Retry.ExhaustedAtLast | src/core/retry_utils.py:50-57 | Exhaustion from an attempt implies every attempt from there on failed |
| Retry.UncaughtPropagates | src/core/retry_utils.py:47 | An exception outside `exceptions` on the first call propagates after one call and no sleep |
| Retry.NegativeBudgetNeverCalls | src/core/retry_utils.py:44 | A negative `max_retries` makes no call at all |
| Retry.PowMonotone | src/core/retry_utils.py:60 | Powers of a base of at least 1 are at least 1 and grow with the exponent |
| Retry.DelaysNonDecreasing | src/core/retry_utils.py:60 | Without jitter and with a base of at least 1, successive delays do not decrease |
| Retry.JitterBounds | src/core/retry_utils.py:63-64 | With jitter, each delay lies in [0.5·d, 1.5·d), where d is the un-jittered delay |
| Retry.ExhaustedSleepTotal | src/core/retry_utils.py:60-71 | Without jitter, an exhausted run sleeps exactly the sum of the backoff delays |
| Retry.RetryableIgnoresCase | src/core/retry_utils.py:104-105 | Whether an error is retryable does not depend on the case of its message |
| Retry.RateLimitIsRetryable | src/core/retry_utils.py:92-105 | A message mentioning rate limit and 429 in mixed case is retryable |
| Retry.AgentConfig | src/core/retry_utils.py:123-160 | Every budget has base 2.0, at least 2 retries and a positive delay; unknown names get the default budget |
| Retry.WorstCaseBackoff | src/core/retry_utils.py:117-160 | The un-jittered total sleep before exhaustion is 7 s for the parser and page agents, 31 s for question generation and 1.5 s for the reviewer |
| Retry.RunIgnoresDraws | src/core/retry_utils.py:63-64 | The jitter draws affect only the delays, never the result or the number of calls |
| Retry.RunNeverPropagates | src/core/retry_utils.py:47-57 | When every failure is caught, the run either returns or is exhausted |
| Retry.ReturnedIsFirstSuccess | src/core/retry_utils.py:44-48 | A returned value comes from a call within the budget, and every earlier call failed |
| Retry.InvokeIff | src/core/retry_utils.py:44-57 | A decorated model call yields a value iff one of its first `max_retries + 1` outcomes is a value; the value yielded is the first one |
| LogicBlocks.SeoTitle | src/core/logic_blocks.py:11-12 | The title is the name, then " \| Best ", then the category, then " Review & Specs" |
| LogicBlocks.SeoTitleInjective | src/core/logic_blocks.py:11-12 | For a fixed name, different categories give different titles |
| LogicBlocks.FormatList | src/core/logic_blocks.py:19-20 | The empty list gives "" and nothing else does; a non-empty result starts with "- " |
| LogicBlocks.FormatListLines | src/core/logic_blocks.py:19-20 | Splitting the result at newlines gives back the bulleted items, so the formatting can be undone |
| LogicBlocks.Benefit | src/core/logic_blocks.py:31-39 | The benefit comes from the first matching rule: Vitamin C, then Hyaluronic, then SPF, else the generic phrase |
| LogicBlocks.BenefitsBlock | src/core/logic_blocks.py:25-40 | One benefit per feature, in the same order |
| LogicBlocks.BenefitsBlockAppend | src/core/logic_blocks.py:31-40 | Each benefit depends on its feature alone, so the block distributes over concatenation |
| LogicBlocks.UsageBlockParts | src/core/logic_blocks.py:43-48 | The usage text is a fixed prefix, the application method, and a fixed suffix |
| LogicBlocks.UsageBlockInjective | src/core/logic_blocks.py:47-48 | Two usage texts are equal iff their application methods are |
| LogicBlocks.UsageWithoutSpecs | src/core/logic_blocks.py:47 | Missing specs behave like empty specs, giving "Apply as needed" |
| LogicBlocks.CompareIngredients | src/core/logic_blocks.py:51-57 | The text is at most the first three features joined by ", ", then " VS ", then the competitor's list joined by ", " |
| LogicBlocks.CompareIngredientsIgnoresTail | src/core/logic_blocks.py:55 | Features after the third never affect the comparison |
| Templates.Render | src/core/templates.py:13-39 | The output has exactly the template's keys; present values pass through and missing ones take the defaults |
| Templates.RenderIdempotent | src/core/templates.py:13-39 | Rendering twice equals rendering once |
| Templates.RenderIgnoresExtraKeys | src/core/templates.py:13-39 | Inputs that agree on the template's keys render identically |
| Templates.RenderFixedPoint | src/core/templates.py:13-39 | An input with exactly the template's keys renders to itself |
| Templates.FaqTemplateShape | src/core/templates.py:13-19 | The FAQ template has keys title, description, faqs and disclaimer, with title defaulting to "FAQ" |
| Templates.ProductPageTemplateShape | src/core/templates.py:22-31 | The product template has exactly seven keys, with cta defaulting to "Buy Now" |
| Templates.ComparisonTemplateShape | src/core/templates.py:34-39 | The comparison template has keys title, table and summary, with title defaulting to "Comparison" |
| ParserAgent.Process | src/agents/parser_agent.py:15-24 | The output has the eight keys. Each holds the raw value under its source key when present, else its default |
| ParserAgent.RulesCoverKeys | src/agents/parser_agent.py:15-24 | The eight rules read the eight source keys and write the eight output keys, each key in exactly one rule |
| ParserAgent.OnlySourceKeysMatter | src/agents/parser_agent.py:15-24 | Inputs that agree on the eight source keys give the same output |
| ParserAgent.RawIdAndNameIgnored | src/agents/parser_agent.py:16-17 | Raw keys "id" and "name" are ignored, because id and name come from productId and productName |
| ParserAgent.EmptyInputDefaults | src/agents/parser_agent.py:16-23 | An empty input yields all eight defaults |
| ParserAgent.NotIdempotent | src/agents/parser_agent.py:16 | Parsing an already-parsed record loses its id |
| QuestionGenerator.Process | src/agents/question_generator_agent.py:11-86 | Fails iff there are no features. Otherwise there are 8 + 2·features + specs questions: the usage question, the feature pairs, the spec questions, then the seven fixed tail questions |
| QuestionGenerator.FeatureQuestionsAt | src/agents/question_generator_agent.py:25-35 | Feature i contributes a benefit question at position 2i and a sensitivity question at 2i+1 |
| QuestionGenerator.ProcessAt | src/agents/question_generator_agent.py:16-84 | Each position of the output is the question of its segment: usage, feature, spec or tail |
| QuestionGenerator.ProcessPositions | src/agents/question_generator_agent.py:17-43 | Item 0 is the Usage question whose answer is the usage block; spec questions follow the specs in order |
| QuestionGenerator.FeaturePositions | src/agents/question_generator_agent.py:25-35 | Feature i's benefit question is at position 1 + 2i and its sensitivity question right after it |
| QuestionGenerator.SpecPositions | src/agents/question_generator_agent.py:37-43 | Spec entry j's question is at position 1 + 2·features + j, in the order of the specs |
| QuestionGenerator.TailPositions | src/agents/question_generator_agent.py:45-84 | The last seven questions are three Safety, three Purchase and one Comparison, in that order |
| QuestionGenerator.LengthsAt | src/agents/question_generator_agent.py:16-84 | At every position the question has at least 5 characters. Every answer except a spec answer has at least 20; a spec answer's length is fixed by its key, value and the product name |
| QuestionGenerator.CategoryCounts | src/agents/question_generator_agent.py:16-84 | There are 1 + features Usage items, features + specs Informational items, 3 Safety, 3 Purchase and 1 Comparison |
| QuestionGenerator.CategorySet | src/agents/question_generator_agent.py:16-84 | The output covers exactly the five categories |
| QuestionGenerator.ReachesFaqMinimum | src/agents/question_generator_agent.py:16-86 | The list reaches 15 questions iff 2·features + specs is at least 7 |
| QuestionGenerator.ThreeFeaturesNoSpecsFallShort | src/agents/question_generator_agent.py:25-86 | Three features and no specs give 14 questions, one short of the FAQ minimum |
| QuestionGenerator.AnswerLengths | src/agents/question_generator_agent.py:16-84 | Every question has at least 5 characters; every answer has at least 20 iff every spec answer is long enough, since the other answers always are |
| QuestionGenerator.ShortSpecAnswer | src/agents/question_generator_agent.py:42 | A spec answer can be shorter than 20 characters |
| QuestionGenerator.PassesFaqQualityIff | src/agents/question_generator_agent.py:11-86 | The generated list passes the FAQ-quality rule iff 2·features + specs is at least 7, every spec answer is long enough and no answer carries a search indicator |
| FaqPageAgent.Process | src/agents/faq_page_agent.py:18-34 | The page has the four template keys, the SEO title with category "FAQ", the fixed description and disclaimer, and one entry per question |
| FaqPageAgent.EntriesRoundTrip | src/agents/faq_page_agent.py:25-31 | Decoding the page's faqs gives back the input questions, in order and unchanged |
| FaqPageAgent.OnlyNameMatters | src/agents/faq_page_agent.py:23-24 | Only the product's name affects the page |
| FaqPageAgent.OutputIsRendered | src/agents/faq_page_agent.py:34 | The page is a fixed point of the FAQ template |
| ProductPageAgent.MetaDescription | src/agents/product_page_agent.py:25 | The meta description is a prefix of the description, of length min(len, 150), followed by "..."; so it has at most 153 characters |
| ProductPageAgent.ShortDescriptionKept | src/agents/product_page_agent.py:25 | A description of at most 150 characters is kept whole |
| ProductPageAgent.MetaIgnoresTail | src/agents/product_page_agent.py:25 | Characters past the 150th never affect the meta description |
| ProductPageAgent.SpecsJson | src/agents/product_page_agent.py:37-40 | The specs object has exactly the spec keys, each holding its spec value |
| ProductPageAgent.Process | src/agents/product_page_agent.py:22-44 | The page has the seven keys. Meta holds the SEO title and the meta description. Hero holds the name, "Experience the future of" plus the category, and the formatted price. Features decode to the input features and benefits to their benefit block. Then come the specs, the usage block and "Buy Now" |
| ProductPageAgent.BenefitsFollowFeatures | src/agents/product_page_agent.py:34-36 | The page lists one benefit per listed feature, each derived from that feature |
| ProductPageAgent.FormatterOnlyInPrice | src/agents/product_page_agent.py:30 | The currency formatter affects only the hero price |
| ComparisonPageAgent.BuildTable | src/agents/comparison_page_agent.py:22-52 | There are 2 + competitors headers, and 4 rows iff the specs hold a volume, else 3; every row has one cell per header |
| ComparisonPageAgent.LabelColumn | src/agents/comparison_page_agent.py:23-49 | The first column is Feature, Price, Ingredients Comparison, Primary Benefit, then Volume when present |
| ComparisonPageAgent.ProductColumnIsOwn | src/agents/comparison_page_agent.py:23-49 | The product's column is its name, its formatted price, its self-comparison, the fixed benefit and its volume |
| ComparisonPageAgent.CompetitorColumnIsOwn | src/agents/comparison_page_agent.py:23-51 | Competitor i's column depends only on that competitor and the product |
| ComparisonPageAgent.CompetitorDefaults | src/agents/comparison_page_agent.py:30-51 | Competitor prices are formatted in USD; missing benefits or volume show "N/A" |
| ComparisonPageAgent.TableRoundTrip | src/agents/comparison_page_agent.py:22-25 | Decoding the JSON table gives back the table |
| ComparisonPageAgent.Title | src/agents/comparison_page_agent.py:55 | The title contains the product name between the fixed lead and tail |
| ComparisonPageAgent.Process | src/agents/comparison_page_agent.py:18-59 | Fails iff there are no competitors. Otherwise the page has title, table and summary, the summary names the first competitor, and the table decodes to the built table |
| ComparisonPageAgent.CompetitorsIndependent | src/agents/comparison_page_agent.py:29-51 | Replacing one competitor leaves every other competitor's column unchanged |
| ComparisonPageAgent.HeadersNameCompetitors | src/agents/comparison_page_agent.py:23 | The headers are Feature, the product name, then the competitor names in order |
| PipelineState.Initial | monolithic_content_generator.py:915-920 | The starting state holds the raw data, the tone and a zero count, and nothing else |
| PipelineState.Apply | monolithic_content_generator.py:399-416 | Merging an update changes only the keys it writes |
| PipelineState.ApplyCommutes | src/agents/page_agents.py:37-40 | Updates with disjoint keys can be merged in either order |
| PipelineState.LastWriteWins | monolithic_content_generator.py:612-739 | Two writes to `error` keep the later one, so their order matters |
| Nodes.BudgetsMatchAgentConfig | monolithic_content_generator.py:482-698 | The parser, question and page budgets hard-coded on the decorators equal the configuration table |
| Nodes.ParserNode | monolithic_content_generator.py:488-529 | A product is stored iff one of the four allowed calls returns one. Failure stores no product and records a parsing error |
| Nodes.QgenNode | monolithic_content_generator.py:544-591 | No product gives an empty list with no error. Otherwise no error iff the decorated call returns at least 15 questions, and the list is kept exactly then. A stored non-empty list always has at least 15 |
| Nodes.CountCheckUnreachable | monolithic_content_generator.py:581-591 | When every list the model yields passes the strict question-list schema, the node's only possible error is the failure of the decorated call. It stores a list iff one of the six calls returns one, so the short-list branch is dead |
| Nodes.FaqNode | monolithic_content_generator.py:605-645 | Once the product and at least 15 questions are there, the stored page is the decorated call's result: a page iff one of the four calls returns, otherwise `None` with the generation error. A page is never stored without those inputs, and missing inputs and a short list give their own errors |
| Nodes.ProductPageNode | monolithic_content_generator.py:661-694 | With a product present, the stored page is the decorated call's result: a page iff one of the four calls returns. Without a product nothing is stored, and every failure writes `error` |
| Nodes.ComparisonNode | monolithic_content_generator.py:708-739 | With a product present, the stored page is the decorated call's result: a page iff one of the four calls returns. Without a product nothing is stored, and every failure writes `error` |
| Nodes.PageNodesReadOnlyInputs | monolithic_content_generator.py:605-739 | The page nodes read only the product and questions |
| Nodes.PageNodesShareOnlyError | monolithic_content_generator.py:612-739 | Two page nodes share at most the `error` key, and with no product all three write it |
| PageNodes.FaqNode | src/agents/page_agents.py:6-40 | Writes only `faq_page`, which holds a page iff the product is there, the questions are non-empty and the call yields one |
| PageNodes.ProductPageNode | src/agents/page_agents.py:42-77 | Writes only `product_page`, which holds a page iff the product is there and the call yields one |
| PageNodes.ComparisonNode | src/agents/page_agents.py:79-113 | Writes only `comparison_page`, which holds a page iff the product is there and the call yields one |
| PageNodes.GuardSkipsCall | src/agents/page_agents.py:10-11 | When the guard fails, the model's outcome does not matter |
| PageNodes.PageUpdatesCommute | src/agents/page_agents.py:37-110 | The three updates write disjoint keys, so their merge order does not matter |
| Reviewer.FirstFlagged | src/agents/reviewer_agent.py:42-50 | Finds the first FAQ whose lower-cased answer holds a search phrase, or reports that there is none |
| Reviewer.ReviewerNode | src/agents/reviewer_agent.py:27-105 | Always writes feedback. Approval occurs iff both gates pass and the verdict approves, and leaves the count and error alone. Every other outcome adds one to the count. An error occurs iff the gates pass and the verdict call fails |
| Reviewer.BudgetMatchesAgentConfig | src/agents/reviewer_agent.py:14-18 | The reviewer's budget is the configured one |
| Reviewer.TooFewFaqsRejected | src/agents/reviewer_agent.py:34-39 | A page with fewer than 15 FAQs is rejected with its count, whatever the model says |
| Reviewer.FlaggedAnswerRejected | src/agents/reviewer_agent.py:42-50 | A flagged answer rejects the page, naming the first flagged index |
| Reviewer.NoPageSkipsGates | src/agents/reviewer_agent.py:34-42 | Without an FAQ page, approval depends only on the first verdict returned |
| Reviewer.RejectionKeepsFeedback | src/agents/reviewer_agent.py:91-96 | A rejected verdict's text is stored unchanged, and the count goes up by one |
| Reviewer.RejectingModelKeepsLooping | src/agents/reviewer_agent.py:88-105 | If the verdict model always rejects with non-empty feedback, the state after review holds truthy feedback on every path: gate, verdict or failure |
| Reviewer.CountAfterReview | src/agents/reviewer_agent.py:88-105 | The count rises by exactly one when the stored feedback is present, and stays the same exactly when the feedback is cleared |
| Graph.GraphShape | src/core/graph.py:23-41 | Each node has exactly one way on, a fixed edge or a router. The three pages lead to the reviewer, qgen fans out to them, and nothing returns to the parser |
| Graph.CheckParserIff | src/core/graph.py:25-29 | Routes to qgen iff a product is stored |
| Graph.CheckReviewIff | src/core/graph.py:44-55 | Routes to qgen iff the feedback is present and non-empty and the count, 0 when missing, is below 3 |
| Graph.EmptyFeedbackEnds | src/core/graph.py:48 | Empty feedback ends the run |
| Graph.Pass | src/core/graph.py:34-55 | One pass leaves the product alone and raises the count by 0 or 1. It raises it by 1 whenever it leaves truthy feedback, and by 0 exactly when it clears the feedback |
| Graph.RejectedPass | src/core/graph.py:34-55 | A pass whose reviewer always rejects with feedback leaves truthy feedback and raises the count by exactly one |
| Graph.LoopBounds | src/core/graph.py:44-55 | The review loop terminates in a state routed to the end. From a count below 3 it makes at most 3 − count passes and ends with a count of at most 3 |
| Graph.RunBounds | src/core/graph.py:11-63 | A run from the initial state makes at most 3 passes and ends with a count between 0 and 3. It makes no pass iff all four parser calls fail |
| Graph.AlwaysRejectedRunsThreePasses | src/core/graph.py:48 | If the verdict always rejects with feedback, the run makes exactly 3 − count more passes and ends at count 3 |
| Graph.ApprovalEndsRun | src/core/graph.py:44-55 | An approval ends the run after that pass, with the count unchanged |
| Graph.EmptyRejectionEndsRun | src/core/graph.py:48 | An empty-feedback rejection ends the run although the count rose |
| Graph.MonolithPagesOrder | monolithic_content_generator.py:851-858 | For the monolith's pages, the sequential engine computes each node's update from the pre-pass state, and the three pages do not depend on the order |
| Graph.ModularPagesOrder | src/core/graph.py:34-41 | For the page nodes the graph wires in, any order of the three gives the same state |
| Json.DecodeStringsRoundTrip | src/agents/product_page_agent.py:34-36 | A list of strings encoded as JSON decodes back to itself |
| Records.Lookup | src/core/logic_blocks.py:47 | A spec lookup succeeds iff the key is present, and returns that key's value |

## Left out

- Model calls: every Gemini call, structured output and prompt text. Each node receives its model outcomes as an oracle: a value, or `None` when the call raises.
- The LangGraph scheduler: its parallel supersteps and merge semantics come from a library outside this model. The engine runs the three page nodes in sequence and merges updates key by key.
- Concurrent writes to `error`: the code gives them no defined meaning. The model keeps the later write (`PipelineState.LastWriteWins`).
- Sleeping and randomness: `time.sleep` and `random.random`. The decorator returns the delays it would sleep, and the jitter draws are a parameter in [0, 1).
- `format_currency`: its float formatting is left as a function parameter (`CurrencyFormatter`). Prices are `real`.
- Python regex and Unicode case mapping: patterns are two-substring searches bounded by a line, and lowering is ASCII only.
- Logging, including the warn-only branches for prices above 100000 and for unknown currency codes. Both are warnings, not failures, and the model has them pass.
- Error message text. Validation errors, node errors and reviewer feedback are datatypes rather than formatted strings. Only the model's verdict text is a free string, because its emptiness decides routing.
- Pydantic validation of a model's structured output: it is part of the oracle. A value the schema rejects is an oracle `None`.
- File I/O, the command line and environment checks: `main`, `src/main.py`, `src/main_graph.py` and `src/core/orchestrator.py`.
- The test doubles `src/mock_llm.py` and `src/test_runner.py`, the logger setup and the abstract agent base class.
- Python truthiness of a stored product: a stored product counts as present. A parsed Pydantic object is always truthy.
- `KeyError` from a missing state key in the page nodes: the engine writes every key before it is read, so such a key is read as `None`.
- Typed product records (`Records.ProductData`, `Records.Competitor`, `Records.PriceInfo`): the agents read the parsed product as a record whose `name`, `price`, `price.amount` and `price.currency` fields are always present. The `KeyError` that a competitor without `name` or `price` raises (src/agents/comparison_page_agent.py:23, 30) is not modelled. Neither is the one a product without `price.amount` raises (src/agents/product_page_agent.py:30, src/agents/comparison_page_agent.py:28). The step from `ParserAgent.Process`'s JSON object to this record is not modelled.
- Non-string spec values: a spec value is the string the source would produce with `str()` (src/agents/question_generator_agent.py:42). The raw value that the Volume cell copies (src/agents/comparison_page_agent.py:49) is modelled by that string as well.
- Duplicate spec keys: `Records.Specs` is a list of pairs, so it can repeat a key, which a Python dict cannot. The question generator then asks once per entry, while `Records.Lookup` and `ProductPageAgent.SpecsJson` keep the first. The agents' contracts hold for any list, and the source's inputs are the duplicate-free ones.
- JSON key order: `Json.Object` is a map, so the order in which Python dicts keep and `json.dump` writes keys is not modelled. Rendered pages are compared as key sets with values.
- `generate_disclaimer`: a constant, appearing in `FaqPageAgent.Process` as the page's disclaimer.
- `Retry.Invoke`: maps a wrapper with no call at all, which needs a negative budget, to `None`. Every budget in the code is at least 2, so this case never arises.

=== FILE: comparison_page_agent.dfy ===
/** `ComparisonPageAgent.process`: a comparison table with one column for the
    product and one per competitor, a title, and a summary that names the
    first competitor (an empty competitor list makes the summary fail). */
module ComparisonPageAgent {
  import opened Wrappers
  import opened Json
  import opened Text
  import opened Records
  import opened LogicBlocks
  import opened Templates

  const FeatureHeader := "Feature"
  const PriceLabel := "Price"
  const IngredientsLabel := "Ingredients Comparison"
  const BenefitLabel := "Primary Benefit"
  const OwnBenefit := "Radiance & Hydration"
  const VolumeLabel := "Volume"
  const VolumeKey := "volume"
  const NotAvailable := "N/A"
  const CompetitorCurrency := "USD"
  const TitleLead := "Compare "
  const TitleTail := " vs Competitors"
  const SummaryLead := "The "
  const SummaryMid := " offers superior value compared to "

  /** A comparison table: a header row and body rows, each a list of cells. */
  datatype Table = Table(headers: seq<string>, rows: seq<seq<string>>)

  datatype ComparisonError = NoCompetitors

  /** Every body row has one cell per header. */
  predicate WellFormed(t: Table) {
    forall r :: 0 <= r < |t.rows| ==> |t.rows[r]| == |t.headers|
  }

  /** Column `j`: its header followed by the `j`-th cell of every row. */
  function Column(t: Table, j: nat): seq<string>
    requires WellFormed(t) && j < |t.headers|
  {
    [t.headers[j]] + seq(|t.rows|, r requires 0 <= r < |t.rows| => t.rows[r][j])
  }

  function HasVolume(p: ProductData): bool {
    Lookup(p.specs, VolumeKey).Some?
  }

  function Names(cs: seq<Competitor>): seq<string> {
    seq(|cs|, i requires 0 <= i < |cs| => cs[i].name)
  }

  function CompetitorPrice(fmt: CurrencyFormatter, c: Competitor): string {
    fmt(c.price, CompetitorCurrency)
  }

  function CompetitorIngredients(p: ProductData, c: Competitor): string {
    CompareIngredients(p.features, c.ingredients.GetOr([]))
  }

  function CompetitorBenefits(c: Competitor): string {
    Join(", ", c.benefits.GetOr([NotAvailable]))
  }

  function CompetitorVolume(c: Competitor): string {
    c.volume.GetOr(NotAvailable)
  }

  /** A row: its label, the product's cell, then one cell per competitor. */
  function Row(heading: string, own: string, cells: seq<string>): seq<string> {
    [heading, own] + cells
  }

  function PriceRow(fmt: CurrencyFormatter, p: ProductData): seq<string> {
    Row(PriceLabel, fmt(p.price.amount, p.price.currency),
        seq(|p.competitors|, i requires 0 <= i < |p.competitors| => CompetitorPrice(fmt, p.competitors[i])))
  }

  function IngredientsRow(p: ProductData): seq<string> {
    Row(IngredientsLabel, CompareIngredients(p.features, []),
        seq(|p.competitors|, i requires 0 <= i < |p.competitors| => CompetitorIngredients(p, p.competitors[i])))
  }

  function BenefitsRow(p: ProductData): seq<string> {
    Row(BenefitLabel, OwnBenefit,
        seq(|p.competitors|, i requires 0 <= i < |p.competitors| => CompetitorBenefits(p.competitors[i])))
  }

  function VolumeRow(p: ProductData): seq<string>
    requires HasVolume(p)
  {
    Row(VolumeLabel, Lookup(p.specs, VolumeKey).value,
        seq(|p.competitors|, i requires 0 <= i < |p.competitors| => CompetitorVolume(p.competitors[i])))
  }

  /** The table: price, ingredients and benefit rows, and a volume row exactly
      when the product's specification has a volume. */
  function BuildTable(fmt: CurrencyFormatter, p: ProductData): (t: Table)
    ensures |t.headers| == 2 + |p.competitors|
    ensures |t.rows| == (if HasVolume(p) then 4 else 3)
    ensures WellFormed(t)
  {
    Table([FeatureHeader, p.name] + Names(p.competitors),
          [PriceRow(fmt, p), IngredientsRow(p), BenefitsRow(p)]
          + (if HasVolume(p) then [VolumeRow(p)] else []))
  }

  /** The labels in the first column, in row order. */
  function Labels(p: ProductData): seq<string> {
    [FeatureHeader, PriceLabel, IngredientsLabel, BenefitLabel] + (if HasVolume(p) then [VolumeLabel] else [])
  }

  /** The product's column, built from the product alone. */
  function ProductColumn(fmt: CurrencyFormatter, p: ProductData): seq<string> {
    [p.name, fmt(p.price.amount, p.price.currency), CompareIngredients(p.features, []), OwnBenefit]
    + (if HasVolume(p) then [Lookup(p.specs, VolumeKey).value] else [])
  }

  /** A competitor's column, built from that competitor and the product alone. */
  function CompetitorColumn(fmt: CurrencyFormatter, p: ProductData, c: Competitor): seq<string> {
    [c.name, CompetitorPrice(fmt, c), CompetitorIngredients(p, c), CompetitorBenefits(c)]
    + (if HasVolume(p) then [CompetitorVolume(c)] else [])
  }

  lemma LabelColumn(fmt: CurrencyFormatter, p: ProductData)
    ensures Column(BuildTable(fmt, p), 0) == Labels(p)
  {
  }

  lemma ProductColumnIsOwn(fmt: CurrencyFormatter, p: ProductData)
    ensures Column(BuildTable(fmt, p), 1) == ProductColumn(fmt, p)
  {
  }

  /** Column `2 + i` describes competitor `i` and nothing else. */
  lemma CompetitorColumnIsOwn(fmt: CurrencyFormatter, p: ProductData, i: nat)
    requires i < |p.competitors|
    ensures Column(BuildTable(fmt, p), 2 + i) == CompetitorColumn(fmt, p, p.competitors[i])
  {
    var t := BuildTable(fmt, p);
    assert t.headers[2 + i] == p.competitors[i].name;
    assert t.rows[0][2 + i] == CompetitorPrice(fmt, p.competitors[i]);
    assert t.rows[1][2 + i] == CompetitorIngredients(p, p.competitors[i]);
    assert t.rows[2][2 + i] == CompetitorBenefits(p.competitors[i]);
    if HasVolume(p) {
      assert t.rows[3][2 + i] == CompetitorVolume(p.competitors[i]);
    }
  }

  /** In a competitor's column the price is always formatted in dollars,
      whatever the product's currency, and a competitor without benefits or
      without a volume shows "N/A" there. */
  lemma CompetitorDefaults(fmt: CurrencyFormatter, p: ProductData, i: nat)
    requires i < |p.competitors|
    ensures var col, c := Column(BuildTable(fmt, p), 2 + i), p.competitors[i];
            && |col| == |Labels(p)|
            && col[1] == fmt(c.price, "USD")
            && (c.benefits.None? ==> col[3] == "N/A")
            && (c.volume.None? && HasVolume(p) ==> col[4] == "N/A")
  {
    CompetitorColumnIsOwn(fmt, p, i);
  }

  /** The table as the JSON object `{"headers": [...], "rows": [[...], ...]}`. */
  function TableJson(t: Table): Json {
    JObj(map["headers" := Strings(t.headers),
             "rows" := JArr(seq(|t.rows|, r requires 0 <= r < |t.rows| => Strings(t.rows[r])))])
  }

  /** Reads a table back; anything not shaped like `TableJson` output is `None`. */
  function DecodeTable(j: Json): Option<Table> {
    if j.JObj? && "headers" in j.fields && "rows" in j.fields && j.fields["rows"].JArr?
       && DecodeStrings(j.fields["headers"]).Some?
       && forall r :: 0 <= r < |j.fields["rows"].items| ==> DecodeStrings(j.fields["rows"].items[r]).Some?
    then
      var rows := j.fields["rows"].items;
      Some(Table(DecodeStrings(j.fields["headers"]).value,
                 seq(|rows|, r requires 0 <= r < |rows| && DecodeStrings(rows[r]).Some? =>
                   DecodeStrings(rows[r]).value)))
    else None
  }

  lemma TableRoundTrip(t: Table)
    ensures DecodeTable(TableJson(t)) == Some(t)
  {
    var j := TableJson(t);
    var rows := j.fields["rows"].items;
    DecodeStringsRoundTrip(t.headers);
    forall r | 0 <= r < |rows|
      ensures DecodeStrings(rows[r]) == Some(t.rows[r])
    {
      DecodeStringsRoundTrip(t.rows[r]);
    }
    assert DecodeTable(j).Some?;
    assert DecodeTable(j).value.rows == t.rows;
  }

  function Title(name: string): (r: string)
    ensures |r| == |TitleLead| + |name| + |TitleTail|
    ensures r[..|TitleLead|] == TitleLead
    ensures r[|TitleLead|..|TitleLead| + |name|] == name
    ensures r[|TitleLead| + |name|..] == TitleTail
  {
    TitleLead + name + TitleTail
  }

  function Summary(name: string, rival: string): string {
    SummaryLead + name + SummaryMid + rival + "."
  }

  /** Fails exactly when there is no competitor to name in the summary. */
  function Process(fmt: CurrencyFormatter, p: ProductData): (r: Result<Object, ComparisonError>)
    ensures r.Err? <==> |p.competitors| == 0
    ensures r.Ok? ==> r.value.Keys == {"title", "table", "summary"}
    ensures r.Ok? ==> r.value["title"] == JStr(Title(p.name))
    ensures r.Ok? ==> r.value["summary"] == JStr(Summary(p.name, p.competitors[0].name))
    ensures r.Ok? ==> DecodeTable(r.value["table"]) == Some(BuildTable(fmt, p))
  {
    if |p.competitors| == 0 then Err(NoCompetitors)
    else
      TableRoundTrip(BuildTable(fmt, p));
      Ok(Render(ComparisonTemplate, map[
        "title" := JStr(Title(p.name)),
        "table" := TableJson(BuildTable(fmt, p)),
        "summary" := JStr(Summary(p.name, p.competitors[0].name))]))
  }

  /** Changing one competitor changes no other competitor's column. */
  lemma CompetitorsIndependent(fmt: CurrencyFormatter, p: ProductData, j: nat, c: Competitor, i: nat)
    requires j < |p.competitors| && i < |p.competitors| && i != j
    ensures var q := p.(competitors := p.competitors[j := c]);
            Column(BuildTable(fmt, q), 2 + i) == Column(BuildTable(fmt, p), 2 + i)
  {
    var q := p.(competitors := p.competitors[j := c]);
    CompetitorColumnIsOwn(fmt, p, i);
    CompetitorColumnIsOwn(fmt, q, i);
  }

  /** The competitor order is the column order. */
  lemma HeadersNameCompetitors(fmt: CurrencyFormatter, p: ProductData)
    ensures BuildTable(fmt, p).headers[..2] == [FeatureHeader, p.name]
    ensures BuildTable(fmt, p).headers[2..] == Names(p.competitors)
  {
  }
}

=== FILE: faq_page_agent.dfy ===
/** `FAQPageAgent.process`: the FAQ page as a rendered dictionary. The title
    is the SEO title for category "FAQ", the entries copy the questions in
    order, and the disclaimer is the shared constant. */
module FaqPageAgent {
  import opened Wrappers
  import opened Json
  import opened Records
  import opened LogicBlocks
  import opened Templates

  const DescriptionLead := "Frequently asked questions about the "

  /** One FAQ entry: question, answer and category, copied unchanged. */
  function Entry(q: Question): Json {
    JObj(map["question" := JStr(q.question), "answer" := JStr(q.answer), "category" := JStr(q.category)])
  }

  function Entries(qs: seq<Question>): (r: seq<Json>)
    ensures |r| == |qs|
    ensures forall i :: 0 <= i < |qs| ==> r[i] == Entry(qs[i])
  {
    seq(|qs|, i requires 0 <= i < |qs| => Entry(qs[i]))
  }

  /** Reads an entry back; anything without the three string fields is `None`. */
  function DecodeEntry(j: Json): Option<Question> {
    if j.JObj? && "question" in j.fields && "answer" in j.fields && "category" in j.fields
       && j.fields["question"].JStr? && j.fields["answer"].JStr? && j.fields["category"].JStr?
    then Some(Question(j.fields["category"].s, j.fields["question"].s, j.fields["answer"].s))
    else None
  }

  function DecodeEntries(j: Json): Option<seq<Question>> {
    if j.JArr? && forall i :: 0 <= i < |j.items| ==> DecodeEntry(j.items[i]).Some? then
      Some(seq(|j.items|, i requires 0 <= i < |j.items| && DecodeEntry(j.items[i]).Some? =>
        DecodeEntry(j.items[i]).value))
    else None
  }

  function Process(p: ProductData, questions: seq<Question>): (r: Object)
    ensures r.Keys == {"title", "description", "faqs", "disclaimer"}
    ensures r["title"] == JStr(SeoTitle(p.name, "FAQ"))
    ensures r["description"] == JStr(DescriptionLead + p.name + ".")
    ensures r["disclaimer"] == JStr(Disclaimer)
    ensures r["faqs"].JArr? && |r["faqs"].items| == |questions|
  {
    Render(FaqTemplate, map[
      "title" := JStr(SeoTitle(p.name, "FAQ")),
      "description" := JStr(DescriptionLead + p.name + "."),
      "faqs" := JArr(Entries(questions)),
      "disclaimer" := JStr(Disclaimer)])
  }

  /** The FAQ entries give back exactly the input questions, in order. */
  lemma EntriesRoundTrip(p: ProductData, questions: seq<Question>)
    ensures DecodeEntries(Process(p, questions)["faqs"]) == Some(questions)
  {
    var j := Process(p, questions)["faqs"];
    assert j == JArr(Entries(questions));
    forall i | 0 <= i < |questions|
      ensures DecodeEntry(j.items[i]) == Some(questions[i])
    {
      assert j.items[i] == Entry(questions[i]);
    }
    assert DecodeEntries(j).Some?;
    assert DecodeEntries(j).value == questions;
  }

  /** The page depends on the product only through its name. */
  lemma OnlyNameMatters(p1: ProductData, p2: ProductData, questions: seq<Question>)
    requires p1.name == p2.name
    ensures Process(p1, questions) == Process(p2, questions)
  {
  }

  /** Rendering the agent's output again changes nothing. */
  lemma OutputIsRendered(p: ProductData, questions: seq<Question>)
    ensures Render(FaqTemplate, Process(p, questions)) == Process(p, questions)
  {
    RenderFixedPoint(FaqTemplate, Process(p, questions));
  }
}

=== FILE: graph.dfy ===
/** The workflow graph (`create_graph`): its fixed edges, the two routing
    functions, and a sequential engine that runs parser, then repeated passes
    of question generation, the three pages and the reviewer until
    `check_review` routes to the end.

    The engine comes in two variants, which differ only in the page nodes:
    the monolith's own (retried, writing `error`) and those of
    `src/agents/page_agents.py`. Both variants use the monolith's parser and
    question nodes: `src/core/graph.py` imports `parser_node` and `qgen_node`
    from agent files that do not define them. The model outcomes are oracles
    indexed by pass number and then by call number. */
module Graph {
  import opened Wrappers
  import opened Records
  import opened PipelineState
  import Nodes
  import PageNodes
  import Reviewer
  import Retry
  import Json

  // ---------------------------------------------------------------------------
  // Fixed structure

  datatype NodeName = ParserNode | QgenNode | FaqPageNode | ProductPageNode | ComparisonPageNode | ReviewerNode

  /** Where an edge or a router leads: a node or `END`. */
  datatype Target = To(node: NodeName) | End

  const Entry := ParserNode

  /** The unconditional edges. */
  function Successors(n: NodeName): set<NodeName> {
    match n
    case QgenNode => {FaqPageNode, ProductPageNode, ComparisonPageNode}
    case FaqPageNode => {ReviewerNode}
    case ProductPageNode => {ReviewerNode}
    case ComparisonPageNode => {ReviewerNode}
    case _ => {}
  }

  /** The targets a node's router may choose; only parser and reviewer have one. */
  function RouterTargets(n: NodeName): set<Target> {
    if n == ParserNode || n == ReviewerNode then {To(QgenNode), End} else {}
  }

  /** `check_parser`: stop when there is no clean product. */
  function CheckParser(s: State): Target {
    if s.cleanData.None? then End else To(QgenNode)
  }

  /** `check_review`: loop back while there is truthy feedback and fewer than three revisions. */
  function CheckReview(s: State): Target {
    if Truthy(s.reviewFeedback) && Count(s) < 3 then To(QgenNode) else End
  }

  /** Each node has exactly one way onward: a fixed edge or a router, never both. */
  lemma GraphShape()
    ensures forall n: NodeName :: Successors(n) == {} <==> RouterTargets(n) != {}
    ensures forall n: NodeName :: n in Successors(QgenNode) ==> Successors(n) == {ReviewerNode}
    ensures forall n: NodeName :: ReviewerNode in Successors(n) <==> n in {FaqPageNode, ProductPageNode, ComparisonPageNode}
    ensures forall n: NodeName :: ParserNode !in Successors(n) && To(ParserNode) !in RouterTargets(n)
    ensures forall n: NodeName :: QgenNode !in Successors(n)
  {
  }

  /** The routers, stated both ways. */
  lemma CheckParserIff(s: State)
    ensures CheckParser(s) == To(QgenNode) <==> s.cleanData.Some?
    ensures CheckParser(s) in RouterTargets(ParserNode)
  {
  }

  lemma CheckReviewIff(s: State)
    ensures CheckReview(s) == To(QgenNode) <==>
              s.reviewFeedback.Some? && s.reviewFeedback.value != Verdict("") && s.revisionCount.GetOr(0) < 3
    ensures CheckReview(s) in RouterTargets(ReviewerNode)
  {
  }

  /** Empty feedback ends the run even below three revisions. */
  lemma EmptyFeedbackEnds(s: State)
    requires s.reviewFeedback == Some(Verdict(""))
    ensures CheckReview(s) == End
  {
  }

  // ---------------------------------------------------------------------------
  // The engine

  datatype Variant = Monolith | Modular

  /** `qgen(n)(k)` is the k-th question-generation call in pass `n`, and so on.
      The modular page nodes use only call 0 of their pass. */
  datatype Oracles = Oracles(
    parser: nat -> Option<Product>,
    qgen: nat -> nat -> Option<seq<Question>>,
    faq: nat -> nat -> Option<FaqPage>,
    product: nat -> nat -> Option<ProductPage>,
    comparison: nat -> nat -> Option<ComparisonPage>,
    reviewer: nat -> nat -> Option<ReviewVerdict>)

  /** The three page nodes of pass `n`, one after the other. */
  function Pages(v: Variant, s: State, o: Oracles, n: nat): (r: State)
    ensures r.cleanData == s.cleanData && r.questions == s.questions
    ensures r.reviewFeedback == s.reviewFeedback && r.revisionCount == s.revisionCount
  {
    match v
    case Monolith =>
      var s1 := Apply(s, Nodes.FaqNode(s, o.faq(n)));
      var s2 := Apply(s1, Nodes.ProductPageNode(s1, o.product(n)));
      Apply(s2, Nodes.ComparisonNode(s2, o.comparison(n)))
    case Modular =>
      var s1 := Apply(s, PageNodes.FaqNode(s, o.faq(n)(0)));
      var s2 := Apply(s1, PageNodes.ProductPageNode(s1, o.product(n)(0)));
      Apply(s2, PageNodes.ComparisonNode(s2, o.comparison(n)(0)))
  }

  /** One pass: question generation, the three pages, the reviewer. */
  function Pass(v: Variant, s: State, o: Oracles, n: nat): (t: State)
    ensures t.cleanData == s.cleanData
    ensures Count(t) == Count(s) || Count(t) == Count(s) + 1
    ensures Truthy(t.reviewFeedback) ==> Count(t) == Count(s) + 1
    ensures t.reviewFeedback.None? <==> Count(t) == Count(s)
  {
    var s1 := Apply(s, Nodes.QgenNode(s, o.qgen(n)));
    var s2 := Pages(v, s1, o, n);
    Reviewer.CountAfterReview(s2, o.reviewer(n));
    Apply(s2, Reviewer.ReviewerNode(s2, o.reviewer(n)))
  }

  /** A finished run: the final state and how many question-generation passes it made. */
  datatype RunResult = RunResult(final: State, passes: nat)

  /** The review loop from pass `n` on. Each pass that loops back has raised
      the count by one, and the loop needs the count below three. */
  function Loop(v: Variant, s: State, o: Oracles, n: nat): RunResult
    decreases 3 - Count(s)
  {
    var t := Pass(v, s, o, n);
    if CheckReview(t) == End then RunResult(t, n + 1) else Loop(v, t, o, n + 1)
  }

  /** The whole run: the parser, then the loop unless parsing failed. */
  function Execute(v: Variant, s0: State, o: Oracles): RunResult {
    var s := Apply(s0, Nodes.ParserNode(s0, o.parser));
    if CheckParser(s) == End then RunResult(s, 0) else Loop(v, s, o, 0)
  }

  // ---------------------------------------------------------------------------
  // Properties of runs

  /** The loop ends in a state `check_review` sends to the end, after at least
      one pass; from a count below 3 it makes at most `3 - count` passes and
      ends with a count of at most 3; from a higher count it makes one pass. */
  lemma {:induction false} LoopBounds(v: Variant, s: State, o: Oracles, n: nat)
    ensures var r := Loop(v, s, o, n);
            && CheckReview(r.final) == End
            && n + 1 <= r.passes
            && r.passes <= n + (if Count(s) < 3 then 3 - Count(s) else 1)
            && Count(s) <= Count(r.final) <= (if Count(s) < 3 then 3 else Count(s) + 1)
    decreases 3 - Count(s)
  {
    var t := Pass(v, s, o, n);
    if CheckReview(t) == End {
      assert Loop(v, s, o, n) == RunResult(t, n + 1);
    } else {
      assert Loop(v, s, o, n) == Loop(v, t, o, n + 1);
      LoopBounds(v, t, o, n + 1);
    }
  }

  /** From the initial state, a run makes at most three passes and ends with at most three revisions. */
  lemma RunBounds(v: Variant, raw: Json.Object, tone: string, o: Oracles)
    ensures var r := Execute(v, Initial(raw, tone), o);
            && r.passes <= 3
            && 0 <= Count(r.final) <= 3
            && (r.passes == 0 <==> forall k :: 0 <= k <= Nodes.ParserBudget.maxRetries ==> o.parser(k).None?)
            && (r.passes > 0 ==> CheckReview(r.final) == End)
  {
    var s0 := Initial(raw, tone);
    var s := Apply(s0, Nodes.ParserNode(s0, o.parser));
    if CheckParser(s) != End {
      LoopBounds(v, s, o, 0);
    }
  }

  /** A pass whose verdict model always rejects with feedback "fix" leaves
      truthy feedback and so raises the count by one. */
  lemma RejectedPass(v: Variant, s: State, o: Oracles, n: nat)
    requires forall k :: o.reviewer(n)(k) == Some(ReviewVerdict(false, "fix"))
    ensures Truthy(Pass(v, s, o, n).reviewFeedback)
    ensures Count(Pass(v, s, o, n)) == Count(s) + 1
  {
    var s1 := Apply(s, Nodes.QgenNode(s, o.qgen(n)));
    var s2 := Pages(v, s1, o, n);
    assert Pass(v, s, o, n) == Apply(s2, Reviewer.ReviewerNode(s2, o.reviewer(n)));
    Reviewer.RejectingModelKeepsLooping(s2, o.reviewer(n), "fix");
  }

  /** The count of passes and revisions is reached: when the verdict model
      always rejects with non-empty feedback, a run with a parsed product makes
      exactly three passes and ends at three revisions. */
  lemma {:induction false} AlwaysRejectedRunsThreePasses(v: Variant, s: State, o: Oracles, n: nat)
    requires 0 <= Count(s) < 3
    requires forall m, k :: o.reviewer(m)(k) == Some(ReviewVerdict(false, "fix"))
    ensures Loop(v, s, o, n).passes == n + 3 - Count(s)
    ensures Count(Loop(v, s, o, n).final) == 3
    decreases 3 - Count(s)
  {
    var t := Pass(v, s, o, n);
    RejectedPass(v, s, o, n);
    if Count(t) < 3 {
      assert Loop(v, s, o, n) == Loop(v, t, o, n + 1);
      AlwaysRejectedRunsThreePasses(v, t, o, n + 1);
    } else {
      assert Loop(v, s, o, n) == RunResult(t, n + 1);
    }
  }

  /** An approval ends the run after that pass, with the count unchanged. */
  lemma ApprovalEndsRun(v: Variant, s: State, o: Oracles, n: nat)
    requires Pass(v, s, o, n).reviewFeedback.None?
    ensures Loop(v, s, o, n) == RunResult(Pass(v, s, o, n), n + 1)
    ensures Count(Loop(v, s, o, n).final) == Count(s)
  {
  }

  /** A rejection with empty feedback ends the run after that pass, although the count rose. */
  lemma EmptyRejectionEndsRun(v: Variant, s: State, o: Oracles, n: nat)
    requires Pass(v, s, o, n).reviewFeedback == Some(Verdict(""))
    ensures Loop(v, s, o, n) == RunResult(Pass(v, s, o, n), n + 1)
    ensures Count(Loop(v, s, o, n).final) == Count(s) + 1
  {
  }

  /** The monolith's page nodes, run in sequence, compute the same updates as
      when each reads the state before any of them ran; the three pages then
      do not depend on the order, while `error` keeps the last write. */
  lemma MonolithPagesOrder(s: State, o: Oracles, n: nat)
    ensures var uf := Nodes.FaqNode(s, o.faq(n));
            var up := Nodes.ProductPageNode(s, o.product(n));
            var uc := Nodes.ComparisonNode(s, o.comparison(n));
            var seqd := Pages(Monolith, s, o, n);
            var rev := Apply(Apply(Apply(s, uc), up), uf);
            && seqd == Apply(Apply(Apply(s, uf), up), uc)
            && seqd.faqPage == rev.faqPage && seqd.productPage == rev.productPage
            && seqd.comparisonPage == rev.comparisonPage
  {
    var uf := Nodes.FaqNode(s, o.faq(n));
    var up := Nodes.ProductPageNode(s, o.product(n));
    var s1 := Apply(s, uf);
    Nodes.PageNodesReadOnlyInputs(s, uf, o.faq(n), o.product(n), o.comparison(n));
    Nodes.PageNodesReadOnlyInputs(s1, up, o.faq(n), o.product(n), o.comparison(n));
  }

  /** In the modular variant the sequential pages equal any other order. */
  lemma ModularPagesOrder(s: State, o: Oracles, n: nat)
    ensures var uf := PageNodes.FaqNode(s, o.faq(n)(0));
            var up := PageNodes.ProductPageNode(s, o.product(n)(0));
            var uc := PageNodes.ComparisonNode(s, o.comparison(n)(0));
            Pages(Modular, s, o, n) == Apply(Apply(Apply(s, uc), up), uf)
  {
    PageNodes.PageUpdatesCommute(s, o.faq(n)(0), o.product(n)(0), o.comparison(n)(0));
  }
}

=== FILE: json.dfy ===
/** JSON-like values: the Python dictionaries, lists and scalars that the
    deterministic agents and templates pass around. Object key order is not
    modelled (a `map`). */
module Json {
  import opened Wrappers

  datatype Json =
    | JNull
    | JBool(b: bool)
    | JNum(n: real)
    | JStr(s: string)
    | JArr(items: seq<Json>)
    | JObj(fields: map<string, Json>)

  type Object = map<string, Json>

  /** Python's `d.get(key, default)`. */
  function Get(d: Object, key: string, default: Json): Json {
    if key in d then d[key] else default
  }

  function Strings(xs: seq<string>): (r: Json)
    ensures r.JArr? && |r.items| == |xs|
    ensures forall i :: 0 <= i < |xs| ==> r.items[i] == JStr(xs[i])
  {
    JArr(seq(|xs|, i requires 0 <= i < |xs| => JStr(xs[i])))
  }

  /** Reads back a list of strings; anything else is `None`. */
  function DecodeStrings(j: Json): (r: Option<seq<string>>)
  {
    if !j.JArr? then None
    else if forall i :: 0 <= i < |j.items| ==> j.items[i].JStr? then
      Some(seq(|j.items|, i requires 0 <= i < |j.items| && j.items[i].JStr? => j.items[i].s))
    else None
  }

  lemma DecodeStringsRoundTrip(xs: seq<string>)
    ensures DecodeStrings(Strings(xs)) == Some(xs)
  {
    var j := Strings(xs);
    assert forall i :: 0 <= i < |j.items| ==> j.items[i].JStr? && j.items[i].s == xs[i];
    assert DecodeStrings(j).value == xs;
  }

  /** Only lists of strings decode, so decoding inverts `Strings` exactly. */
  lemma DecodeStringsInverse(j: Json)
    requires DecodeStrings(j).Some?
    ensures Strings(DecodeStrings(j).value) == j
  {
    var xs := DecodeStrings(j).value;
    assert Strings(xs).items == j.items;
  }
}

=== FILE: logic_blocks.dfy ===
/** `LogicBlocks`: the reusable text builders shared by the deterministic agents.
    `format_currency` (a floating-point `"{:,.2f}"` rendering) is not modelled;
    its callers take it as a function parameter. */
module LogicBlocks {
  import opened Wrappers
  import opened Text
  import opened Records

  /** The rendering of an amount and a currency code, supplied by the caller. */
  type CurrencyFormatter = (real, string) -> string

  const TitleInfix := " | Best "
  const TitleSuffix := " Review & Specs"

  const Disclaimer := "Disclaimer: Product specifications and prices are subject to change. Please verify with the manufacturer."

  const UsagePrefix := "Usage Instructions: "
  const UsageSuffix := ". For best results, use daily."
  const DefaultApplication := "Apply as needed"

  const GenericBenefitPrefix := "Provides the benefit of "

  /** `generate_seo_title`: the name, then the category inside a fixed frame. */
  function SeoTitle(name: string, category: string): (r: string)
    ensures |r| == |name| + |category| + |TitleInfix| + |TitleSuffix|
    ensures r[..|name|] == name
    ensures r[|name|..|name| + |TitleInfix|] == TitleInfix
    ensures r[|name| + |TitleInfix|..|name| + |TitleInfix| + |category|] == category
    ensures r[|r| - |TitleSuffix|..] == TitleSuffix
  {
    name + TitleInfix + category + TitleSuffix
  }

  /** For a fixed name, the title determines the category. */
  lemma SeoTitleInjective(name: string, c1: string, c2: string)
    requires SeoTitle(name, c1) == SeoTitle(name, c2)
    ensures c1 == c2
  {
    var r := SeoTitle(name, c1);
    assert |c1| == |c2|;
    assert c1 == r[|name| + |TitleInfix|..|name| + |TitleInfix| + |c1|] == c2;
  }

  function Bullet(item: string): string {
    "- " + item
  }

  function Bullets(items: seq<string>): (r: seq<string>)
    ensures |r| == |items|
    ensures forall i :: 0 <= i < |items| ==> r[i] == Bullet(items[i])
  {
    seq(|items|, i requires 0 <= i < |items| => Bullet(items[i]))
  }

  /** `format_list`: one "- item" line per item. */
  function FormatList(items: seq<string>): (r: string)
    ensures |items| == 0 <==> r == ""
    ensures |items| > 0 ==> |r| >= 2 && r[..2] == "- "
  {
    var lines := Bullets(items);
    if |items| == 0 then Join("\n", lines)
    else
      assert Join("\n", lines)[..|lines[0]|] == lines[0] by { JoinStartsWithFirst("\n", lines); }
      Join("\n", lines)
  }

  lemma JoinStartsWithFirst(sep: string, xs: seq<string>)
    requires |xs| > 0
    ensures |Join(sep, xs)| >= |xs[0]| && Join(sep, xs)[..|xs[0]|] == xs[0]
  {
  }

  /** Splitting the formatted list on newlines gives back one bullet per item,
      in order, provided no item contains a newline. */
  lemma FormatListLines(items: seq<string>)
    requires |items| > 0
    requires forall i :: 0 <= i < |items| ==> '\n' !in items[i]
    ensures Split(FormatList(items), '\n') == Bullets(items)
  {
    var lines := Bullets(items);
    forall i | 0 <= i < |lines|
      ensures '\n' !in lines[i]
    {
      assert lines[i] == "- " + items[i];
    }
    assert "\n" == ['\n'];
    SplitJoin(lines, '\n');
  }

  /** One benefit: the first keyword rule that applies, else a generic phrase. */
  function Benefit(feature: string): (r: string)
    ensures Contains(feature, "Vitamin C") ==> r == "Brightens and evens skin tone"
    ensures !Contains(feature, "Vitamin C") && Contains(feature, "Hyaluronic") ==> r == "Deeply hydrates and plumps"
    ensures !Contains(feature, "Vitamin C") && !Contains(feature, "Hyaluronic") && Contains(feature, "SPF") ==>
              r == "Protects against UV damage"
    ensures !Contains(feature, "Vitamin C") && !Contains(feature, "Hyaluronic") && !Contains(feature, "SPF") ==>
              && |r| == |GenericBenefitPrefix| + |feature|
              && r[..|GenericBenefitPrefix|] == GenericBenefitPrefix
              && r[|GenericBenefitPrefix|..] == feature
  {
    if Contains(feature, "Vitamin C") then "Brightens and evens skin tone"
    else if Contains(feature, "Hyaluronic") then "Deeply hydrates and plumps"
    else if Contains(feature, "SPF") then "Protects against UV damage"
    else GenericBenefitPrefix + feature
  }

  /** `generate_benefits_block`: one benefit per feature, in feature order. */
  function BenefitsBlock(features: seq<string>): (r: seq<string>)
    ensures |r| == |features|
    ensures forall i :: 0 <= i < |features| ==> r[i] == Benefit(features[i])
  {
    seq(|features|, i requires 0 <= i < |features| => Benefit(features[i]))
  }

  /** The block is computed feature by feature. */
  lemma BenefitsBlockAppend(a: seq<string>, b: seq<string>)
    ensures BenefitsBlock(a + b) == BenefitsBlock(a) + BenefitsBlock(b)
  {
  }

  /** The application method: `specs.get("application", "Apply as needed")`,
      where a missing `specs` behaves like an empty one. */
  function ApplicationMethod(specs: Option<Specs>): string {
    match specs
    case None => DefaultApplication
    case Some(s) => Lookup(s, "application").GetOr(DefaultApplication)
  }

  /** `extract_usage_block`. */
  function UsageBlock(specs: Option<Specs>): string {
    UsagePrefix + ApplicationMethod(specs) + UsageSuffix
  }

  /** The usage text is the application method inside a fixed prefix and suffix,
      so the method can be read back from it. */
  lemma UsageBlockParts(specs: Option<Specs>)
    ensures var r := UsageBlock(specs);
            && |r| == |UsagePrefix| + |ApplicationMethod(specs)| + |UsageSuffix|
            && r[..|UsagePrefix|] == UsagePrefix
            && r[|UsagePrefix|..|r| - |UsageSuffix|] == ApplicationMethod(specs)
            && r[|r| - |UsageSuffix|..] == UsageSuffix
  {
  }

  /** Usage texts are equal exactly when their application methods are. */
  lemma UsageBlockInjective(s1: Option<Specs>, s2: Option<Specs>)
    ensures UsageBlock(s1) == UsageBlock(s2) <==> ApplicationMethod(s1) == ApplicationMethod(s2)
  {
    if UsageBlock(s1) == UsageBlock(s2) {
      UsageBlockParts(s1);
      UsageBlockParts(s2);
    }
  }

  /** A missing specification mapping reads like an empty one. */
  lemma UsageWithoutSpecs()
    ensures UsageBlock(None) == UsageBlock(Some([]))
    ensures ApplicationMethod(None) == DefaultApplication
  {
  }

  /** `compare_ingredients_block`: at most the first three features, " VS ",
      then all competitor ingredients. */
  function CompareIngredients(features: seq<string>, competitor: seq<string>): (r: string)
    ensures var main := Join(", ", features[..if |features| < 3 then |features| else 3]);
            && |r| == |main| + 4 + |Join(", ", competitor)|
            && r[..|main|] == main && r[|main|..|main| + 4] == " VS " && r[|main| + 4..] == Join(", ", competitor)
  {
    var main := Join(", ", features[..if |features| < 3 then |features| else 3]);
    main + " VS " + Join(", ", competitor)
  }

  /** Features beyond the third never appear. */
  lemma CompareIngredientsIgnoresTail(features: seq<string>, extra: seq<string>, competitor: seq<string>)
    requires |features| >= 3
    ensures CompareIngredients(features + extra, competitor) == CompareIngredients(features, competitor)
  {
    assert (features + extra)[..3] == features[..3];
  }
}

=== FILE: nodes.dfy ===
/** The monolith's workflow nodes: `parser_node`, `qgen_node`, `faq_node`,
    `product_page_node` and `comparison_node`. Each one maps the state to a
    partial update. Its model call is an oracle `llm`: `llm(k)` is the
    outcome of the k-th call. The call goes through the retry decorator with
    that node's budget. Every node catches whatever the decorated call
    raises and records an `error` instead. */
module Nodes {
  import opened Wrappers
  import opened Records
  import opened PipelineState
  import opened Retry
  import Schemas

  /** The decorator arguments of the five calls. */
  const ParserBudget := Budget(3, 1.0, 2.0)
  const QgenBudget := Budget(5, 1.0, 2.0)
  const PageBudget := Budget(3, 1.0, 2.0)

  /** The least number of questions an accepted question list holds. */
  const MinQuestions := 15

  /** The hard-coded budgets agree with the per-agent configuration table. */
  lemma BudgetsMatchAgentConfig()
    ensures ParserBudget == AgentConfig("parser")
    ensures QgenBudget == AgentConfig("qgen")
    ensures PageBudget == AgentConfig("page_agent")
  {
  }

  /** Parsing succeeds exactly when one of the four allowed calls returns. */
  function ParserNode(s: State, llm: nat -> Option<Product>): (u: Update)
    ensures Keys(u) <= {CleanDataKey, ErrorKey} && u.cleanData.Some?
    ensures u.cleanData.value.Some? <==> exists k :: 0 <= k <= ParserBudget.maxRetries && llm(k).Some?
    ensures u.cleanData.value.Some? ==> u.cleanData.value == Invoke(ParserBudget, llm) && u.error.None?
    ensures u.cleanData.value.None? ==> u.error == Some(ParsingFailed)
  {
    InvokeIff(ParserBudget, llm);
    match Invoke(ParserBudget, llm)
    case Some(p) => NoUpdate.(cleanData := Some(Some(p)))
    case None => NoUpdate.(cleanData := Some(None), error := Some(ParsingFailed))
  }

  /** Question generation. The count check runs after the decorated call has
      returned, so a short list is not retried. */
  function QgenNode(s: State, llm: nat -> Option<seq<Question>>): (u: Update)
    ensures Keys(u) <= {QuestionsKey, ErrorKey} && u.questions.Some? && u.questions.value.Some?
    ensures s.cleanData.None? ==> u == NoUpdate.(questions := Some(Some([])))
    ensures u.error.Some? ==> u.questions.value.value == []
    ensures s.cleanData.Some? ==>
              (u.error.None? <==> Invoke(QgenBudget, llm).Some? && |Invoke(QgenBudget, llm).value| >= MinQuestions)
    ensures s.cleanData.Some? && u.error.None? ==> u.questions.value == Invoke(QgenBudget, llm)
    ensures |u.questions.value.value| > 0 ==> |u.questions.value.value| >= MinQuestions
  {
    if s.cleanData.None? then NoUpdate.(questions := Some(Some([])))
    else
      match Invoke(QgenBudget, llm)
      case None => NoUpdate.(questions := Some(Some([])), error := Some(QuestionGenerationFailed))
      case Some(qs) =>
        if |qs| < MinQuestions then NoUpdate.(questions := Some(Some([])), error := Some(InsufficientQuestions(|qs|)))
        else NoUpdate.(questions := Some(Some(qs)))
  }

  /** The FAQ page needs a product and at least 15 questions before it calls the model. */
  function FaqNode(s: State, llm: nat -> Option<FaqPage>): (u: Update)
    ensures Keys(u) <= {FaqPageKey, ErrorKey} && u.faqPage.Some?
    ensures u.faqPage.value.None? <==> u.error.Some?
    ensures u.faqPage.value.Some? ==>
              && s.cleanData.Some? && s.questions.Some? && |s.questions.value| >= MinQuestions
              && u.faqPage.value == Invoke(PageBudget, llm)
    ensures s.cleanData.Some? && s.questions.Some? && |s.questions.value| >= MinQuestions ==>
              && u.faqPage.value == Invoke(PageBudget, llm)
              && (u.faqPage.value.Some? <==> exists k :: 0 <= k <= PageBudget.maxRetries && llm(k).Some?)
              && (u.error.Some? ==> u.error == Some(FaqGenerationFailed))
    ensures s.cleanData.None? || s.questions.None? || |s.questions.value| == 0 ==> u.error == Some(FaqMissingInputs)
    ensures s.cleanData.Some? && s.questions.Some? && 0 < |s.questions.value| < MinQuestions ==>
              u.error == Some(InsufficientFaqQuestions(|s.questions.value|))
  {
    InvokeIff(PageBudget, llm);
    if s.cleanData.None? || s.questions.None? || |s.questions.value| == 0 then
      NoUpdate.(faqPage := Some(None), error := Some(FaqMissingInputs))
    else if |s.questions.value| < MinQuestions then
      NoUpdate.(faqPage := Some(None), error := Some(InsufficientFaqQuestions(|s.questions.value|)))
    else
      match Invoke(PageBudget, llm)
      case Some(page) => NoUpdate.(faqPage := Some(Some(page)))
      case None => NoUpdate.(faqPage := Some(None), error := Some(FaqGenerationFailed))
  }

  function ProductPageNode(s: State, llm: nat -> Option<ProductPage>): (u: Update)
    ensures Keys(u) <= {ProductPageKey, ErrorKey} && u.productPage.Some?
    ensures u.productPage.value.None? <==> u.error.Some?
    ensures u.productPage.value.Some? ==> s.cleanData.Some? && u.productPage.value == Invoke(PageBudget, llm)
    ensures s.cleanData.Some? ==>
              && u.productPage.value == Invoke(PageBudget, llm)
              && (u.productPage.value.Some? <==> exists k :: 0 <= k <= PageBudget.maxRetries && llm(k).Some?)
    ensures s.cleanData.None? ==> u.error == Some(ProductPageMissingProduct)
    ensures s.cleanData.Some? && u.error.Some? ==> u.error == Some(ProductPageFailed)
  {
    InvokeIff(PageBudget, llm);
    if s.cleanData.None? then NoUpdate.(productPage := Some(None), error := Some(ProductPageMissingProduct))
    else
      match Invoke(PageBudget, llm)
      case Some(page) => NoUpdate.(productPage := Some(Some(page)))
      case None => NoUpdate.(productPage := Some(None), error := Some(ProductPageFailed))
  }

  function ComparisonNode(s: State, llm: nat -> Option<ComparisonPage>): (u: Update)
    ensures Keys(u) <= {ComparisonPageKey, ErrorKey} && u.comparisonPage.Some?
    ensures u.comparisonPage.value.None? <==> u.error.Some?
    ensures u.comparisonPage.value.Some? ==> s.cleanData.Some? && u.comparisonPage.value == Invoke(PageBudget, llm)
    ensures s.cleanData.Some? ==>
              && u.comparisonPage.value == Invoke(PageBudget, llm)
              && (u.comparisonPage.value.Some? <==> exists k :: 0 <= k <= PageBudget.maxRetries && llm(k).Some?)
    ensures s.cleanData.None? ==> u.error == Some(ComparisonMissingProduct)
    ensures s.cleanData.Some? && u.error.Some? ==> u.error == Some(ComparisonFailed)
  {
    InvokeIff(PageBudget, llm);
    if s.cleanData.None? then NoUpdate.(comparisonPage := Some(None), error := Some(ComparisonMissingProduct))
    else
      match Invoke(PageBudget, llm)
      case Some(page) => NoUpdate.(comparisonPage := Some(Some(page)))
      case None => NoUpdate.(comparisonPage := Some(None), error := Some(ComparisonFailed))
  }

  /** The question model's outcomes as the structured-output call delivers
      them: the reply is parsed into the strict `QuestionList` schema inside
      the decorated call, so every list it yields is strict, and a reply the
      schema rejects raises there and is retried. */
  ghost predicate SchemaChecked(llm: nat -> Option<seq<Question>>) {
    forall k :: llm(k).Some? ==> Schemas.StrictQuestionList(llm(k).value)
  }

  /** With schema-checked outcomes the count check after the call never fires:
      the only error left is the failure of the decorated call itself, and the
      node stores a list iff one of the six calls returns one. */
  lemma CountCheckUnreachable(s: State, llm: nat -> Option<seq<Question>>)
    requires SchemaChecked(llm)
    ensures QgenNode(s, llm).error.Some? ==> QgenNode(s, llm).error == Some(QuestionGenerationFailed)
    ensures s.cleanData.Some? ==>
              (QgenNode(s, llm).error.None? <==> exists k :: 0 <= k <= QgenBudget.maxRetries && llm(k).Some?)
  {
    InvokeIff(QgenBudget, llm);
    if Invoke(QgenBudget, llm).Some? {
      var k :| 0 <= k <= QgenBudget.maxRetries && llm(k) == Invoke(QgenBudget, llm)
               && forall j :: 0 <= j < k ==> llm(j).None?;
      assert Schemas.StrictQuestionList(llm(k).value);
    }
  }

  /** The three page nodes read only the product and the question list, so
      writes to any other key do not change what they return. */
  lemma PageNodesReadOnlyInputs(s: State, w: Update, f: nat -> Option<FaqPage>,
                                p: nat -> Option<ProductPage>, c: nat -> Option<ComparisonPage>)
    requires CleanDataKey !in Keys(w) && QuestionsKey !in Keys(w)
    ensures FaqNode(Apply(s, w), f) == FaqNode(s, f)
    ensures ProductPageNode(Apply(s, w), p) == ProductPageNode(s, p)
    ensures ComparisonNode(Apply(s, w), c) == ComparisonNode(s, c)
  {
  }

  /** Every failure path writes `error`, and `error` is the only key two page nodes share. */
  lemma PageNodesShareOnlyError(s: State, f: nat -> Option<FaqPage>,
                                p: nat -> Option<ProductPage>, c: nat -> Option<ComparisonPage>)
    ensures Keys(FaqNode(s, f)) * Keys(ProductPageNode(s, p)) <= {ErrorKey}
    ensures Keys(FaqNode(s, f)) * Keys(ComparisonNode(s, c)) <= {ErrorKey}
    ensures Keys(ProductPageNode(s, p)) * Keys(ComparisonNode(s, c)) <= {ErrorKey}
    ensures s.cleanData.None? ==>
              && ErrorKey in Keys(FaqNode(s, f))
              && ErrorKey in Keys(ProductPageNode(s, p))
              && ErrorKey in Keys(ComparisonNode(s, c))
  {
  }
}

=== FILE: page_nodes.dfy ===
/** The page nodes that `src/core/graph.py` wires in (`src/agents/page_agents.py`).
    Unlike the monolith's nodes they have no retry decorator and never write
    `error`. Each makes at most one model call, whose outcome is `llm`
    (`None` when it raises), and each writes only its own page key. */
module PageNodes {
  import opened Wrappers
  import opened Records
  import opened PipelineState

  /** `not product or not questions`: a missing product, or a missing or empty list. */
  predicate FaqInputsMissing(s: State) {
    s.cleanData.None? || s.questions.None? || |s.questions.value| == 0
  }

  function FaqNode(s: State, llm: Option<FaqPage>): (u: Update)
    ensures Keys(u) == {FaqPageKey}
    ensures u.faqPage.value.Some? <==> !FaqInputsMissing(s) && llm.Some?
    ensures u.faqPage.value.Some? ==> u.faqPage.value == llm
  {
    if FaqInputsMissing(s) then NoUpdate.(faqPage := Some(None))
    else NoUpdate.(faqPage := Some(llm))
  }

  function ProductPageNode(s: State, llm: Option<ProductPage>): (u: Update)
    ensures Keys(u) == {ProductPageKey}
    ensures u.productPage.value.Some? <==> s.cleanData.Some? && llm.Some?
    ensures u.productPage.value.Some? ==> u.productPage.value == llm
  {
    if s.cleanData.None? then NoUpdate.(productPage := Some(None))
    else NoUpdate.(productPage := Some(llm))
  }

  function ComparisonNode(s: State, llm: Option<ComparisonPage>): (u: Update)
    ensures Keys(u) == {ComparisonPageKey}
    ensures u.comparisonPage.value.Some? <==> s.cleanData.Some? && llm.Some?
    ensures u.comparisonPage.value.Some? ==> u.comparisonPage.value == llm
  {
    if s.cleanData.None? then NoUpdate.(comparisonPage := Some(None))
    else NoUpdate.(comparisonPage := Some(llm))
  }

  /** When the guard fails the model is not consulted at all. */
  lemma GuardSkipsCall(s: State, f1: Option<FaqPage>, f2: Option<FaqPage>,
                       p1: Option<ProductPage>, p2: Option<ProductPage>,
                       c1: Option<ComparisonPage>, c2: Option<ComparisonPage>)
    ensures FaqInputsMissing(s) ==> FaqNode(s, f1) == FaqNode(s, f2)
    ensures s.cleanData.None? ==> ProductPageNode(s, p1) == ProductPageNode(s, p2)
    ensures s.cleanData.None? ==> ComparisonNode(s, c1) == ComparisonNode(s, c2)
  {
  }

  /** The three updates write pairwise disjoint keys, so any merge order gives
      the same state; in particular the order of the three nodes is irrelevant. */
  lemma PageUpdatesCommute(s: State, f: Option<FaqPage>, p: Option<ProductPage>, c: Option<ComparisonPage>)
    ensures var uf, up, uc := FaqNode(s, f), ProductPageNode(s, p), ComparisonNode(s, c);
            && Keys(uf) !! Keys(up) && Keys(uf) !! Keys(uc) && Keys(up) !! Keys(uc)
            && Apply(Apply(Apply(s, uf), up), uc) == Apply(Apply(Apply(s, uc), up), uf)
            && Apply(Apply(Apply(s, uf), up), uc) == Apply(Apply(Apply(s, up), uf), uc)
  {
    var uf, up, uc := FaqNode(s, f), ProductPageNode(s, p), ComparisonNode(s, c);
    ApplyCommutes(s, uf, up);
    ApplyCommutes(Apply(s, up), uf, uc);
    ApplyCommutes(Apply(s, uf), up, uc);
    ApplyCommutes(s, uf, uc);
    ApplyCommutes(Apply(s, uc), uf, up);
    ApplyCommutes(s, up, uc);
  }
}

=== FILE: parser_agent.dfy ===
/** `ParserAgent.process`: renames two raw keys and fills every missing field
    with a default; present values are copied unchanged, with no validation. */
module ParserAgent {
  import opened Json

  /** One output field: its name, the raw key it is read from, and the default. */
  datatype FieldRule = FieldRule(output: string, source: string, default: Json)

  const Rules: seq<FieldRule> := [
    FieldRule("id", "productId", JStr("UNKNOWN")),
    FieldRule("name", "productName", JStr("Untitled Product")),
    FieldRule("category", "category", JStr("General")),
    FieldRule("price", "price", JObj(map["amount" := JNum(0.0), "currency" := JStr("USD")])),
    FieldRule("features", "features", JArr([])),
    FieldRule("specs", "specs", JObj(map[])),
    FieldRule("description", "description", JStr("")),
    FieldRule("competitors", "competitors", JArr([]))]

  const OutputKeys := {"id", "name", "category", "price", "features", "specs", "description", "competitors"}
  const SourceKeys := {"productId", "productName", "category", "price", "features", "specs", "description", "competitors"}

  function Process(raw: Object): (r: Object)
    ensures r.Keys == OutputKeys
    ensures forall i :: 0 <= i < |Rules| ==>
              r[Rules[i].output] == (if Rules[i].source in raw then raw[Rules[i].source] else Rules[i].default)
  {
    map[
      "id" := Get(raw, "productId", JStr("UNKNOWN")),
      "name" := Get(raw, "productName", JStr("Untitled Product")),
      "category" := Get(raw, "category", JStr("General")),
      "price" := Get(raw, "price", JObj(map["amount" := JNum(0.0), "currency" := JStr("USD")])),
      "features" := Get(raw, "features", JArr([])),
      "specs" := Get(raw, "specs", JObj(map[])),
      "description" := Get(raw, "description", JStr("")),
      "competitors" := Get(raw, "competitors", JArr([]))]
  }

  /** The rule table names each output and each source key exactly once. */
  lemma RulesCoverKeys()
    ensures forall i :: 0 <= i < |Rules| ==> Rules[i].output in OutputKeys && Rules[i].source in SourceKeys
    ensures forall k :: k in OutputKeys ==> exists i :: 0 <= i < |Rules| && Rules[i].output == k
    ensures forall k :: k in SourceKeys ==> exists i :: 0 <= i < |Rules| && Rules[i].source == k
    ensures forall i, j :: 0 <= i < j < |Rules| ==> Rules[i].output != Rules[j].output && Rules[i].source != Rules[j].source
    ensures |OutputKeys| == 8 && |SourceKeys| == 8
  {
    RulesInKeys();
    OutputsCovered();
    SourcesCovered();
    RulesDistinct();
    KeyCounts();
  }

  /** Each key set holds eight different names, added one at a time. */
  lemma KeyCounts()
    ensures |OutputKeys| == 8 && |SourceKeys| == 8
  {
    var o := {"id"};
    assert "name" !in o; o := o + {"name"};
    assert "category" !in o; o := o + {"category"};
    assert "price" !in o; o := o + {"price"};
    assert "features" !in o; o := o + {"features"};
    assert "specs" !in o; o := o + {"specs"};
    assert "description" !in o; o := o + {"description"};
    assert "competitors" !in o; o := o + {"competitors"};
    assert o == OutputKeys;
    var k := {"productId"};
    assert "productName" !in k; k := k + {"productName"};
    assert "category" !in k; k := k + {"category"};
    assert "price" !in k; k := k + {"price"};
    assert "features" !in k; k := k + {"features"};
    assert "specs" !in k; k := k + {"specs"};
    assert "description" !in k; k := k + {"description"};
    assert "competitors" !in k; k := k + {"competitors"};
    assert k == SourceKeys;
  }

  /** Every rule reads a source key and writes an output key. */
  lemma RulesInKeys()
    ensures forall i :: 0 <= i < |Rules| ==> Rules[i].output in OutputKeys && Rules[i].source in SourceKeys
  {
    forall i | 0 <= i < |Rules|
      ensures Rules[i].output in OutputKeys && Rules[i].source in SourceKeys
    {
      assert Rules[0].output == "id" && Rules[0].source == "productId";
      assert Rules[1].output == "name" && Rules[1].source == "productName";
      assert Rules[2].output == "category" && Rules[2].source == "category";
      assert Rules[3].output == "price" && Rules[3].source == "price";
      assert Rules[4].output == "features" && Rules[4].source == "features";
      assert Rules[5].output == "specs" && Rules[5].source == "specs";
      assert Rules[6].output == "description" && Rules[6].source == "description";
      assert Rules[7].output == "competitors" && Rules[7].source == "competitors";
    }
  }

  /** Every output key is written by some rule. */
  lemma OutputsCovered()
    ensures forall k :: k in OutputKeys ==> exists i :: 0 <= i < |Rules| && Rules[i].output == k
  {
    forall k | k in OutputKeys
      ensures exists i :: 0 <= i < |Rules| && Rules[i].output == k
    {
      if k == "id" { assert Rules[0].output == k; }
      else if k == "name" { assert Rules[1].output == k; }
      else if k == "category" { assert Rules[2].output == k; }
      else if k == "price" { assert Rules[3].output == k; }
      else if k == "features" { assert Rules[4].output == k; }
      else if k == "specs" { assert Rules[5].output == k; }
      else if k == "description" { assert Rules[6].output == k; }
      else { assert Rules[7].output == k; }
    }
  }

  /** Every source key is read by some rule. */
  lemma SourcesCovered()
    ensures forall k :: k in SourceKeys ==> exists i :: 0 <= i < |Rules| && Rules[i].source == k
  {
    forall k | k in SourceKeys
      ensures exists i :: 0 <= i < |Rules| && Rules[i].source == k
    {
      if k == "productId" { assert Rules[0].source == k; }
      else if k == "productName" { assert Rules[1].source == k; }
      else if k == "category" { assert Rules[2].source == k; }
      else if k == "price" { assert Rules[3].source == k; }
      else if k == "features" { assert Rules[4].source == k; }
      else if k == "specs" { assert Rules[5].source == k; }
      else if k == "description" { assert Rules[6].source == k; }
      else { assert Rules[7].source == k; }
    }
  }

  /** No two rules share an output key or a source key: every pair of names
      differs in its length or its first letter. */
  lemma RulesDistinct()
    ensures forall i, j :: 0 <= i < j < |Rules| ==> Rules[i].output != Rules[j].output && Rules[i].source != Rules[j].source
  {
    forall i, j | 0 <= i < j < |Rules|
      ensures Rules[i].output != Rules[j].output && Rules[i].source != Rules[j].source
    {
      var a, b, c, d := Rules[i].output, Rules[j].output, Rules[i].source, Rules[j].source;
      assert |a| > 0 && |b| > 0 && |c| > 0 && |d| > 0;
      assert |a| != |b| || a[0] != b[0];
      assert |c| != |d| || c[0] != d[0];
    }
  }

  /** The output depends on the raw input only through the eight source keys. */
  lemma OnlySourceKeysMatter(raw1: Object, raw2: Object)
    requires forall k :: k in SourceKeys ==> (k in raw1 <==> k in raw2)
    requires forall k :: k in SourceKeys && k in raw1 ==> raw1[k] == raw2[k]
    ensures Process(raw1) == Process(raw2)
  {
  }

  /** In particular, raw keys named "id" or "name" are ignored. */
  lemma RawIdAndNameIgnored(raw: Object, v: Json, w: Json)
    ensures Process(raw["id" := v]["name" := w]) == Process(raw - {"id", "name"})
  {
    OnlySourceKeysMatter(raw["id" := v]["name" := w], raw - {"id", "name"});
  }

  /** The empty input yields every default. */
  lemma EmptyInputDefaults()
    ensures Process(map[]) == map[
      "id" := JStr("UNKNOWN"),
      "name" := JStr("Untitled Product"),
      "category" := JStr("General"),
      "price" := JObj(map["amount" := JNum(0.0), "currency" := JStr("USD")]),
      "features" := JArr([]),
      "specs" := JObj(map[]),
      "description" := JStr(""),
      "competitors" := JArr([])]
  {
  }

  /** Normalising twice is not the identity: the second pass no longer finds
      `productId` / `productName` and falls back to the defaults. */
  lemma NotIdempotent()
    ensures Process(Process(map["productId" := JStr("P1")]))["id"] == JStr("UNKNOWN")
    ensures Process(map["productId" := JStr("P1")])["id"] == JStr("P1")
  {
  }
}

=== FILE: pipeline_state.dfy ===
/** The workflow state (`AgentState`) and the partial updates the nodes return.

    A missing key and a key holding `None` are both `None` here: the engine
    writes every key a node reads before that node runs. The one key read
    with a default is `revision_count`, read as 0 when missing. */
module PipelineState {
  import opened Wrappers
  import opened Json
  import opened Records

  /** The reviewer's feedback. Only the verdict text comes from the model; the
      other three are the reviewer's own messages, which are never empty. */
  datatype Feedback =
    | TooFewFaqs(count: nat)
    | ExternalSearch(index: nat)  // reported 1-based in the message
    | Verdict(text: string)
    | ReviewerFailure

  /** The `error` messages the monolith's nodes write. */
  datatype NodeError =
    | ParsingFailed
    | QuestionGenerationFailed
    | InsufficientQuestions(count: nat)
    | FaqMissingInputs
    | InsufficientFaqQuestions(count: nat)
    | FaqGenerationFailed
    | ProductPageMissingProduct
    | ProductPageFailed
    | ComparisonMissingProduct
    | ComparisonFailed
    | ReviewerFailed

  datatype State = State(
    rawData: Object,
    cleanData: Option<Product>,
    questions: Option<seq<Question>>,
    faqPage: Option<FaqPage>,
    productPage: Option<ProductPage>,
    comparisonPage: Option<ComparisonPage>,
    reviewFeedback: Option<Feedback>,
    revisionCount: Option<int>,
    tone: Option<string>,
    error: Option<NodeError>)

  /** The state `main` starts from: raw data, a zero count and a tone. */
  function Initial(raw: Object, tone: string): (s: State)
    ensures s.revisionCount == Some(0) && s.tone == Some(tone) && s.rawData == raw
    ensures s.cleanData.None? && s.questions.None? && s.reviewFeedback.None? && s.error.None?
    ensures s.faqPage.None? && s.productPage.None? && s.comparisonPage.None?
  {
    State(raw, None, None, None, None, None, None, Some(0), Some(tone), None)
  }

  /** `state.get("revision_count", 0)`. */
  function Count(s: State): int {
    s.revisionCount.GetOr(0)
  }

  /** Python truthiness of `review_feedback`: `None` and `""` are false. */
  predicate Truthy(f: Option<Feedback>) {
    f.Some? && f.value != Verdict("")
  }

  /** The state keys a node can write. */
  datatype Key = CleanDataKey | QuestionsKey | FaqPageKey | ProductPageKey | ComparisonPageKey
               | ReviewFeedbackKey | RevisionCountKey | ErrorKey

  /** A partial update: `None` leaves a key alone, `Some(v)` writes `v`
      (which may itself be `None`, as in `{"faq_page": None}`). */
  datatype Update = Update(
    cleanData: Option<Option<Product>>,
    questions: Option<Option<seq<Question>>>,
    faqPage: Option<Option<FaqPage>>,
    productPage: Option<Option<ProductPage>>,
    comparisonPage: Option<Option<ComparisonPage>>,
    reviewFeedback: Option<Option<Feedback>>,
    revisionCount: Option<int>,
    error: Option<NodeError>)

  const NoUpdate := Update(None, None, None, None, None, None, None, None)

  /** The keys an update writes. */
  function Keys(u: Update): set<Key> {
    (if u.cleanData.Some? then {CleanDataKey} else {})
    + (if u.questions.Some? then {QuestionsKey} else {})
    + (if u.faqPage.Some? then {FaqPageKey} else {})
    + (if u.productPage.Some? then {ProductPageKey} else {})
    + (if u.comparisonPage.Some? then {ComparisonPageKey} else {})
    + (if u.reviewFeedback.Some? then {ReviewFeedbackKey} else {})
    + (if u.revisionCount.Some? then {RevisionCountKey} else {})
    + (if u.error.Some? then {ErrorKey} else {})
  }

  function Write<T>(current: Option<T>, w: Option<Option<T>>): Option<T> {
    if w.Some? then w.value else current
  }

  /** Merging a node's update into the state. */
  function Apply(s: State, u: Update): (r: State)
    ensures r.rawData == s.rawData && r.tone == s.tone
    ensures CleanDataKey !in Keys(u) ==> r.cleanData == s.cleanData
    ensures QuestionsKey !in Keys(u) ==> r.questions == s.questions
    ensures FaqPageKey !in Keys(u) ==> r.faqPage == s.faqPage
    ensures ProductPageKey !in Keys(u) ==> r.productPage == s.productPage
    ensures ComparisonPageKey !in Keys(u) ==> r.comparisonPage == s.comparisonPage
    ensures ReviewFeedbackKey !in Keys(u) ==> r.reviewFeedback == s.reviewFeedback
    ensures RevisionCountKey !in Keys(u) ==> r.revisionCount == s.revisionCount
    ensures ErrorKey !in Keys(u) ==> r.error == s.error
  {
    State(
      s.rawData,
      Write(s.cleanData, u.cleanData),
      Write(s.questions, u.questions),
      Write(s.faqPage, u.faqPage),
      Write(s.productPage, u.productPage),
      Write(s.comparisonPage, u.comparisonPage),
      Write(s.reviewFeedback, u.reviewFeedback),
      if u.revisionCount.Some? then u.revisionCount else s.revisionCount,
      s.tone,
      if u.error.Some? then u.error else s.error)
  }

  /** An update that writes nothing leaves the state as it is. */
  lemma ApplyNothing(s: State)
    ensures Keys(NoUpdate) == {}
    ensures Apply(s, NoUpdate) == s
  {
  }

  /** Updates with disjoint key sets can be merged in either order. */
  lemma ApplyCommutes(s: State, u1: Update, u2: Update)
    requires Keys(u1) !! Keys(u2)
    ensures Apply(Apply(s, u1), u2) == Apply(Apply(s, u2), u1)
  {
    assert u1.cleanData.None? || u2.cleanData.None? by { if u1.cleanData.Some? { assert CleanDataKey in Keys(u1); } }
    assert u1.questions.None? || u2.questions.None? by { if u1.questions.Some? { assert QuestionsKey in Keys(u1); } }
    assert u1.faqPage.None? || u2.faqPage.None? by { if u1.faqPage.Some? { assert FaqPageKey in Keys(u1); } }
    assert u1.productPage.None? || u2.productPage.None? by { if u1.productPage.Some? { assert ProductPageKey in Keys(u1); } }
    assert u1.comparisonPage.None? || u2.comparisonPage.None? by { if u1.comparisonPage.Some? { assert ComparisonPageKey in Keys(u1); } }
    assert u1.reviewFeedback.None? || u2.reviewFeedback.None? by { if u1.reviewFeedback.Some? { assert ReviewFeedbackKey in Keys(u1); } }
    assert u1.revisionCount.None? || u2.revisionCount.None? by { if u1.revisionCount.Some? { assert RevisionCountKey in Keys(u1); } }
    assert u1.error.None? || u2.error.None? by { if u1.error.Some? { assert ErrorKey in Keys(u1); } }
  }

  /** Writing the same key twice keeps the second write. */
  lemma LastWriteWins(s: State, e1: NodeError, e2: NodeError)
    ensures Apply(Apply(s, NoUpdate.(error := Some(e1))), NoUpdate.(error := Some(e2))).error == Some(e2)
    ensures e1 != e2 ==> Apply(Apply(s, NoUpdate.(error := Some(e2))), NoUpdate.(error := Some(e1))).error != Some(e2)
  {
  }
}

=== FILE: product_page_agent.dfy ===
/** `ProductPageAgent.process`: the product landing page as a rendered
    dictionary. The price rendering (`format_currency`) is a parameter. */
module ProductPageAgent {
  import opened Wrappers
  import opened Json
  import opened Records
  import opened LogicBlocks
  import opened Templates

  const MetaLength := 150
  const Ellipsis := "..."
  const SubheadlineLead := "Experience the future of "
  const CallToAction := "Buy Now"

  /** `description[:150] + "..."`: Python slicing stops at the end of a short text. */
  function MetaDescription(d: string): (r: string)
    ensures |r| == (if |d| < MetaLength then |d| else MetaLength) + |Ellipsis|
    ensures |r| <= MetaLength + |Ellipsis|
    ensures r[|r| - |Ellipsis|..] == Ellipsis
    ensures r[..|r| - |Ellipsis|] <= d
  {
    (if |d| < MetaLength then d else d[..MetaLength]) + Ellipsis
  }

  /** A description of at most 150 characters survives whole. */
  lemma ShortDescriptionKept(d: string)
    requires |d| <= MetaLength
    ensures MetaDescription(d) == d + Ellipsis
  {
  }

  /** Descriptions that agree on their first 150 characters give the same meta text. */
  lemma MetaIgnoresTail(d: string, extra: string)
    requires |d| >= MetaLength
    ensures MetaDescription(d + extra) == MetaDescription(d)
  {
    assert (d + extra)[..MetaLength] == d[..MetaLength];
  }

  /** The keys of a specification mapping. */
  function SpecKeys(specs: Specs): set<string> {
    set i | 0 <= i < |specs| :: specs[i].0
  }

  /** A specification mapping as a JSON object (the first entry of a key wins,
      as `Lookup` reads it). */
  function SpecsJson(specs: Specs): (r: Json)
    ensures r.JObj? && r.fields.Keys == SpecKeys(specs)
    ensures forall k :: k in r.fields ==> Lookup(specs, k).Some? && r.fields[k] == JStr(Lookup(specs, k).value)
  {
    JObj(map k | k in SpecKeys(specs) :: JStr(Lookup(specs, k).value))
  }

  function Process(fmt: CurrencyFormatter, p: ProductData): (r: Object)
    ensures r.Keys == {"meta", "hero", "features", "benefits", "specs", "usage", "cta"}
    ensures r["meta"] == JObj(map["title" := JStr(SeoTitle(p.name, p.category)),
                                  "description" := JStr(MetaDescription(p.description))])
    ensures r["hero"].JObj? && r["hero"].fields.Keys == {"headline", "subheadline", "price"}
    ensures r["hero"].fields["headline"] == JStr(p.name)
    ensures r["hero"].fields["subheadline"] == JStr(SubheadlineLead + p.category)
    ensures r["hero"].fields["price"] == JStr(fmt(p.price.amount, p.price.currency))
    ensures r["features"].JObj? && r["features"].fields.Keys == {"title", "list"}
    ensures r["features"].fields["title"] == JStr("Key Features")
    ensures DecodeStrings(r["features"].fields["list"]) == Some(p.features)
    ensures DecodeStrings(r["benefits"]) == Some(BenefitsBlock(p.features))
    ensures r["specs"].JObj? && r["specs"].fields.Keys == {"title", "data"}
    ensures r["specs"].fields["title"] == JStr("Technical Specifications")
    ensures r["specs"].fields["data"] == SpecsJson(p.specs)
    ensures r["usage"] == JStr(UsageBlock(Some(p.specs)))
    ensures r["cta"] == JStr(CallToAction)
  {
    DecodeStringsRoundTrip(p.features);
    DecodeStringsRoundTrip(BenefitsBlock(p.features));
    Render(ProductPageTemplate, map[
      "meta" := JObj(map["title" := JStr(SeoTitle(p.name, p.category)),
                         "description" := JStr(MetaDescription(p.description))]),
      "hero" := JObj(map["headline" := JStr(p.name),
                         "subheadline" := JStr(SubheadlineLead + p.category),
                         "price" := JStr(fmt(p.price.amount, p.price.currency))]),
      "features" := JObj(map["title" := JStr("Key Features"), "list" := Strings(p.features)]),
      "benefits" := Strings(BenefitsBlock(p.features)),
      "specs" := JObj(map["title" := JStr("Technical Specifications"), "data" := SpecsJson(p.specs)]),
      "usage" := JStr(UsageBlock(Some(p.specs))),
      "cta" := JStr(CallToAction)])
  }

  /** One benefit per feature, position by position. */
  lemma BenefitsFollowFeatures(fmt: CurrencyFormatter, p: ProductData)
    ensures var b := DecodeStrings(Process(fmt, p)["benefits"]).value;
            && |b| == |p.features|
            && forall i :: 0 <= i < |p.features| ==> b[i] == Benefit(p.features[i])
  {
  }

  /** The currency formatter is consulted only for the hero price. */
  lemma FormatterOnlyInPrice(f1: CurrencyFormatter, f2: CurrencyFormatter, p: ProductData)
    requires f1(p.price.amount, p.price.currency) == f2(p.price.amount, p.price.currency)
    ensures Process(f1, p) == Process(f2, p)
  {
  }
}

=== FILE: question_generator.dfy ===
/** `QuestionGeneratorAgent.process`: the deterministic question-list builder.

    The list is, in order: one usage question, two questions per feature, one
    question per specification entry, three safety, three purchase and one
    comparison question. The comparison answer names the first feature, so a
    product without features raises (modelled as `Err`). */
module QuestionGenerator {
  import opened Wrappers
  import opened Records
  import opened Seqs
  import opened LogicBlocks
  import Validators

  const Usage := "Usage"
  const Informational := "Informational"
  const Safety := "Safety"
  const Purchase := "Purchase"
  const Comparison := "Comparison"

  /** `product_data['features'][0]` on an empty list. */
  datatype GenerationError = NoFirstFeature

  // The fixed wording of the generated questions and answers.
  const UseAsk := "How do I use "
  const HowDoesThe := "How does the "
  const BenefitAsk := " benefit my skin?"
  const BenefitClaim := " helps to improve skin health and appearance by targeting specific concerns."
  const SensitiveAsk := " suitable for sensitive skin?"
  const SensitiveClaim := " is formulated to be gentle and effective for all skin types."
  const WhatIsThe := "What is the "
  const DailyUseAsk := " safe for daily use?"
  const DailyUseClaim := " is dermatologically tested and safe for daily application."
  const SideEffectsAsk := "Are there any side effects?"
  const SideEffectsAnswer := "No common side effects have been reported. Patch test recommended."
  const PregnancyAsk := "Is it safe for pregnant women?"
  const PregnancyAnswer := "Please consult your healthcare provider before using new skincare products during pregnancy."
  const WhereToBuyAsk := "Where can I buy "
  const AvailabilityClaim := " is available exclusively on our official website and select retail partners."
  const ReturnPolicyAsk := "What is the return policy?"
  const ReturnPolicyAnswer := "We offer a 30-day money-back guarantee if you are not satisfied."
  const ShippingAsk := "Do you offer international shipping?"
  const ShippingAnswer := "Yes, we ship to over 50 countries worldwide."
  const BetterThanAsk := " better than competitors?"
  const BlendClaim := " offers a unique blend of premium ingredients like "
  const PriceClaim := " at a competitive price."

  function UsageQuestion(name: string, specs: Specs): Question {
    Question(Usage, UseAsk + name + "?", UsageBlock(Some(specs)))
  }

  function FeatureBenefitQuestion(name: string, feature: string): Question {
    Question(Usage, HowDoesThe + feature + BenefitAsk,
      "The " + feature + " in " + name + BenefitClaim)
  }

  function FeatureSensitivityQuestion(name: string, feature: string): Question {
    Question(Informational, "Is the " + feature + SensitiveAsk,
      "Yes, the " + feature + " used in " + name + SensitiveClaim)
  }

  function SpecAnswer(name: string, key: string, value: string): string {
    "The " + key + " of " + name + " is " + value + "."
  }

  function SpecQuestion(name: string, key: string, value: string): Question {
    Question(Informational, WhatIsThe + key + " of " + name + "?", SpecAnswer(name, key, value))
  }

  /** The two questions of every feature, in feature order. */
  function FeatureQuestions(name: string, features: seq<string>): (r: seq<Question>)
    ensures |r| == 2 * |features|
  {
    if |features| == 0 then []
    else [FeatureBenefitQuestion(name, features[0]), FeatureSensitivityQuestion(name, features[0])]
         + FeatureQuestions(name, features[1..])
  }

  /** Feature `i` owns positions `2i` and `2i + 1`. */
  lemma {:induction false} FeatureQuestionsAt(name: string, features: seq<string>, i: nat)
    requires i < |features|
    ensures FeatureQuestions(name, features)[2 * i] == FeatureBenefitQuestion(name, features[i])
    ensures FeatureQuestions(name, features)[2 * i + 1] == FeatureSensitivityQuestion(name, features[i])
  {
    if i > 0 {
      var rest := FeatureQuestions(name, features[1..]);
      FeatureQuestionsAt(name, features[1..], i - 1);
      assert features[1..][i - 1] == features[i];
      var head := [FeatureBenefitQuestion(name, features[0]), FeatureSensitivityQuestion(name, features[0])];
      assert FeatureQuestions(name, features) == head + rest;
      assert (head + rest)[2 * i] == rest[2 * (i - 1)];
      assert (head + rest)[2 * i + 1] == rest[2 * (i - 1) + 1];
    }
  }

  /** One question per specification entry, in iteration order. */
  function SpecQuestions(name: string, specs: Specs): (r: seq<Question>)
    ensures |r| == |specs|
    ensures forall j :: 0 <= j < |specs| ==> r[j] == SpecQuestion(name, specs[j].0, specs[j].1)
  {
    seq(|specs|, j requires 0 <= j < |specs| => SpecQuestion(name, specs[j].0, specs[j].1))
  }

  /** The seven fixed questions closing the list. */
  function TailQuestions(name: string, firstFeature: string): (r: seq<Question>)
    ensures |r| == 7
    ensures forall k :: 0 <= k < 7 ==> r[k].category == TailCategories[k]
  {
    [ Question(Safety, "Is " + name + DailyUseAsk,
        "Yes, " + name + DailyUseClaim),
      Question(Safety, SideEffectsAsk,
        SideEffectsAnswer),
      Question(Safety, PregnancyAsk,
        PregnancyAnswer),
      Question(Purchase, WhereToBuyAsk + name + "?",
        name + AvailabilityClaim),
      Question(Purchase, ReturnPolicyAsk,
        ReturnPolicyAnswer),
      Question(Purchase, ShippingAsk,
        ShippingAnswer),
      Question(Comparison, "How is " + name + BetterThanAsk,
        name + BlendClaim + firstFeature + PriceClaim) ]
  }

  const TailCategories := [Safety, Safety, Safety, Purchase, Purchase, Purchase, Comparison]

  /** The list is laid out in four consecutive segments. */
  function Process(p: ProductData): (r: Result<seq<Question>, GenerationError>)
    ensures r.Err? <==> |p.features| == 0
    ensures r.Ok? ==>
              var qs := r.value;
              var f := 2 * |p.features|;
              var s := |p.specs|;
              && |qs| == 8 + f + s
              && qs[0] == UsageQuestion(p.name, p.specs)
              && qs[1..1 + f] == FeatureQuestions(p.name, p.features)
              && qs[1 + f..1 + f + s] == SpecQuestions(p.name, p.specs)
              && qs[1 + f + s..] == TailQuestions(p.name, p.features[0])
  {
    if |p.features| == 0 then Err(NoFirstFeature)
    else
      var head := [UsageQuestion(p.name, p.specs)];
      var fq := FeatureQuestions(p.name, p.features);
      var sq := SpecQuestions(p.name, p.specs);
      var tail := TailQuestions(p.name, p.features[0]);
      var qs := head + fq + sq + tail;
      assert qs[1..1 + |fq|] == fq by { assert qs == head + fq + (sq + tail); }
      assert qs[1 + |fq|..1 + |fq| + |sq|] == sq by { assert qs == (head + fq) + sq + tail; }
      assert qs[1 + |fq| + |sq|..] == tail by { assert qs == (head + fq + sq) + tail; }
      Ok(qs)
  }

  /** Which segment a position falls in, and the element it holds there. */
  lemma ProcessAt(p: ProductData, i: nat)
    requires |p.features| > 0 && i < |Process(p).value|
    ensures var qs := Process(p).value;
            var f := 2 * |p.features|;
            var s := |p.specs|;
            && (i == 0 ==> qs[i] == UsageQuestion(p.name, p.specs))
            && (1 <= i < 1 + f ==> qs[i] == FeatureQuestions(p.name, p.features)[i - 1])
            && (1 + f <= i < 1 + f + s ==> qs[i] == SpecQuestions(p.name, p.specs)[i - 1 - f])
            && (1 + f + s <= i ==> qs[i] == TailQuestions(p.name, p.features[0])[i - 1 - f - s])
  {
    var qs := Process(p).value;
    var f := 2 * |p.features|;
    var s := |p.specs|;
    if 1 <= i < 1 + f {
      assert qs[1..1 + f][i - 1] == qs[i];
    } else if 1 + f <= i < 1 + f + s {
      assert qs[1 + f..1 + f + s][i - 1 - f] == qs[i];
    } else if 1 + f + s <= i {
      assert qs[1 + f + s..][i - 1 - f - s] == qs[i];
    }
  }

  /** Feature `i` asks its benefit question at position 1 + 2i and its
      sensitivity question right after. */
  lemma FeaturePositions(p: ProductData)
    requires |p.features| > 0
    ensures var qs := Process(p).value;
            forall i :: 0 <= i < |p.features| ==>
              qs[1 + 2 * i] == FeatureBenefitQuestion(p.name, p.features[i]) &&
              qs[2 + 2 * i] == FeatureSensitivityQuestion(p.name, p.features[i])
  {
    forall i | 0 <= i < |p.features|
      ensures Process(p).value[1 + 2 * i] == FeatureBenefitQuestion(p.name, p.features[i])
      ensures Process(p).value[2 + 2 * i] == FeatureSensitivityQuestion(p.name, p.features[i])
    {
      FeatureQuestionsAt(p.name, p.features, i);
      ProcessAt(p, 1 + 2 * i);
      ProcessAt(p, 2 + 2 * i);
    }
  }

  /** Specification entry `j` is asked about right after the feature questions, in order. */
  lemma SpecPositions(p: ProductData)
    requires |p.features| > 0
    ensures var qs, f := Process(p).value, 2 * |p.features|;
            forall j :: 0 <= j < |p.specs| ==> qs[1 + f + j] == SpecQuestion(p.name, p.specs[j].0, p.specs[j].1)
  {
    var qs, f, s := Process(p).value, 2 * |p.features|, |p.specs|;
    var sq := SpecQuestions(p.name, p.specs);
    assert qs[1 + f..1 + f + s] == sq;
    forall j | 0 <= j < s
      ensures qs[1 + f + j] == SpecQuestion(p.name, p.specs[j].0, p.specs[j].1)
    {
      assert qs[1 + f + j] == sq[j];
    }
  }

  /** The last seven questions carry the fixed tail categories. */
  lemma TailPositions(p: ProductData)
    requires |p.features| > 0
    ensures var qs, f, s := Process(p).value, 2 * |p.features|, |p.specs|;
            forall k :: 0 <= k < 7 ==> qs[1 + f + s + k].category == TailCategories[k]
  {
    var qs, f, s := Process(p).value, 2 * |p.features|, |p.specs|;
    var tail := TailQuestions(p.name, p.features[0]);
    assert qs[1 + f + s..] == tail;
    forall k | 0 <= k < 7
      ensures qs[1 + f + s + k].category == TailCategories[k]
    {
      assert qs[1 + f + s + k] == tail[k];
    }
  }

  /** Position by position: the usage question, two questions per feature,
      one per specification entry, then the seven fixed questions by category. */
  lemma ProcessPositions(p: ProductData)
    requires |p.features| > 0
    ensures var qs := Process(p).value;
            var f := 2 * |p.features|;
            var s := |p.specs|;
            && qs[0].category == Usage
            && qs[0].answer == UsageBlock(Some(p.specs))
            && (forall i :: 0 <= i < |p.features| ==>
                  qs[1 + 2 * i] == FeatureBenefitQuestion(p.name, p.features[i]) &&
                  qs[2 + 2 * i] == FeatureSensitivityQuestion(p.name, p.features[i]))
            && (forall j :: 0 <= j < s ==> qs[1 + f + j] == SpecQuestion(p.name, p.specs[j].0, p.specs[j].1))
            && (forall k :: 0 <= k < 7 ==> qs[1 + f + s + k].category == TailCategories[k])
  {
    ProcessAt(p, 0);
    FeaturePositions(p);
    SpecPositions(p);
    TailPositions(p);
  }

  // ---------------------------------------------------------------------------
  // Categories

  function CategoryList(qs: seq<Question>): (r: seq<string>)
    ensures |r| == |qs|
    ensures forall i :: 0 <= i < |qs| ==> r[i] == qs[i].category
  {
    seq(|qs|, i requires 0 <= i < |qs| => qs[i].category)
  }

  lemma CategoryListAppend(a: seq<Question>, b: seq<Question>)
    ensures CategoryList(a + b) == CategoryList(a) + CategoryList(b)
  {
  }

  /** Every feature contributes exactly one Usage and one Informational question. */
  lemma {:induction false} FeatureCategoryCounts(name: string, features: seq<string>)
    ensures Count(CategoryList(FeatureQuestions(name, features)), Usage) == |features|
    ensures Count(CategoryList(FeatureQuestions(name, features)), Informational) == |features|
    ensures forall k :: 0 <= k < 2 * |features| ==>
              FeatureQuestions(name, features)[k].category in {Usage, Informational}
  {
    if |features| > 0 {
      var rest := FeatureQuestions(name, features[1..]);
      var head := [FeatureBenefitQuestion(name, features[0]), FeatureSensitivityQuestion(name, features[0])];
      FeatureCategoryCounts(name, features[1..]);
      assert FeatureQuestions(name, features) == head + rest;
      CategoryListAppend(head, rest);
      assert CategoryList(head) == [Usage, Informational];
      CountAppend([Usage, Informational], CategoryList(rest), Usage);
      CountAppend([Usage, Informational], CategoryList(rest), Informational);
    }
  }

  /** The category sequence of a generated list, segment by segment. */
  lemma CategorySegments(p: ProductData)
    requires |p.features| > 0
    ensures CategoryList(Process(p).value) ==
              [Usage] + CategoryList(FeatureQuestions(p.name, p.features))
              + CategoryList(SpecQuestions(p.name, p.specs)) + TailCategories
  {
    var qs := Process(p).value;
    var fq := FeatureQuestions(p.name, p.features);
    var sq := SpecQuestions(p.name, p.specs);
    var rhs := [Usage] + CategoryList(fq) + CategoryList(sq) + TailCategories;
    forall i | 0 <= i < |qs|
      ensures CategoryList(qs)[i] == rhs[i]
    {
      ProcessAt(p, i);
    }
  }

  lemma TailCategoryCounts()
    ensures Count(TailCategories, Usage) == 0 && Count(TailCategories, Informational) == 0
    ensures Count(TailCategories, Safety) == 3 && Count(TailCategories, Purchase) == 3
    ensures Count(TailCategories, Comparison) == 1
  {
    var a, b, c := [Safety, Safety, Safety], [Purchase, Purchase, Purchase], [Comparison];
    assert TailCategories == a + b + c;
    forall x | x in {Usage, Informational, Safety, Purchase, Comparison}
      ensures Count(TailCategories, x) == Count(a, x) + Count(b, x) + Count(c, x)
    {
      CountAppend(a + b, c, x);
      CountAppend(a, b, x);
    }
    CountAll(a, Safety);
    CountAll(b, Purchase);
    CountAll(c, Comparison);
    forall x | x in {Usage, Informational, Purchase, Comparison}
      ensures Count(a, x) == 0
    {
      CountAbsent(a, x);
    }
    forall x | x in {Usage, Informational, Safety, Comparison}
      ensures Count(b, x) == 0
    {
      CountAbsent(b, x);
    }
    forall x | x in {Usage, Informational, Safety, Purchase}
      ensures Count(c, x) == 0
    {
      CountAbsent(c, x);
    }
  }

  lemma CountBySegment(p: ProductData, x: string)
    requires |p.features| > 0
    ensures Count(CategoryList(Process(p).value), x) ==
              Count([Usage], x) + Count(CategoryList(FeatureQuestions(p.name, p.features)), x)
              + Count(CategoryList(SpecQuestions(p.name, p.specs)), x) + Count(TailCategories, x)
  {
    var fc := CategoryList(FeatureQuestions(p.name, p.features));
    var sc := CategoryList(SpecQuestions(p.name, p.specs));
    CategorySegments(p);
    CountAppend([Usage] + fc + sc, TailCategories, x);
    CountAppend([Usage] + fc, sc, x);
    CountAppend([Usage], fc, x);
  }

  /** The per-category counts of a generated list: 1 + f Usage, f + s
      Informational, 3 Safety, 3 Purchase and 1 Comparison. */
  lemma CategoryCounts(p: ProductData)
    requires |p.features| > 0
    ensures var cats := CategoryList(Process(p).value);
            && Count(cats, Usage) == 1 + |p.features|
            && Count(cats, Informational) == |p.features| + |p.specs|
            && Count(cats, Safety) == 3
            && Count(cats, Purchase) == 3
            && Count(cats, Comparison) == 1
  {
    var fc := CategoryList(FeatureQuestions(p.name, p.features));
    var sc := CategoryList(SpecQuestions(p.name, p.specs));
    FeatureCategoryCounts(p.name, p.features);
    TailCategoryCounts();
    CountAll(sc, Informational);
    CountBySegment(p, Usage);
    CountBySegment(p, Informational);
    CountBySegment(p, Safety);
    CountBySegment(p, Purchase);
    CountBySegment(p, Comparison);
    CountAbsent(sc, Usage);
    CountAbsent(sc, Safety);
    CountAbsent(sc, Purchase);
    CountAbsent(sc, Comparison);
    CountAbsent(fc, Safety);
    CountAbsent(fc, Purchase);
    CountAbsent(fc, Comparison);
  }

  const AllCategories := {Usage, Informational, Safety, Purchase, Comparison}

  lemma AllCategoriesSize()
    ensures |AllCategories| == 5
  {
    assert |Usage| == 5 && |Safety| == 6 && |Purchase| == 8 && |Comparison| == 10 && |Informational| == 13;
    assert {Usage, Informational} + {Safety} + {Purchase} + {Comparison} == AllCategories;
    assert |{Usage, Informational}| == 2;
    assert |{Usage, Informational} + {Safety}| == 3;
    assert |{Usage, Informational} + {Safety} + {Purchase}| == 4;
  }

  lemma CategoriesWithin(p: ProductData)
    requires |p.features| > 0
    ensures forall i :: 0 <= i < |Process(p).value| ==> Process(p).value[i].category in AllCategories
  {
    var qs := Process(p).value;
    var fc := CategoryList(FeatureQuestions(p.name, p.features));
    var sc := CategoryList(SpecQuestions(p.name, p.specs));
    var cats := [Usage] + fc + sc + TailCategories;
    CategorySegments(p);
    FeatureCategoryCounts(p.name, p.features);
    forall i | 0 <= i < |cats|
      ensures cats[i] in AllCategories
    {
      if 1 <= i < 1 + |fc| {
        assert cats[i] == fc[i - 1];
      } else if 1 + |fc| <= i < 1 + |fc| + |sc| {
        assert cats[i] == sc[i - 1 - |fc|];
      } else if 1 + |fc| + |sc| <= i {
        assert cats[i] == TailCategories[i - 1 - |fc| - |sc|];
      }
    }
    assert forall i :: 0 <= i < |qs| ==> qs[i].category == CategoryList(qs)[i];
  }

  /** The generated list covers exactly five categories. */
  lemma CategorySet(p: ProductData)
    requires |p.features| > 0
    ensures Validators.Categories(Process(p).value) == AllCategories
    ensures |Validators.Categories(Process(p).value)| == 5
  {
    var qs := Process(p).value;
    var f := 2 * |p.features|;
    var n := 1 + f + |p.specs|;
    FeatureQuestionsAt(p.name, p.features, 0);
    ProcessAt(p, 0);
    ProcessAt(p, 2);
    ProcessAt(p, n);
    ProcessAt(p, n + 3);
    ProcessAt(p, n + 6);
    assert qs[0].category == Usage;
    assert qs[2].category == Informational;
    assert qs[n].category == Safety;
    assert qs[n + 3].category == Purchase;
    assert qs[n + 6].category == Comparison;
    CategoriesWithin(p);
    AllCategoriesSize();
  }

  // ---------------------------------------------------------------------------
  // Lengths against the FAQ quality rules

  /** The list reaches the 15-question minimum exactly when features and
      specification entries together contribute at least seven questions. */
  lemma ReachesFaqMinimum(p: ProductData)
    requires |p.features| > 0
    ensures |Process(p).value| >= Validators.MinFaqCount <==> 2 * |p.features| + |p.specs| >= 7
  {
  }

  /** The sample product with three features and no specification yields 14. */
  lemma ThreeFeaturesNoSpecsFallShort()
    ensures var p := ProductData("P1", "GlowBoost", "Serum", PriceInfo(699.0, "INR"),
                                 ["Vitamin C", "Hyaluronic Acid", "SPF 30"], [], "", []);
            |Process(p).value| == 14 < Validators.MinFaqCount
  {
  }

  /** A question and answer long enough for `validate_faq_quality`. */
  predicate LongEnough(q: Question) {
    |q.question| >= Validators.MinQuestionLength && |q.answer| >= Validators.MinAnswerLength
  }

  /** A specification entry is long enough for the answer rule. */
  predicate SpecEntryLong(name: string, entry: (string, string)) {
    |entry.0| + |name| + |entry.1| >= 7
  }

  lemma {:induction false} FeatureQuestionsLong(name: string, features: seq<string>)
    ensures forall k :: 0 <= k < 2 * |features| ==> LongEnough(FeatureQuestions(name, features)[k])
  {
    if |features| > 0 {
      var rest := FeatureQuestions(name, features[1..]);
      var head := [FeatureBenefitQuestion(name, features[0]), FeatureSensitivityQuestion(name, features[0])];
      FeatureQuestionsLong(name, features[1..]);
      assert FeatureQuestions(name, features) == head + rest;
      assert LongEnough(head[0]) && LongEnough(head[1]);
    }
  }

  lemma TailQuestionsLong(name: string, firstFeature: string)
    ensures forall k :: 0 <= k < 7 ==> LongEnough(TailQuestions(name, firstFeature)[k])
  {
  }

  /** Position `i`: the question is long enough, and so is the answer unless
      it is a specification answer, whose length is fixed by its entry. */
  lemma LengthsAt(p: ProductData, i: nat)
    requires |p.features| > 0 && i < |Process(p).value|
    ensures var qs, f, s := Process(p).value, 2 * |p.features|, |p.specs|;
            && |qs[i].question| >= Validators.MinQuestionLength
            && (!(1 + f <= i < 1 + f + s) ==> LongEnough(qs[i]))
            && (1 + f <= i < 1 + f + s ==>
                  |qs[i].answer| == 13 + |p.specs[i - 1 - f].0| + |p.name| + |p.specs[i - 1 - f].1|)
  {
    var f := 2 * |p.features|;
    ProcessAt(p, i);
    if 1 <= i < 1 + f {
      FeatureQuestionsLong(p.name, p.features);
    } else if 1 + f + |p.specs| <= i {
      TailQuestionsLong(p.name, p.features[0]);
    }
  }

  /** Every question has at least five characters, and every answer at least
      twenty exactly when every specification answer does. */
  lemma AnswerLengths(p: ProductData)
    requires |p.features| > 0
    ensures var qs := Process(p).value;
            forall i :: 0 <= i < |qs| ==> |qs[i].question| >= Validators.MinQuestionLength
    ensures var qs := Process(p).value;
            (forall i :: 0 <= i < |qs| ==> |qs[i].answer| >= Validators.MinAnswerLength) <==>
            (forall j :: 0 <= j < |p.specs| ==> SpecEntryLong(p.name, p.specs[j]))
  {
    var qs := Process(p).value;
    var f := 2 * |p.features|;
    var s := |p.specs|;
    forall i | 0 <= i < |qs|
      ensures |qs[i].question| >= Validators.MinQuestionLength
    {
      LengthsAt(p, i);
    }
    if forall j :: 0 <= j < s ==> SpecEntryLong(p.name, p.specs[j]) {
      forall i | 0 <= i < |qs|
        ensures |qs[i].answer| >= Validators.MinAnswerLength
      {
        LengthsAt(p, i);
        if 1 + f <= i < 1 + f + s {
          assert SpecEntryLong(p.name, p.specs[i - 1 - f]);
        }
      }
    }
    if forall i :: 0 <= i < |qs| ==> |qs[i].answer| >= Validators.MinAnswerLength {
      forall j | 0 <= j < s
        ensures SpecEntryLong(p.name, p.specs[j])
      {
        LengthsAt(p, 1 + f + j);
        assert |qs[1 + f + j].answer| >= Validators.MinAnswerLength;
      }
    }
  }

  /** With a one-letter name, key and value the specification answer has only
      16 characters, so a generated list can fail the answer-length rule. */
  lemma ShortSpecAnswer()
    ensures |SpecAnswer("X", "a", "1")| == 16 < Validators.MinAnswerLength
  {
  }

  /** The generated list passes `validate_faq_quality` exactly when it is long
      enough, every specification answer is long enough, and no answer carries
      a search indicator. */
  lemma PassesFaqQualityIff(p: ProductData)
    requires |p.features| > 0
    ensures var qs := Process(p).value;
            Validators.FaqQualityOk(qs) <==>
              && 2 * |p.features| + |p.specs| >= 7
              && (forall j :: 0 <= j < |p.specs| ==> SpecEntryLong(p.name, p.specs[j]))
              && (forall i :: 0 <= i < |qs| ==> !Validators.HasSearchIndicator(qs[i].answer))
  {
    var qs := Process(p).value;
    AnswerLengths(p);
    CategorySet(p);
    if 2 * |p.features| + |p.specs| >= 7
       && (forall j :: 0 <= j < |p.specs| ==> SpecEntryLong(p.name, p.specs[j]))
       && (forall i :: 0 <= i < |qs| ==> !Validators.HasSearchIndicator(qs[i].answer))
    {
      assert forall i :: 0 <= i < |qs| ==> Validators.FaqItemOk(qs[i]);
    }
    if Validators.FaqQualityOk(qs) {
      assert forall i :: 0 <= i < |qs| ==> |qs[i].answer| >= Validators.MinAnswerLength;
    }
  }
}

=== FILE: records.dfy ===
/** The entities the pipeline passes between its stages.

    The first group are the structured artifacts of the workflow (the
    Pydantic models: product, question, the three pages, the review verdict);
    their validity rules live in module Schemas.

    The second group is the dictionary view of a product that the
    deterministic agents read by key after the parser agent has normalised it. */
module Records {
  import opened Wrappers
  import opened Json

  datatype Question = Question(category: string, question: string, answer: string)

  datatype ComparisonRow = ComparisonRow(feature: string, productValue: string, competitorValue: string)

  datatype Product = Product(
    id: string,
    name: string,
    category: string,
    price: real,
    currency: string,
    features: seq<string>,
    specs: Object,
    description: string,
    competitors: seq<Object>)

  datatype FaqPage = FaqPage(title: string, description: string, faqs: seq<Question>, disclaimer: string)

  datatype ProductPage = ProductPage(
    heroHeadline: string,
    heroSubheadline: string,
    priceDisplay: string,
    featuresList: seq<string>,
    benefitsList: seq<string>,
    specsDisplay: Object,
    usageInstructions: string,
    ctaText: string)

  datatype ComparisonPage = ComparisonPage(title: string, table: seq<ComparisonRow>, summary: string)

  datatype ReviewVerdict = ReviewVerdict(isApproved: bool, feedback: string)

  /** An ordered specification dictionary: entries in insertion order. */
  type Specs = seq<(string, string)>

  /** `specs.get(key)`: the first entry with that key. */
  function Lookup(specs: Specs, key: string): (r: Option<string>)
    ensures r.Some? <==> exists i :: 0 <= i < |specs| && specs[i].0 == key
    ensures r.Some? ==> exists i :: 0 <= i < |specs| && specs[i] == (key, r.value)
  {
    if |specs| == 0 then None
    else if specs[0].0 == key then Some(specs[0].1)
    else
      var r := Lookup(specs[1..], key);
      assert forall i :: 0 <= i < |specs| - 1 ==> specs[1..][i] == specs[i + 1];
      r
  }

  datatype PriceInfo = PriceInfo(amount: real, currency: string)

  /** A competitor entry; the optional fields are read with `.get(…)` defaults. */
  datatype Competitor = Competitor(
    name: string,
    price: real,
    ingredients: Option<seq<string>>,
    benefits: Option<seq<string>>,
    volume: Option<string>)

  datatype ProductData = ProductData(
    id: string,
    name: string,
    category: string,
    price: PriceInfo,
    features: seq<string>,
    specs: Specs,
    description: string,
    competitors: seq<Competitor>)
}

=== FILE: retry.dfy ===
/** The retry decorator `retry_with_exponential_backoff`, the error classifier
    `is_retryable_error` and the per-agent budgets of `RetryConfig`.

    The wrapped function is an oracle: `call(k)` is what the k-th call (0-based)
    does. The random draw of the k-th jitter is `rand(k)`. Instead of sleeping,
    the wrapper returns the delays it would have slept. */
module Retry {
  import opened Wrappers
  import opened Text

  /** What one call of the wrapped function does: return a value, or raise an
      exception that is (`caught`) or is not in the decorator's `exceptions`. */
  datatype Attempt<T> = Success(value: T) | Failure(caught: bool)

  /** How the wrapper ends: the first successful value, `RetryExhaustedError`,
      an uncaught exception passed through, or (for a negative budget) `None`
      without ever calling the function. */
  datatype RetryResult<T> = Returned(value: T) | Exhausted | Propagated | NeverCalled

  datatype Trace<T> = Trace(result: RetryResult<T>, calls: nat, sleeps: seq<real>)

  datatype Config = Config(maxRetries: int, initialDelay: real, base: real, jitter: bool)

  /** A draw of `random.random()`. */
  type Unit = r: real | 0.0 <= r < 1.0

  predicate CaughtFailure<T>(a: Attempt<T>) {
    a.Failure? && a.caught
  }

  function Pow(b: real, n: nat): real {
    if n == 0 then 1.0 else b * Pow(b, n - 1)
  }

  /** `initial_delay * exponential_base ** attempt`. */
  function BaseDelay(cfg: Config, attempt: nat): real {
    cfg.initialDelay * Pow(cfg.base, attempt)
  }

  /** The delay slept after failed attempt `attempt`, scaled by `0.5 + random()` under jitter. */
  function Delay(cfg: Config, rand: nat -> Unit, attempt: nat): real {
    if cfg.jitter then BaseDelay(cfg, attempt) * (0.5 + rand(attempt)) else BaseDelay(cfg, attempt)
  }

  /** Reference definition of the loop from attempt `attempt` on; `calls` and
      `sleeps` count only what happens from there. */
  function Run<T>(cfg: Config, call: nat -> Attempt<T>, rand: nat -> Unit, attempt: nat): Trace<T>
    requires attempt <= cfg.maxRetries
    decreases cfg.maxRetries - attempt
  {
    match call(attempt)
    case Success(v) => Trace(Returned(v), 1, [])
    case Failure(caught) =>
      if !caught then Trace(Propagated, 1, [])
      else if attempt == cfg.maxRetries then Trace(Exhausted, 1, [])
      else
        var rest := Run(cfg, call, rand, attempt + 1);
        Trace(rest.result, rest.calls + 1, [Delay(cfg, rand, attempt)] + rest.sleeps)
  }

  /** The whole wrapper: `for attempt in range(max_retries + 1)`. */
  function Wrapper<T>(cfg: Config, call: nat -> Attempt<T>, rand: nat -> Unit): Trace<T> {
    if cfg.maxRetries < 0 then Trace(NeverCalled, 0, []) else Run(cfg, call, rand, 0)
  }

  /** The shape of every run from `attempt`: between one call and the rest of
      the budget, every call but the last a caught failure, a returned value
      from the last call, and one sleep per failed call before it, each the
      delay of its own attempt. */
  lemma {:induction false} RunShape<T>(cfg: Config, call: nat -> Attempt<T>, rand: nat -> Unit, attempt: nat)
    requires attempt <= cfg.maxRetries
    ensures var t := Run(cfg, call, rand, attempt);
            && 1 <= t.calls <= cfg.maxRetries - attempt + 1
            && (t.result.Returned? ==> call(attempt + t.calls - 1) == Success(t.result.value))
            && (forall j :: attempt <= j < attempt + t.calls - 1 ==> CaughtFailure(call(j)))
            && |t.sleeps| == t.calls - 1
            && (forall k :: 0 <= k < |t.sleeps| ==> t.sleeps[k] == Delay(cfg, rand, attempt + k))
    decreases cfg.maxRetries - attempt
  {
    if CaughtFailure(call(attempt)) && attempt < cfg.maxRetries {
      var rest := Run(cfg, call, rand, attempt + 1);
      assert Run(cfg, call, rand, attempt) == Trace(rest.result, rest.calls + 1, [Delay(cfg, rand, attempt)] + rest.sleeps);
      RunShape(cfg, call, rand, attempt + 1);
    }
  }

  /** The decorator's loop. */
  method RetryWithBackoff<T>(cfg: Config, call: nat -> Attempt<T>, rand: nat -> Unit) returns (t: Trace<T>)
    ensures t == Wrapper(cfg, call, rand)
    ensures cfg.maxRetries >= 0 ==> 1 <= t.calls <= cfg.maxRetries + 1
    ensures t.result.Returned? ==> call(t.calls - 1) == Success(t.result.value)
    ensures forall j :: 0 <= j < t.calls - 1 ==> CaughtFailure(call(j))
    ensures t.calls > 0 ==> |t.sleeps| == t.calls - 1
    ensures forall k :: 0 <= k < |t.sleeps| ==> t.sleeps[k] == Delay(cfg, rand, k)
  {
    if cfg.maxRetries < 0 {
      return Trace(NeverCalled, 0, []);
    }
    RunShape(cfg, call, rand, 0);
    var attempt: nat := 0;
    var sleeps: seq<real> := [];
    while true
      invariant attempt <= cfg.maxRetries
      invariant var rest := Run(cfg, call, rand, attempt);
                Wrapper(cfg, call, rand) == Trace(rest.result, attempt + rest.calls, sleeps + rest.sleeps)
      decreases cfg.maxRetries - attempt
    {
      match call(attempt)
      case Success(v) =>
        return Trace(Returned(v), attempt + 1, sleeps);
      case Failure(caught) =>
        if !caught {
          return Trace(Propagated, attempt + 1, sleeps);
        }
        if attempt == cfg.maxRetries {
          return Trace(Exhausted, attempt + 1, sleeps);
        }
        var rest := Run(cfg, call, rand, attempt + 1);
        assert Run(cfg, call, rand, attempt) == Trace(rest.result, rest.calls + 1, [Delay(cfg, rand, attempt)] + rest.sleeps);
        assert sleeps + ([Delay(cfg, rand, attempt)] + rest.sleeps) == (sleeps + [Delay(cfg, rand, attempt)]) + rest.sleeps;
        sleeps := sleeps + [Delay(cfg, rand, attempt)];
        attempt := attempt + 1;
    }
  }

  // ---------------------------------------------------------------------------
  // Properties of the wrapper

  /** If the first `k` calls raise caught exceptions and call `k` returns, with
      `k <= max_retries`, the wrapper returns that value after exactly `k` sleeps. */
  lemma {:induction false} ReturnsFirstSuccess<T>(cfg: Config, call: nat -> Attempt<T>, rand: nat -> Unit, k: nat, attempt: nat)
    requires attempt <= k <= cfg.maxRetries
    requires forall j :: attempt <= j < k ==> CaughtFailure(call(j))
    requires call(k).Success?
    ensures Run(cfg, call, rand, attempt) == Trace(Returned(call(k).value), k - attempt + 1, Run(cfg, call, rand, attempt).sleeps)
    ensures |Run(cfg, call, rand, attempt).sleeps| == k - attempt
    decreases k - attempt
  {
    if attempt < k {
      ReturnsFirstSuccess(cfg, call, rand, k, attempt + 1);
    }
  }

  lemma SuccessAfterFailures<T>(cfg: Config, call: nat -> Attempt<T>, rand: nat -> Unit, k: nat)
    requires k <= cfg.maxRetries
    requires forall j :: 0 <= j < k ==> CaughtFailure(call(j))
    requires call(k).Success?
    ensures var t := Wrapper(cfg, call, rand);
            t.result == Returned(call(k).value) && t.calls == k + 1 && |t.sleeps| == k
  {
    ReturnsFirstSuccess(cfg, call, rand, k, 0);
  }

  /** Every call fails with a caught exception from `attempt` on: the run ends
      exhausted after the remaining calls, sleeping after all but the last. */
  lemma {:induction false} ExhaustsFrom<T>(cfg: Config, call: nat -> Attempt<T>, rand: nat -> Unit, attempt: nat)
    requires attempt <= cfg.maxRetries
    requires forall j :: attempt <= j <= cfg.maxRetries ==> CaughtFailure(call(j))
    ensures var t := Run(cfg, call, rand, attempt);
            t.result == Exhausted && t.calls == cfg.maxRetries - attempt + 1 && |t.sleeps| == cfg.maxRetries - attempt
    decreases cfg.maxRetries - attempt
  {
    if attempt < cfg.maxRetries {
      ExhaustsFrom(cfg, call, rand, attempt + 1);
    }
  }

  /** `RetryExhaustedError` is raised exactly when all `max_retries + 1` calls
      raise caught exceptions, after exactly `max_retries` sleeps. */
  lemma ExhaustedIff<T>(cfg: Config, call: nat -> Attempt<T>, rand: nat -> Unit)
    ensures Wrapper(cfg, call, rand).result.Exhausted? <==>
              cfg.maxRetries >= 0 && forall j :: 0 <= j <= cfg.maxRetries ==> CaughtFailure(call(j))
    ensures Wrapper(cfg, call, rand).result.Exhausted? ==>
              Wrapper(cfg, call, rand).calls == cfg.maxRetries + 1 && |Wrapper(cfg, call, rand).sleeps| == cfg.maxRetries
  {
    if cfg.maxRetries >= 0 {
      if Run(cfg, call, rand, 0).result.Exhausted? {
        ExhaustedAtLast(cfg, call, rand, 0);
      }
      if forall j :: 0 <= j <= cfg.maxRetries ==> CaughtFailure(call(j)) {
        ExhaustsFrom(cfg, call, rand, 0);
      }
    }
  }

  /** An exhausted run made its last call at index `max_retries`, and every call failed caught. */
  lemma {:induction false} ExhaustedAtLast<T>(cfg: Config, call: nat -> Attempt<T>, rand: nat -> Unit, attempt: nat)
    requires attempt <= cfg.maxRetries
    requires Run(cfg, call, rand, attempt).result.Exhausted?
    ensures forall j :: attempt <= j <= cfg.maxRetries ==> CaughtFailure(call(j))
    decreases cfg.maxRetries - attempt
  {
    if attempt < cfg.maxRetries && CaughtFailure(call(attempt)) {
      ExhaustedAtLast(cfg, call, rand, attempt + 1);
    }
  }

  /** An exception outside `exceptions` on the first call passes straight through. */
  lemma UncaughtPropagates<T>(cfg: Config, call: nat -> Attempt<T>, rand: nat -> Unit)
    requires cfg.maxRetries >= 0
    requires call(0) == Failure(false)
    ensures Wrapper(cfg, call, rand) == Trace(Propagated, 1, [])
  {
  }

  /** With a negative budget the function is never called and the wrapper returns `None`. */
  lemma NegativeBudgetNeverCalls<T>(cfg: Config, call: nat -> Attempt<T>, rand: nat -> Unit)
    requires cfg.maxRetries < 0
    ensures Wrapper(cfg, call, rand).result == NeverCalled && Wrapper(cfg, call, rand).calls == 0
  {
  }

  lemma {:induction false} PowMonotone(b: real, n: nat)
    requires b >= 1.0
    ensures 1.0 <= Pow(b, n) <= Pow(b, n + 1)
  {
    if n > 0 {
      PowMonotone(b, n - 1);
    }
  }

  /** Without jitter, a non-negative initial delay and a base of at least 1 make
      the delays non-decreasing. */
  lemma DelaysNonDecreasing(cfg: Config, rand: nat -> Unit, a: nat)
    requires !cfg.jitter && cfg.initialDelay >= 0.0 && cfg.base >= 1.0
    ensures 0.0 <= Delay(cfg, rand, a) <= Delay(cfg, rand, a + 1)
  {
    PowMonotone(cfg.base, a);
    assert Pow(cfg.base, a + 1) == cfg.base * Pow(cfg.base, a);
  }

  lemma {:induction false} PowPositive(b: real, n: nat)
    requires b > 0.0
    ensures Pow(b, n) > 0.0
  {
    if n > 0 {
      PowPositive(b, n - 1);
    }
  }

  /** With jitter, each delay lies in [0.5 d, 1.5 d) for the un-jittered delay d > 0. */
  lemma JitterBounds(cfg: Config, rand: nat -> Unit, a: nat)
    requires cfg.jitter && cfg.initialDelay > 0.0 && cfg.base > 0.0
    ensures var d := BaseDelay(cfg, a);
            0.5 * d <= Delay(cfg, rand, a) < 1.5 * d
  {
    PowPositive(cfg.base, a);
    var d: real, r: real := BaseDelay(cfg, a), rand(a);
    assert d > 0.0 by {
      assert d == cfg.initialDelay * Pow(cfg.base, a);
    }
    assert 0.0 <= d * r < d by {
      assert d * (1.0 - r) > 0.0;
      assert d * r == d - d * (1.0 - r);
    }
    assert Delay(cfg, rand, a) == 0.5 * d + d * r;
  }

  function Sum(xs: seq<real>): real {
    if |xs| == 0 then 0.0 else xs[0] + Sum(xs[1..])
  }

  /** Total un-jittered sleep of the attempts `attempt .. max_retries - 1`. */
  function TotalBackoff(cfg: Config, attempt: nat): real
    decreases if attempt < cfg.maxRetries then cfg.maxRetries - attempt else 0
  {
    if attempt >= cfg.maxRetries then 0.0 else BaseDelay(cfg, attempt) + TotalBackoff(cfg, attempt + 1)
  }

  /** Without jitter, an exhausted run sleeps `initial_delay * (1 + base + … + base^(max_retries-1))` in total. */
  lemma {:induction false} ExhaustedSleepTotal<T>(cfg: Config, call: nat -> Attempt<T>, rand: nat -> Unit, attempt: nat)
    requires !cfg.jitter && attempt <= cfg.maxRetries
    requires forall j :: attempt <= j <= cfg.maxRetries ==> CaughtFailure(call(j))
    ensures Sum(Run(cfg, call, rand, attempt).sleeps) == TotalBackoff(cfg, attempt)
    decreases cfg.maxRetries - attempt
  {
    if attempt < cfg.maxRetries {
      ExhaustedSleepTotal(cfg, call, rand, attempt + 1);
      var rest := Run(cfg, call, rand, attempt + 1);
      assert ([Delay(cfg, rand, attempt)] + rest.sleeps)[1..] == rest.sleeps;
    }
  }

  // ---------------------------------------------------------------------------
  // is_retryable_error

  const RetryableMarkers: seq<string> :=
    ["rate limit", "timeout", "connection", "network", "503", "502", "500", "429", "quota exceeded"]

  /** The lower-cased message contains one of the nine markers. */
  predicate IsRetryableError(message: string) {
    exists k | 0 <= k < |RetryableMarkers| :: Contains(Lower(message), RetryableMarkers[k])
  }

  lemma LowerIdempotent(s: string)
    ensures Lower(Lower(s)) == Lower(s)
  {
  }

  /** The classification ignores ASCII case. */
  lemma RetryableIgnoresCase(message: string)
    ensures IsRetryableError(Lower(message)) == IsRetryableError(message)
  {
    LowerIdempotent(message);
  }

  lemma RateLimitIsRetryable()
    ensures IsRetryableError("HTTP 429: Rate Limit")
  {
    var s := Lower("HTTP 429: Rate Limit");
    assert s == "http 429: rate limit";
    assert OccursAt(s, RetryableMarkers[7], 5);
    assert Contains(s, RetryableMarkers[7]);
  }

  // ---------------------------------------------------------------------------
  // RetryConfig.get_agent_config

  datatype Budget = Budget(maxRetries: int, initialDelay: real, base: real)

  const DefaultBudget := Budget(3, 1.0, 2.0)

  /** The budget for an agent name; unknown names get the default. */
  function AgentConfig(name: string): (b: Budget)
    ensures b.base == 2.0 && b.maxRetries >= 2 && b.initialDelay > 0.0
    ensures name !in {"parser", "qgen", "page_agent", "reviewer"} ==> b == DefaultBudget
  {
    if name == "parser" then Budget(3, 1.0, 2.0)
    else if name == "qgen" then Budget(5, 1.0, 2.0)
    else if name == "page_agent" then Budget(3, 1.0, 2.0)
    else if name == "reviewer" then Budget(2, 0.5, 2.0)
    else DefaultBudget
  }

  function ToConfig(b: Budget, jitter: bool): Config {
    Config(b.maxRetries, b.initialDelay, b.base, jitter)
  }

  /** Worst-case total back-off (without jitter) per agent: question generation
      waits longest, the reviewer shortest. */
  lemma WorstCaseBackoff()
    ensures TotalBackoff(ToConfig(AgentConfig("parser"), false), 0) == 7.0
    ensures TotalBackoff(ToConfig(AgentConfig("qgen"), false), 0) == 31.0
    ensures TotalBackoff(ToConfig(AgentConfig("page_agent"), false), 0) == 7.0
    ensures TotalBackoff(ToConfig(AgentConfig("reviewer"), false), 0) == 1.5
  {
    var q := ToConfig(AgentConfig("qgen"), false);
    assert TotalBackoff(q, 4) == 16.0;
    assert TotalBackoff(q, 3) == 24.0;
    assert TotalBackoff(q, 2) == 28.0;
    assert TotalBackoff(q, 1) == 30.0;
    var p := ToConfig(AgentConfig("parser"), false);
    assert TotalBackoff(p, 2) == 4.0;
    assert TotalBackoff(p, 1) == 6.0;
    var g := ToConfig(AgentConfig("page_agent"), false);
    assert TotalBackoff(g, 2) == 4.0;
    assert TotalBackoff(g, 1) == 6.0;
    var r := ToConfig(AgentConfig("reviewer"), false);
    assert TotalBackoff(r, 1) == 1.0;
  }

  // ---------------------------------------------------------------------------
  // The decorated call as a node sees it

  /** An LLM call inside a node: `llm(k)` is `Some(v)` when the k-th call returns
      `v` and `None` when it raises. Every such exception is an `Exception`, so
      the decorator (whose `exceptions` default is `(Exception,)`) catches it. */
  function AsAttempts<T>(llm: nat -> Option<T>): nat -> Attempt<T> {
    (k: nat) => if llm(k).Some? then Success(llm(k).value) else Failure(true)
  }

  /** The jitter draws do not influence what the wrapper returns; a fixed draw stands in for them. */
  const FixedDraw: nat -> Unit := (k: nat) => 0.0

  /** The decorated call under budget `b`, with jitter on: the value it returns,
      or `None` when it raises (`RetryExhaustedError`). */
  function Invoke<T>(b: Budget, llm: nat -> Option<T>): Option<T> {
    match Wrapper(ToConfig(b, true), AsAttempts(llm), FixedDraw).result
    case Returned(v) => Some(v)
    case _ => None
  }

  /** What the loop returns and how many calls it makes do not depend on the draws. */
  lemma {:induction false} RunIgnoresDraws<T>(cfg: Config, call: nat -> Attempt<T>, r1: nat -> Unit, r2: nat -> Unit, attempt: nat)
    requires attempt <= cfg.maxRetries
    ensures Run(cfg, call, r1, attempt).result == Run(cfg, call, r2, attempt).result
    ensures Run(cfg, call, r1, attempt).calls == Run(cfg, call, r2, attempt).calls
    decreases cfg.maxRetries - attempt
  {
    if attempt < cfg.maxRetries && CaughtFailure(call(attempt)) {
      RunIgnoresDraws(cfg, call, r1, r2, attempt + 1);
    }
  }

  /** When every failure is caught, the loop either returns or is exhausted. */
  lemma {:induction false} RunNeverPropagates<T>(cfg: Config, llm: nat -> Option<T>, rand: nat -> Unit, attempt: nat)
    requires attempt <= cfg.maxRetries
    ensures Run(cfg, AsAttempts(llm), rand, attempt).result.Returned? || Run(cfg, AsAttempts(llm), rand, attempt).result.Exhausted?
    decreases cfg.maxRetries - attempt
  {
    if attempt < cfg.maxRetries && llm(attempt).None? {
      RunNeverPropagates(cfg, llm, rand, attempt + 1);
    }
  }

  /** A returned value comes from the last call made, and every earlier call failed. */
  lemma {:induction false} ReturnedIsFirstSuccess<T>(cfg: Config, call: nat -> Attempt<T>, rand: nat -> Unit, attempt: nat)
    requires attempt <= cfg.maxRetries
    requires Run(cfg, call, rand, attempt).result.Returned?
    ensures var t := Run(cfg, call, rand, attempt);
            && attempt + t.calls - 1 <= cfg.maxRetries
            && call(attempt + t.calls - 1) == Success(t.result.value)
            && forall j :: attempt <= j < attempt + t.calls - 1 ==> CaughtFailure(call(j))
    decreases cfg.maxRetries - attempt
  {
    if !call(attempt).Success? {
      ReturnedIsFirstSuccess(cfg, call, rand, attempt + 1);
    }
  }

  /** With a non-negative budget the decorated call returns exactly when one of
      its first `max_retries + 1` calls returns, and then it returns the value of
      the first such call. */
  lemma InvokeIff<T>(b: Budget, llm: nat -> Option<T>)
    requires b.maxRetries >= 0
    ensures Invoke(b, llm).Some? <==> exists k :: 0 <= k <= b.maxRetries && llm(k).Some?
    ensures Invoke(b, llm).Some? ==>
              exists k :: 0 <= k <= b.maxRetries && llm(k) == Invoke(b, llm)
                          && forall j :: 0 <= j < k ==> llm(j).None?
  {
    var cfg := ToConfig(b, true);
    var call := AsAttempts(llm);
    var t := Wrapper(cfg, call, FixedDraw);
    RunNeverPropagates(cfg, llm, FixedDraw, 0);
    ExhaustedIff(cfg, call, FixedDraw);
    if t.result.Returned? {
      ReturnedIsFirstSuccess(cfg, call, FixedDraw, 0);
      var k := t.calls - 1;
      assert llm(k) == Invoke(b, llm);
      assert forall j :: 0 <= j < k ==> llm(j).None? by {
        forall j | 0 <= j < k ensures llm(j).None? {
          assert CaughtFailure(call(j));
        }
      }
    } else {
      assert t.result.Exhausted?;
      forall k | 0 <= k <= b.maxRetries ensures llm(k).None? {
        assert CaughtFailure(call(k));
      }
    }
  }
}

=== FILE: reviewer.dfy ===
/** `reviewer_node` (the same in `src/agents/reviewer_agent.py` and the monolith).
    Two heuristic gates run first: too few FAQs, then an answer that looks
    copied from a search. Only then is the model asked for a verdict, through
    the retry decorator. Every outcome other than approval adds one to the
    revision count. */
module Reviewer {
  import opened Wrappers
  import opened Text
  import opened Records
  import opened PipelineState
  import opened Retry

  const ReviewerBudget := Budget(2, 0.5, 2.0)
  const MinFaqs := 15

  /** The phrases whose presence in a lower-cased answer rejects the page. */
  const ReviewPhrases: seq<string> := ["according to search", "based on results", "found on website"]

  predicate Flagged(answer: string) {
    exists i | 0 <= i < |ReviewPhrases| :: Contains(Lower(answer), ReviewPhrases[i])
  }

  /** The first FAQ at or after `k` whose answer is flagged. */
  function FirstFlagged(faqs: seq<Question>, k: nat): (r: Option<nat>)
    requires k <= |faqs|
    ensures r.Some? ==> k <= r.value < |faqs| && Flagged(faqs[r.value].answer)
    ensures r.Some? ==> forall j :: k <= j < r.value ==> !Flagged(faqs[j].answer)
    ensures r.None? ==> forall j :: k <= j < |faqs| ==> !Flagged(faqs[j].answer)
    decreases |faqs| - k
  {
    if k == |faqs| then None
    else if Flagged(faqs[k].answer) then Some(k)
    else FirstFlagged(faqs, k + 1)
  }

  /** The gates: `Some(feedback)` when a heuristic rejects the page before any model call. */
  function Gate(faq: Option<FaqPage>): Option<Feedback> {
    if faq.None? then None
    else if |faq.value.faqs| < MinFaqs then Some(TooFewFaqs(|faq.value.faqs|))
    else match FirstFlagged(faq.value.faqs, 0)
         case Some(i) => Some(ExternalSearch(i))
         case None => None
  }

  /** The node: `llm(k)` is the k-th verdict call (`None` when it raises). */
  function ReviewerNode(s: State, llm: nat -> Option<ReviewVerdict>): (u: Update)
    ensures Keys(u) <= {ReviewFeedbackKey, RevisionCountKey, ErrorKey} && u.reviewFeedback.Some?
    ensures u.reviewFeedback.value.None? ==> u.revisionCount.None? && u.error.None?
    ensures u.reviewFeedback.value.Some? ==> u.revisionCount == Some(Count(s) + 1)
    ensures u.reviewFeedback.value.None? <==>
              Gate(s.faqPage).None? && Invoke(ReviewerBudget, llm).Some? && Invoke(ReviewerBudget, llm).value.isApproved
    ensures u.error.Some? <==> Gate(s.faqPage).None? && Invoke(ReviewerBudget, llm).None?
    ensures u.error.Some? ==> u.error == Some(ReviewerFailed) && u.reviewFeedback == Some(Some(ReviewerFailure))
  {
    match Gate(s.faqPage)
    case Some(f) => NoUpdate.(reviewFeedback := Some(Some(f)), revisionCount := Some(Count(s) + 1))
    case None =>
      match Invoke(ReviewerBudget, llm)
      case Some(v) =>
        if v.isApproved then NoUpdate.(reviewFeedback := Some(None))
        else NoUpdate.(reviewFeedback := Some(Some(Verdict(v.feedback))), revisionCount := Some(Count(s) + 1))
      case None =>
        NoUpdate.(reviewFeedback := Some(Some(ReviewerFailure)), revisionCount := Some(Count(s) + 1),
                  error := Some(ReviewerFailed))
  }

  /** The budget agrees with the per-agent configuration table. */
  lemma BudgetMatchesAgentConfig()
    ensures ReviewerBudget == AgentConfig("reviewer")
  {
  }

  /** A page with fewer than 15 FAQs is rejected with its count, whatever the model would say. */
  lemma TooFewFaqsRejected(s: State, llm: nat -> Option<ReviewVerdict>)
    requires s.faqPage.Some? && |s.faqPage.value.faqs| < MinFaqs
    ensures ReviewerNode(s, llm) == NoUpdate.(reviewFeedback := Some(Some(TooFewFaqs(|s.faqPage.value.faqs|))),
                                              revisionCount := Some(Count(s) + 1))
  {
  }

  /** With enough FAQs, a flagged answer rejects the page, naming the first flagged index. */
  lemma FlaggedAnswerRejected(s: State, llm: nat -> Option<ReviewVerdict>, i: nat)
    requires s.faqPage.Some? && |s.faqPage.value.faqs| >= MinFaqs
    requires i < |s.faqPage.value.faqs| && Flagged(s.faqPage.value.faqs[i].answer)
    requires forall j :: 0 <= j < i ==> !Flagged(s.faqPage.value.faqs[j].answer)
    ensures ReviewerNode(s, llm) == NoUpdate.(reviewFeedback := Some(Some(ExternalSearch(i))),
                                              revisionCount := Some(Count(s) + 1))
  {
    var faqs := s.faqPage.value.faqs;
    assert FirstFlagged(faqs, 0) == Some(i);
  }

  /** Without an FAQ page both gates are skipped and the verdict alone decides. */
  lemma NoPageSkipsGates(s: State, llm: nat -> Option<ReviewVerdict>)
    requires s.faqPage.None?
    ensures ReviewerNode(s, llm).reviewFeedback.value.None? <==>
              exists k :: 0 <= k <= ReviewerBudget.maxRetries && llm(k).Some?
                          && llm(k).value.isApproved && forall j :: 0 <= j < k ==> llm(j).None?
  {
    InvokeIff(ReviewerBudget, llm);
    if ReviewerNode(s, llm).reviewFeedback.value.None? {
      var k :| 0 <= k <= ReviewerBudget.maxRetries && llm(k) == Invoke(ReviewerBudget, llm)
                && forall j :: 0 <= j < k ==> llm(j).None?;
      assert llm(k).Some? && llm(k).value.isApproved;
    } else {
      forall k | 0 <= k <= ReviewerBudget.maxRetries && llm(k).Some? && forall j :: 0 <= j < k ==> llm(j).None?
        ensures !llm(k).value.isApproved
      {
        var k' :| 0 <= k' <= ReviewerBudget.maxRetries && llm(k') == Invoke(ReviewerBudget, llm)
                  && forall j :: 0 <= j < k' ==> llm(j).None?;
        assert k' == k;
      }
    }
  }

  /** A rejected verdict carries its feedback text over unchanged. */
  lemma RejectionKeepsFeedback(s: State, llm: nat -> Option<ReviewVerdict>, text: string)
    requires Gate(s.faqPage).None?
    requires llm(0) == Some(ReviewVerdict(false, text))
    ensures ReviewerNode(s, llm) == NoUpdate.(reviewFeedback := Some(Some(Verdict(text))),
                                              revisionCount := Some(Count(s) + 1))
  {
    InvokeIff(ReviewerBudget, llm);
  }

  /** A verdict model that always rejects with non-empty feedback makes every
      review leave truthy feedback, whichever path the node takes. */
  lemma RejectingModelKeepsLooping(s: State, llm: nat -> Option<ReviewVerdict>, text: string)
    requires text != ""
    requires forall k :: llm(k) == Some(ReviewVerdict(false, text))
    ensures Truthy(Apply(s, ReviewerNode(s, llm)).reviewFeedback)
  {
    InvokeIff(ReviewerBudget, llm);
  }

  /** After the update, truthy feedback means the count went up by exactly one
      (a missing count counting as 0); falsy feedback with an unchanged count
      means approval. */
  lemma CountAfterReview(s: State, llm: nat -> Option<ReviewVerdict>)
    ensures var t := Apply(s, ReviewerNode(s, llm));
            && (Count(t) == Count(s) || Count(t) == Count(s) + 1)
            && (Truthy(t.reviewFeedback) ==> Count(t) == Count(s) + 1)
            && (t.reviewFeedback.None? <==> Count(t) == Count(s))
  {
  }
}

=== FILE: schemas.dfy ===
/** The Pydantic schemas in their two variants.

    Strict: the schemas of monolithic_content_generator.py, which add field
    validators calling the content and business validators.
    Loose: src/core/schemas.py, field length and count bounds only.

    Every value the strict schema accepts the loose one accepts too; the
    converse fails (the witnesses below are the inputs tests/test_schemas.py
    expects to be rejected). */
module Schemas {
  import opened Wrappers
  import opened Records
  import opened Validators

  // ---------------------------------------------------------------------------
  // Loose variant (src/core/schemas.py)

  predicate LooseProduct(p: Product) {
    && |p.name| >= 2
    && |p.category| >= 2
    && p.price > 0.0
    && |p.currency| == 3
    && |p.features| >= 3
    && |p.description| >= 10
  }

  predicate LooseQuestion(q: Question) {
    |q.question| >= 5 && |q.answer| >= 5
  }

  predicate LooseQuestionList(qs: seq<Question>) {
    |qs| >= 5 && forall i :: 0 <= i < |qs| ==> LooseQuestion(qs[i])
  }

  predicate LooseFaqPage(f: FaqPage) {
    && |f.title| >= 5
    && |f.description| >= 10
    && |f.faqs| >= 3
    && forall i :: 0 <= i < |f.faqs| ==> LooseQuestion(f.faqs[i])
  }

  predicate LooseProductPage(p: ProductPage) {
    && |p.heroHeadline| >= 5
    && |p.featuresList| >= 3
    && |p.benefitsList| >= 3
    && |p.usageInstructions| >= 10
  }

  predicate LooseComparisonPage(c: ComparisonPage) {
    |c.table| >= 2 && |c.summary| >= 10
  }

  // ---------------------------------------------------------------------------
  // Strict variant (monolithic_content_generator.py)

  ghost predicate StrictProduct(p: Product) {
    && |p.name| >= 2
    && |p.category| >= 2
    && p.price > 0.0
    && |p.currency| == 3
    && |p.features| >= 3
    && |p.description| >= 10
    && FeaturesOk(p.features, 3)
    && DescriptionOk(p.description)
    && ValidateCurrency(p.currency).Pass?
    && ValidatePrice(p.price).Pass?
  }

  ghost predicate StrictQuestion(q: Question) {
    |q.question| >= 5 && |q.answer| >= 5 && |q.answer| >= MinAnswerLength
  }

  ghost predicate StrictQuestionList(qs: seq<Question>) {
    && |qs| >= 15
    && (forall i :: 0 <= i < |qs| ==> StrictQuestion(qs[i]))
    && |Categories(qs)| >= MinCategories
  }

  ghost predicate StrictFaqPage(f: FaqPage) {
    && |f.title| >= 5
    && |f.description| >= 10
    && |f.faqs| >= 15
    && (forall i :: 0 <= i < |f.faqs| ==> StrictQuestion(f.faqs[i]))
    && FaqQualityOk(f.faqs)
    && HeadlineOk(f.title)
  }

  ghost predicate StrictProductPage(p: ProductPage) {
    && |p.heroHeadline| >= 5
    && |p.featuresList| >= 3
    && |p.benefitsList| >= 3
    && |p.usageInstructions| >= 10
    && HeadlineOk(p.heroHeadline)
    && FeaturesOk(p.featuresList, 3)
    && FeaturesOk(p.benefitsList, 3)
  }

  ghost predicate StrictComparisonPage(c: ComparisonPage) {
    && |c.table| >= 2
    && |c.summary| >= 10
    && ComparisonTableOk(c.table)
  }

  // ---------------------------------------------------------------------------
  // What the strict rules amount to

  /** The strict product rules in their simplest form: the bounds the validators
      imply make several field constraints redundant. */
  lemma StrictProductSimplified(p: Product)
    ensures StrictProduct(p) <==>
              && |p.name| >= 2 && |p.category| >= 2
              && p.price >= MinPrice
              && |p.currency| == 3
              && FeaturesOk(p.features, 3)
              && DescriptionOk(p.description)
  {
  }

  /** A strict question is one with a question of 5+ and an answer of 20+ characters. */
  lemma StrictQuestionSimplified(q: Question)
    ensures StrictQuestion(q) <==> |q.question| >= 5 && |q.answer| >= 20
  {
  }

  /** The FAQ title must be 10 to 100 characters and free of search indicators. */
  lemma StrictFaqTitle(f: FaqPage)
    requires StrictFaqPage(f)
    ensures 10 <= |f.title| <= 100 && !HasSearchIndicator(f.title)
  {
  }

  // ---------------------------------------------------------------------------
  // Refinement: strict implies loose

  lemma StrictProductIsLoose(p: Product)
    requires StrictProduct(p)
    ensures LooseProduct(p)
  {
  }

  lemma StrictQuestionIsLoose(q: Question)
    requires StrictQuestion(q)
    ensures LooseQuestion(q)
  {
  }

  lemma StrictQuestionListIsLoose(qs: seq<Question>)
    requires StrictQuestionList(qs)
    ensures LooseQuestionList(qs)
  {
  }

  lemma StrictFaqPageIsLoose(f: FaqPage)
    requires StrictFaqPage(f)
    ensures LooseFaqPage(f)
  {
  }

  lemma StrictProductPageIsLoose(p: ProductPage)
    requires StrictProductPage(p)
    ensures LooseProductPage(p)
  {
  }

  lemma StrictComparisonPageIsLoose(c: ComparisonPage)
    requires StrictComparisonPage(c)
    ensures LooseComparisonPage(c)
  {
  }

  // ---------------------------------------------------------------------------
  // The converse fails: inputs the test suite expects to be rejected pass the loose schema

  /** A question with an 11-character answer ("Apply daily"). */
  lemma ShortAnswerSeparates()
    ensures var q := Question("Usage", "How do I use this?", "Apply daily");
            LooseQuestion(q) && !StrictQuestion(q)
  {
  }

  /** A list of 10 well-formed questions of one category. */
  lemma TenQuestionsSeparate(q: Question)
    requires StrictQuestion(q)
    ensures var qs := seq(10, i => q);
            LooseQuestionList(qs) && !StrictQuestionList(qs)
  {
  }

  /** A product description of 9 < n < 50 characters ("Too short" is 9 and fails both). */
  lemma ShortDescriptionSeparates(p: Product)
    requires LooseProduct(p) && |p.description| < MinDescriptionLength
    ensures !StrictProduct(p)
  {
  }

  // ---------------------------------------------------------------------------
  // Executable strict product validation

  /** One error of a schema construction: a field bound (`min_length`, `gt`)
      or a rule raised by a validator attached to the field. */
  datatype SchemaError = BoundViolated(field: SchemaField) | RuleViolated(field: SchemaField, error: ValidationError)

  /** The schema fields that can report an error. */
  datatype SchemaField =
    | NameField | CategoryField | PriceField | CurrencyField | FeaturesField | DescriptionField
    | QuestionsField | FaqsField | TitleField
    | HeroHeadlineField | FeaturesListField | BenefitsListField | UsageInstructionsField
    | ComparisonTableField | SummaryField

  /** The error a field bound contributes: one when it is violated, none otherwise. */
  function BoundErrors(violated: bool, field: SchemaField): (r: seq<SchemaError>)
    ensures |r| == 0 <==> !violated
    ensures forall e :: e in r ==> e == BoundViolated(field)
  {
    if violated then [BoundViolated(field)] else []
  }

  // A field bound that fails is collected and construction goes on with the
  // next field. A rule validator that fails raises the monolith's own
  // `ValidationError`, a plain `Exception` and not a `ValueError`, which
  // Pydantic does not collect. It escapes at once, so the errors collected so
  // far are dropped and later fields are never checked. A field's rule runs
  // only once its bound holds.

  /** `validate_features_quality` raises: the list is long enough but the rule rejects it. */
  ghost predicate FeaturesRuleRaises(p: Product) {
    |p.features| >= 3 && !FeaturesOk(p.features, 3)
  }

  /** `validate_description_quality` raises: the text is long enough but the rule rejects it. */
  ghost predicate DescriptionRuleRaises(p: Product) {
    |p.description| >= 10 && !DescriptionOk(p.description)
  }

  /** The fields of `ProductSchema` that carry a bound. */
  const ProductFields := {NameField, CategoryField, PriceField, CurrencyField, FeaturesField, DescriptionField}

  /** The bound errors of a product's name, category and price. */
  function HeadBounds(p: Product): (r: seq<SchemaError>)
    ensures forall e :: e in r ==> e.BoundViolated? && e.field in {NameField, CategoryField, PriceField}
    ensures BoundViolated(NameField) in r <==> |p.name| < 2
    ensures BoundViolated(CategoryField) in r <==> |p.category| < 2
    ensures BoundViolated(PriceField) in r <==> p.price <= 0.0
  {
    BoundErrors(|p.name| < 2, NameField) + BoundErrors(|p.category| < 2, CategoryField)
    + BoundErrors(p.price <= 0.0, PriceField)
  }

  /** The bound errors of a product's currency, features and description. */
  function TailBounds(p: Product): (r: seq<SchemaError>)
    ensures forall e :: e in r ==> e.BoundViolated? && e.field in {CurrencyField, FeaturesField, DescriptionField}
    ensures BoundViolated(CurrencyField) in r <==> |p.currency| != 3
    ensures BoundViolated(FeaturesField) in r <==> |p.features| < 3
    ensures BoundViolated(DescriptionField) in r <==> |p.description| < 10
  {
    BoundErrors(|p.currency| != 3, CurrencyField) + BoundErrors(|p.features| < 3, FeaturesField)
    + BoundErrors(|p.description| < 10, DescriptionField)
  }

  /** The bound errors of a product, in field order. */
  function ProductBounds(p: Product): (r: seq<SchemaError>)
    ensures forall e :: e in r ==> e.BoundViolated? && e.field in ProductFields
    ensures |r| == 0 <==> |p.name| >= 2 && |p.category| >= 2 && p.price > 0.0
                          && |p.currency| == 3 && |p.features| >= 3 && |p.description| >= 10
    ensures BoundViolated(NameField) in r <==> |p.name| < 2
    ensures BoundViolated(CategoryField) in r <==> |p.category| < 2
    ensures BoundViolated(PriceField) in r <==> p.price <= 0.0
    ensures BoundViolated(CurrencyField) in r <==> |p.currency| != 3
    ensures BoundViolated(FeaturesField) in r <==> |p.features| < 3
    ensures BoundViolated(DescriptionField) in r <==> |p.description| < 10
  {
    var head, tail := HeadBounds(p), TailBounds(p);
    assert |head| > 0 ==> head[0] in head;
    assert |tail| > 0 ==> tail[0] in tail;
    head + tail
  }

  /** The field checks of the strict `ProductSchema`, in field order. A raising
      features or description rule ends construction with its error alone.
      Otherwise every violated bound is reported. The currency validator runs
      only on a three-letter code, which it always accepts, so it never raises. */
  method FieldErrors(p: Product) returns (errors: seq<SchemaError>)
    ensures |errors| == 0 <==>
              && |p.name| >= 2 && |p.category| >= 2 && p.price > 0.0
              && |p.currency| == 3 && ValidateCurrency(p.currency).Pass?
              && |p.features| >= 3 && FeaturesOk(p.features, 3)
              && |p.description| >= 10 && DescriptionOk(p.description)
    ensures FeaturesRuleRaises(p) ==> |errors| == 1 && errors[0].RuleViolated? && errors[0].field == FeaturesField
    ensures !FeaturesRuleRaises(p) && DescriptionRuleRaises(p) ==>
              errors == [RuleViolated(DescriptionField, ValidateProductDescription(p.description).error)]
    ensures !FeaturesRuleRaises(p) && !DescriptionRuleRaises(p) ==> errors == ProductBounds(p)
    ensures !FeaturesRuleRaises(p) && !DescriptionRuleRaises(p) ==>
              && (forall e :: e in errors ==> e.BoundViolated? && e.field in ProductFields)
              && (BoundViolated(NameField) in errors <==> |p.name| < 2)
              && (BoundViolated(CategoryField) in errors <==> |p.category| < 2)
              && (BoundViolated(PriceField) in errors <==> p.price <= 0.0)
              && (BoundViolated(CurrencyField) in errors <==> |p.currency| != 3)
              && (BoundViolated(FeaturesField) in errors <==> |p.features| < 3)
              && (BoundViolated(DescriptionField) in errors <==> |p.description| < 10)
  {
    if |p.features| >= 3 {
      var c := ValidateFeaturesList(p.features, 3);
      if c.Fail? {
        return [RuleViolated(FeaturesField, c.error)];
      }
    }
    if |p.description| >= 10 {
      var c := ValidateProductDescription(p.description);
      if c.Fail? {
        return [RuleViolated(DescriptionField, c.error)];
      }
    }
    errors := ProductBounds(p);
  }

  /** Constructing the strict `ProductSchema`: the field checks, then the
      price business rule, which runs only once every field passed and whose
      error then stands alone. */
  method ValidateStrictProduct(p: Product) returns (errors: seq<SchemaError>)
    ensures |errors| == 0 <==> StrictProduct(p)
    ensures FeaturesRuleRaises(p) ==> |errors| == 1 && errors[0].RuleViolated? && errors[0].field == FeaturesField
    ensures !FeaturesRuleRaises(p) && DescriptionRuleRaises(p) ==>
              errors == [RuleViolated(DescriptionField, ValidateProductDescription(p.description).error)]
    ensures !FeaturesRuleRaises(p) && !DescriptionRuleRaises(p) && |ProductBounds(p)| > 0 ==>
              && (forall e :: e in errors ==> e.BoundViolated? && e.field in ProductFields)
              && (BoundViolated(NameField) in errors <==> |p.name| < 2)
              && (BoundViolated(CategoryField) in errors <==> |p.category| < 2)
              && (BoundViolated(PriceField) in errors <==> p.price <= 0.0)
              && (BoundViolated(CurrencyField) in errors <==> |p.currency| != 3)
              && (BoundViolated(FeaturesField) in errors <==> |p.features| < 3)
              && (BoundViolated(DescriptionField) in errors <==> |p.description| < 10)
    ensures !FeaturesRuleRaises(p) && !DescriptionRuleRaises(p) && |ProductBounds(p)| == 0 ==>
              errors == (if ValidatePrice(p.price).Fail? then [RuleViolated(PriceField, ValidatePrice(p.price).error)] else [])
    ensures (exists e :: e in errors && e.RuleViolated? && e.field == PriceField) ==>
              ValidatePrice(p.price).Fail? && errors == [RuleViolated(PriceField, ValidatePrice(p.price).error)]
  {
    errors := FieldErrors(p);
    if |errors| == 0 {
      var c := ValidatePrice(p.price);
      if c.Fail? {
        errors := [RuleViolated(PriceField, c.error)];
      }
    }
  }

  /** The nested `QuestionSchema` items of a list all satisfy the strict question rules. */
  function QuestionsBound(qs: seq<Question>, minCount: nat): (ok: bool)
    ensures ok <==> |qs| >= minCount && forall i :: 0 <= i < |qs| ==> StrictQuestion(qs[i])
  {
    |qs| >= minCount && forall i :: 0 <= i < |qs| ==> |qs[i].question| >= 5 && |qs[i].answer| >= MinAnswerLength
  }

  /** Constructing the strict `QuestionList`. Its nested item checks and its
      diversity validator raise `ValueError`, which Pydantic collects. */
  method ValidateStrictQuestionList(qs: seq<Question>) returns (errors: seq<SchemaError>)
    ensures |errors| == 0 <==> StrictQuestionList(qs)
    ensures |qs| < 15 ==> errors == [BoundViolated(QuestionsField)]
  {
    if !QuestionsBound(qs, 15) {
      return [BoundViolated(QuestionsField)];
    }
    var categories := Categories(qs);
    if |categories| < MinCategories {
      return [RuleViolated(QuestionsField, TooFewCategories(|categories|))];
    }
    return [];
  }

  /** `validate_title_quality` raises: the title is long enough but not a valid headline. */
  ghost predicate TitleRuleRaises(f: FaqPage) {
    |f.title| >= 5 && !HeadlineOk(f.title)
  }

  /** `validate_faq_quality` raises: the FAQs pass their bounds but not the quality rule. */
  ghost predicate FaqsRuleRaises(f: FaqPage) {
    QuestionsBound(f.faqs, 15) && !FaqQualityOk(f.faqs)
  }

  /** Constructing the strict `FAQPageSchema`: title, description, then FAQs. */
  method ValidateStrictFaqPage(f: FaqPage) returns (errors: seq<SchemaError>)
    ensures |errors| == 0 <==> StrictFaqPage(f)
    ensures TitleRuleRaises(f) ==> errors == [RuleViolated(TitleField, ValidateHeadline(f.title).error)]
    ensures !TitleRuleRaises(f) && FaqsRuleRaises(f) ==>
              |errors| == 1 && errors[0].RuleViolated? && errors[0].field == FaqsField
    ensures !TitleRuleRaises(f) && !FaqsRuleRaises(f) ==>
              && (forall e :: e in errors ==> e.BoundViolated?)
              && (BoundViolated(TitleField) in errors <==> |f.title| < 5)
              && (BoundViolated(DescriptionField) in errors <==> |f.description| < 10)
              && (BoundViolated(FaqsField) in errors <==> !QuestionsBound(f.faqs, 15))
  {
    if |f.title| >= 5 {
      var c := ValidateHeadline(f.title);
      if c.Fail? {
        return [RuleViolated(TitleField, c.error)];
      }
    }
    if QuestionsBound(f.faqs, 15) {
      var c := ValidateFaqQuality(f.faqs);
      if c.Fail? {
        return [RuleViolated(FaqsField, c.error)];
      }
    }
    errors := BoundErrors(|f.title| < 5, TitleField) + BoundErrors(|f.description| < 10, DescriptionField)
              + BoundErrors(!QuestionsBound(f.faqs, 15), FaqsField);
  }

  /** `validate_headline_quality` raises on the hero headline. */
  ghost predicate HeadlineRuleRaises(p: ProductPage) {
    |p.heroHeadline| >= 5 && !HeadlineOk(p.heroHeadline)
  }

  /** `validate_features_quality` raises on the features list. */
  ghost predicate FeaturesListRuleRaises(p: ProductPage) {
    |p.featuresList| >= 3 && !FeaturesOk(p.featuresList, 3)
  }

  /** `validate_benefits_quality` raises on the benefits list. */
  ghost predicate BenefitsListRuleRaises(p: ProductPage) {
    |p.benefitsList| >= 3 && !FeaturesOk(p.benefitsList, 3)
  }

  /** Constructing the strict `ProductPageSchema`: headline, features, benefits,
      then usage instructions. */
  method ValidateStrictProductPage(p: ProductPage) returns (errors: seq<SchemaError>)
    ensures |errors| == 0 <==> StrictProductPage(p)
    ensures HeadlineRuleRaises(p) ==> errors == [RuleViolated(HeroHeadlineField, ValidateHeadline(p.heroHeadline).error)]
    ensures !HeadlineRuleRaises(p) && FeaturesListRuleRaises(p) ==>
              |errors| == 1 && errors[0].RuleViolated? && errors[0].field == FeaturesListField
    ensures !HeadlineRuleRaises(p) && !FeaturesListRuleRaises(p) && BenefitsListRuleRaises(p) ==>
              |errors| == 1 && errors[0].RuleViolated? && errors[0].field == BenefitsListField
    ensures !HeadlineRuleRaises(p) && !FeaturesListRuleRaises(p) && !BenefitsListRuleRaises(p) ==>
              && (forall e :: e in errors ==> e.BoundViolated?)
              && (BoundViolated(HeroHeadlineField) in errors <==> |p.heroHeadline| < 5)
              && (BoundViolated(FeaturesListField) in errors <==> |p.featuresList| < 3)
              && (BoundViolated(BenefitsListField) in errors <==> |p.benefitsList| < 3)
              && (BoundViolated(UsageInstructionsField) in errors <==> |p.usageInstructions| < 10)
  {
    if |p.heroHeadline| >= 5 {
      var c := ValidateHeadline(p.heroHeadline);
      if c.Fail? {
        return [RuleViolated(HeroHeadlineField, c.error)];
      }
    }
    if |p.featuresList| >= 3 {
      var c := ValidateFeaturesList(p.featuresList, 3);
      if c.Fail? {
        return [RuleViolated(FeaturesListField, c.error)];
      }
    }
    if |p.benefitsList| >= 3 {
      var c := ValidateFeaturesList(p.benefitsList, 3);
      if c.Fail? {
        return [RuleViolated(BenefitsListField, c.error)];
      }
    }
    var headline := BoundErrors(|p.heroHeadline| < 5, HeroHeadlineField);
    var lists := BoundErrors(|p.featuresList| < 3, FeaturesListField) + BoundErrors(|p.benefitsList| < 3, BenefitsListField);
    errors := headline + lists + BoundErrors(|p.usageInstructions| < 10, UsageInstructionsField);
  }

  /** `validate_comparison_quality` raises: the table has two rows but fails the rule. */
  ghost predicate TableRuleRaises(c: ComparisonPage) {
    |c.table| >= 2 && !ComparisonTableOk(c.table)
  }

  /** Constructing the strict `ComparisonPageSchema`: table, then summary. */
  method ValidateStrictComparisonPage(c: ComparisonPage) returns (errors: seq<SchemaError>)
    ensures |errors| == 0 <==> StrictComparisonPage(c)
    ensures TableRuleRaises(c) ==> |errors| == 1 && errors[0].RuleViolated? && errors[0].field == ComparisonTableField
    ensures !TableRuleRaises(c) ==>
              && (forall e :: e in errors ==> e.BoundViolated?)
              && (BoundViolated(ComparisonTableField) in errors <==> |c.table| < 2)
              && (BoundViolated(SummaryField) in errors <==> |c.summary| < 10)
  {
    if |c.table| >= 2 {
      var v := ValidateComparisonTable(c.table);
      if v.Fail? {
        return [RuleViolated(ComparisonTableField, v.error)];
      }
    }
    errors := BoundErrors(|c.table| < 2, ComparisonTableField) + BoundErrors(|c.summary| < 10, SummaryField);
  }
}

=== FILE: seqs.dfy ===
/** Facts about sequences used by the duplicate checks: Python's
    `len(set(xs)) == len(xs)` is the same as "no two positions hold equal values". */
module Seqs {

  predicate Distinct<T(==)>(s: seq<T>) {
    forall i, j :: 0 <= i < j < |s| ==> s[i] != s[j]
  }

  /** Python's `set(s)`. */
  function Elems<T(==)>(s: seq<T>): set<T> {
    set x | x in s
  }

  lemma {:induction false} ElemsOfSnoc<T>(s: seq<T>, x: T)
    ensures Elems(s + [x]) == Elems(s) + {x}
  {
    assert forall y :: y in s + [x] <==> y in s || y == x;
  }

  lemma {:induction false} ElemsBound<T>(s: seq<T>)
    ensures |Elems(s)| <= |s|
  {
    if |s| > 0 {
      var t := s[..|s| - 1];
      assert s == t + [s[|s| - 1]];
      ElemsOfSnoc(t, s[|s| - 1]);
      ElemsBound(t);
    } else {
      assert Elems(s) == {};
    }
  }

  /** The duplicate test the source writes as a cardinality comparison. */
  lemma {:induction false} DistinctIffCard<T>(s: seq<T>)
    ensures |Elems(s)| == |s| <==> Distinct(s)
  {
    if |s| == 0 {
      assert Elems(s) == {};
    } else {
      var t, x := s[..|s| - 1], s[|s| - 1];
      assert s == t + [x];
      ElemsOfSnoc(t, x);
      ElemsBound(t);
      DistinctIffCard(t);
      if x in t {
        var k :| 0 <= k < |t| && t[k] == x;
        assert s[k] == s[|s| - 1];
        assert Elems(s) == Elems(t);
      } else {
        assert x !in Elems(t);
        assert |Elems(s)| == |Elems(t)| + 1;
        if Distinct(t) {
          forall i, j | 0 <= i < j < |s|
            ensures s[i] != s[j]
          {
            if j < |t| {
              assert s[i] == t[i] && s[j] == t[j];
            } else {
              assert s[i] == t[i];
            }
          }
        } else {
          var i, j :| 0 <= i < j < |t| && t[i] == t[j];
          assert s[i] == s[j];
        }
      }
    }
  }

  /** Number of positions holding `x`. */
  function Count<T(==)>(s: seq<T>, x: T): nat {
    if |s| == 0 then 0 else (if s[0] == x then 1 else 0) + Count(s[1..], x)
  }

  lemma {:induction false} CountAppend<T>(a: seq<T>, b: seq<T>, x: T)
    ensures Count(a + b, x) == Count(a, x) + Count(b, x)
  {
    if |a| > 0 {
      assert (a + b)[1..] == a[1..] + b;
      CountAppend(a[1..], b, x);
    } else {
      assert a + b == b;
    }
  }

  lemma {:induction false} CountAbsent<T>(s: seq<T>, x: T)
    requires forall i :: 0 <= i < |s| ==> s[i] != x
    ensures Count(s, x) == 0
  {
    if |s| > 0 {
      assert forall i :: 0 <= i < |s| - 1 ==> s[1..][i] == s[i + 1];
      CountAbsent(s[1..], x);
    }
  }

  lemma {:induction false} CountAll<T>(s: seq<T>, x: T)
    requires forall i :: 0 <= i < |s| ==> s[i] == x
    ensures Count(s, x) == |s|
  {
    if |s| > 0 {
      assert forall i :: 0 <= i < |s| - 1 ==> s[1..][i] == s[i + 1];
      CountAll(s[1..], x);
    }
  }
}

=== FILE: templates.dfy ===
/** `Template.render`: each page template keeps a fixed set of keys, taking
    the value from the input when present and a per-key default otherwise. */
module Templates {
  import opened Json

  /** A template is its key set with one default per key. */
  datatype Template = Template(defaults: map<string, Json>)

  const FaqTemplate := Template(map[
    "title" := JStr("FAQ"),
    "description" := JStr(""),
    "faqs" := JArr([]),
    "disclaimer" := JStr("")])

  const ProductPageTemplate := Template(map[
    "meta" := JObj(map[]),
    "hero" := JObj(map[]),
    "features" := JObj(map[]),
    "benefits" := JArr([]),
    "specs" := JObj(map[]),
    "usage" := JStr(""),
    "cta" := JStr("Buy Now")])

  const ComparisonTemplate := Template(map[
    "title" := JStr("Comparison"),
    "table" := JObj(map[]),
    "summary" := JStr("")])

  /** `render(data)`: `{k: data.get(k, default_k) for each template key k}`. */
  function Render(t: Template, d: Object): (r: Object)
    ensures r.Keys == t.defaults.Keys
    ensures forall k :: k in r && k in d ==> r[k] == d[k]
    ensures forall k :: k in r && k !in d ==> r[k] == t.defaults[k]
  {
    map k | k in t.defaults :: Get(d, k, t.defaults[k])
  }

  /** Rendering an already rendered value changes nothing. */
  lemma RenderIdempotent(t: Template, d: Object)
    ensures Render(t, Render(t, d)) == Render(t, d)
  {
  }

  /** Keys outside the template never influence the result: two inputs that
      agree on the template keys (present in both or absent from both, with
      equal values) render identically. */
  lemma RenderIgnoresExtraKeys(t: Template, d1: Object, d2: Object)
    requires forall k :: k in t.defaults ==> (k in d1 <==> k in d2)
    requires forall k :: k in t.defaults && k in d1 ==> d1[k] == d2[k]
    ensures Render(t, d1) == Render(t, d2)
  {
  }

  /** A value that already has exactly the template's keys is its own rendering. */
  lemma RenderFixedPoint(t: Template, d: Object)
    requires d.Keys == t.defaults.Keys
    ensures Render(t, d) == d
  {
  }

  /** The three concrete templates: their key sets and the empty-input rendering. */
  lemma FaqTemplateShape(d: Object)
    ensures Render(FaqTemplate, d).Keys == {"title", "description", "faqs", "disclaimer"}
    ensures Render(FaqTemplate, map[]) == FaqTemplate.defaults
    ensures "title" !in d ==> Render(FaqTemplate, d)["title"] == JStr("FAQ")
  {
  }

  lemma ProductPageTemplateShape(d: Object)
    ensures Render(ProductPageTemplate, d).Keys ==
              {"meta", "hero", "features", "benefits", "specs", "usage", "cta"}
    ensures "cta" !in d ==> Render(ProductPageTemplate, d)["cta"] == JStr("Buy Now")
    ensures |Render(ProductPageTemplate, d).Keys| == 7
  {
  }

  lemma ComparisonTemplateShape(d: Object)
    ensures Render(ComparisonTemplate, d).Keys == {"title", "table", "summary"}
    ensures "title" !in d ==> Render(ComparisonTemplate, d)["title"] == JStr("Comparison")
  {
  }
}

=== FILE: text.dfy ===
/** Strings as sequences of characters: ASCII lower-casing, substring search,
    the single-line `X.*Y` search that Python's `re.search` performs for a
    pattern made of two literal words, and `str.join` / `str.split`.
 */
module Text {

  /** ASCII lower-casing of one character (Python's `str.lower` restricted to ASCII). */
  function LowerChar(c: char): char {
    if 'A' <= c <= 'Z' then (c as int + 32) as char else c
  }

  function Lower(s: string): (r: string)
    ensures |r| == |s|
    ensures forall i :: 0 <= i < |s| ==> r[i] == LowerChar(s[i])
  {
    seq(|s|, i requires 0 <= i < |s| => LowerChar(s[i]))
  }

  /** `p` occurs in `s` starting at index `i`. */
  predicate OccursAt(s: string, p: string, i: int) {
    0 <= i && i + |p| <= |s| && s[i..i + |p|] == p
  }

  /** Python's `p in s` for strings. */
  predicate Contains(s: string, p: string) {
    exists i | 0 <= i <= |s| - |p| :: OccursAt(s, p, i)
  }

  /** `x` occurs at `i`, ends no later than `k`, and no newline lies between its end and `k`. */
  ghost predicate OpenSpan(s: string, x: string, i: int, k: int) {
    && OccursAt(s, x, i)
    && i + |x| <= k <= |s|
    && forall m :: i + |x| <= m < k ==> s[m] != '\n'
  }

  /** What `re.search(x + ".*" + y, s)` finds for literal words `x` and `y`:
      `x`, then `y` at or after the end of `x`, with no newline in between
      (the regex `.` does not match a newline). */
  ghost predicate SpanMatch(s: string, x: string, y: string) {
    exists i, j :: OpenSpan(s, x, i, j) && OccursAt(s, y, j)
  }

  /** Executable form of "some occurrence of `x` is still open at position `k`". */
  function OpenAt(s: string, x: string, k: nat): bool
    requires k <= |s|
  {
    || (|x| <= k && OccursAt(s, x, k - |x|))
    || (k > 0 && s[k - 1] != '\n' && OpenAt(s, x, k - 1))
  }

  lemma {:induction false} OpenAtIff(s: string, x: string, k: nat)
    requires k <= |s|
    ensures OpenAt(s, x, k) <==> exists i :: OpenSpan(s, x, i, k)
  {
    if |x| <= k && OccursAt(s, x, k - |x|) {
      assert OpenSpan(s, x, k - |x|, k);
    } else if k > 0 && s[k - 1] != '\n' && OpenAt(s, x, k - 1) {
      OpenAtIff(s, x, k - 1);
      var i :| OpenSpan(s, x, i, k - 1);
      assert OpenSpan(s, x, i, k);
    } else {
      if i :| OpenSpan(s, x, i, k) {
        if i + |x| == k {
          assert false;
        } else {
          assert s[k - 1] != '\n';
          assert OpenSpan(s, x, i, k - 1);
          OpenAtIff(s, x, k - 1);
        }
      }
    }
  }

  /** Executable single-line search for `x` followed by `y`. */
  predicate Spans(s: string, x: string, y: string) {
    exists j | 0 <= j <= |s| - |y| :: OccursAt(s, y, j) && OpenAt(s, x, j)
  }

  lemma SpansIff(s: string, x: string, y: string)
    ensures Spans(s, x, y) <==> SpanMatch(s, x, y)
  {
    if Spans(s, x, y) {
      var j :| 0 <= j <= |s| - |y| && OccursAt(s, y, j) && OpenAt(s, x, j);
      OpenAtIff(s, x, j);
    }
    if SpanMatch(s, x, y) {
      var i, j :| OpenSpan(s, x, i, j) && OccursAt(s, y, j);
      OpenAtIff(s, x, j);
      assert 0 <= j <= |s| - |y| && OccursAt(s, y, j) && OpenAt(s, x, j);
    }
  }

  /** Python's `sep.join(xs)`. */
  function Join(sep: string, xs: seq<string>): string {
    if |xs| == 0 then ""
    else if |xs| == 1 then xs[0]
    else xs[0] + sep + Join(sep, xs[1..])
  }

  /** Python's `s.split(c)` for a one-character separator: never empty. */
  function Split(s: string, c: char): (r: seq<string>)
    ensures |r| >= 1
  {
    if |s| == 0 then [""]
    else
      var rest := Split(s[1..], c);
      if s[0] == c then [""] + rest else [[s[0]] + rest[0]] + rest[1..]
  }

  lemma {:induction false} SplitNoSeparator(a: string, c: char)
    requires c !in a
    ensures Split(a, c) == [a]
  {
    if |a| > 0 {
      SplitNoSeparator(a[1..], c);
      assert [a[0]] + a[1..] == a;
    }
  }

  lemma {:induction false} SplitAtSeparator(a: string, c: char, b: string)
    requires c !in a
    ensures Split(a + [c] + b, c) == [a] + Split(b, c)
  {
    if |a| == 0 {
      assert a + [c] + b == [c] + b;
      assert ([c] + b)[1..] == b;
    } else {
      SplitAtSeparator(a[1..], c, b);
      assert (a + [c] + b)[1..] == a[1..] + [c] + b;
      assert [a[0]] + a[1..] == a;
    }
  }

  /** Joining with a one-character separator and splitting on it again gives
      the pieces back, provided no piece contains the separator. */
  lemma {:induction false} SplitJoin(xs: seq<string>, c: char)
    requires |xs| > 0
    requires forall i :: 0 <= i < |xs| ==> c !in xs[i]
    ensures Split(Join([c], xs), c) == xs
  {
    if |xs| == 1 {
      SplitNoSeparator(xs[0], c);
    } else {
      SplitJoin(xs[1..], c);
      SplitAtSeparator(xs[0], c, Join([c], xs[1..]));
      assert [xs[0]] + xs[1..] == xs;
    }
  }
}

=== FILE: validators.dfy ===
/** The content-quality and business-requirement validators
    (`ContentQualityValidator`, `BusinessRequirementValidator`).

    Each rule is a predicate; each validator returns `Pass` exactly when its
    predicate holds and otherwise `Fail` with the first violation in the order
    the source checks them. Logging side effects (the warn-only branches for a
    very high price and an unknown currency code) are not modelled. */
module Validators {
  import opened Wrappers
  import opened Text
  import opened Seqs
  import opened Records

  const MinAnswerLength := 20
  const MinDescriptionLength := 50
  const MinHeadlineLength := 10
  const MaxHeadlineLength := 100
  const MinFaqCount := 15
  const MinQuestionLength := 5
  const MinCategories := 3
  const MinItemLength := 3
  const MinRows := 2
  const MinPrice := 0.01

  /** An external-search pattern: two words on one line (`X.*Y`), or one literal phrase. */
  datatype Pattern = Spanning(head: string, tail: string) | Literal(phrase: string)

  const SearchPatterns: seq<Pattern> := [
    Spanning("according to", "search"),
    Spanning("based on", "results"),
    Spanning("found on", "website"),
    Spanning("source:", "http"),
    Literal("retrieved from"),
    Spanning("as per", "online")
  ]

  const Placeholders: seq<string> := ["lorem ipsum", "placeholder", "todo", "tbd", "xxx"]

  /** Codes that pass without a warning; any other 3-character code passes too. */
  const KnownCurrencies: set<string> := {
    "USD", "EUR", "GBP", "JPY", "CNY", "INR", "AUD", "CAD",
    "CHF", "SEK", "NZD", "KRW", "SGD", "HKD", "NOK", "MXN"
  }

  /** Where a violation was found. Indices are 0-based; the source prints index + 1. */
  datatype Field = FaqAnswer(index: nat) | Description | Headline | Item(index: nat)

  datatype ValidationError =
    | TooFewFaqs(count: nat)
    | AnswerTooShort(index: nat, length: nat)
    | QuestionTooShort(index: nat)
    | ExternalSearch(field: Field, pattern: nat)
    | TooFewCategories(count: nat)
    | DescriptionTooShort(length: nat)
    | PlaceholderText(phrase: string)
    | HeadlineTooShort(length: nat)
    | HeadlineTooLong(length: nat)
    | TooFewItems(minCount: int, count: nat)
    | ItemTooShort(index: nat)
    | DuplicateItems
    | PriceNotPositive
    | PriceTooLow
    | BadCurrencyLength(code: string)
    | TooFewRows(count: nat)
    | DuplicateRowFeatures
    | EmptyRowValue(index: nat)

  /** The list position a per-item violation names, if any. */
  function ItemIndex(e: ValidationError): Option<nat> {
    match e
    case AnswerTooShort(i, _) => Some(i)
    case QuestionTooShort(i) => Some(i)
    case ExternalSearch(FaqAnswer(i), _) => Some(i)
    case ExternalSearch(Item(i), _) => Some(i)
    case ItemTooShort(i) => Some(i)
    case EmptyRowValue(i) => Some(i)
    case _ => None
  }

  // ---------------------------------------------------------------------------
  // External-search indicators

  ghost predicate PatternMatches(p: Pattern, s: string) {
    match p
    case Spanning(h, t) => SpanMatch(s, h, t)
    case Literal(w) => Contains(s, w)
  }

  predicate Matches(p: Pattern, s: string) {
    match p
    case Spanning(h, t) => Spans(s, h, t)
    case Literal(w) => Contains(s, w)
  }

  lemma MatchesIff(p: Pattern, s: string)
    ensures Matches(p, s) <==> PatternMatches(p, s)
  {
    if p.Spanning? {
      SpansIff(s, p.head, p.tail);
    }
  }

  /** The lower-cased text matches one of the six patterns. */
  ghost predicate HasSearchIndicator(text: string) {
    exists k :: 0 <= k < |SearchPatterns| && PatternMatches(SearchPatterns[k], Lower(text))
  }

  /** Index of the first pattern, from `k` on, that matches `s`. */
  function FirstIndicator(s: string, k: nat): (r: Option<nat>)
    requires k <= |SearchPatterns|
    ensures r.Some? ==> k <= r.value < |SearchPatterns| && PatternMatches(SearchPatterns[r.value], s)
    ensures r.Some? ==> forall m :: k <= m < r.value ==> !PatternMatches(SearchPatterns[m], s)
    ensures r.None? ==> forall m :: k <= m < |SearchPatterns| ==> !PatternMatches(SearchPatterns[m], s)
    decreases |SearchPatterns| - k
  {
    if k == |SearchPatterns| then None
    else
      MatchesIff(SearchPatterns[k], s);
      if Matches(SearchPatterns[k], s) then Some(k) else FirstIndicator(s, k + 1)
  }

  /** `_check_external_search`: fails on the first pattern the lower-cased text matches. */
  function CheckExternalSearch(text: string, field: Field): (r: Outcome<ValidationError>)
    ensures r.Pass? <==> !HasSearchIndicator(text)
    ensures r.Fail? ==> && r.error.ExternalSearch? && r.error.field == field
                        && r.error.pattern < |SearchPatterns|
                        && PatternMatches(SearchPatterns[r.error.pattern], Lower(text))
                        && forall m :: 0 <= m < r.error.pattern ==> !PatternMatches(SearchPatterns[m], Lower(text))
  {
    match FirstIndicator(Lower(text), 0)
    case Some(k) => Fail(ExternalSearch(field, k))
    case None => Pass
  }

  // ---------------------------------------------------------------------------
  // FAQ quality

  ghost predicate FaqItemOk(q: Question) {
    && |q.answer| >= MinAnswerLength
    && |q.question| >= MinQuestionLength
    && !HasSearchIndicator(q.answer)
  }

  /** The distinct categories of a question list (`set(categories)`). */
  function Categories(qs: seq<Question>): set<string> {
    set q | q in qs :: q.category
  }

  ghost predicate FaqQualityOk(faqs: seq<Question>) {
    && |faqs| >= MinFaqCount
    && (forall i :: 0 <= i < |faqs| ==> FaqItemOk(faqs[i]))
    && |Categories(faqs)| >= MinCategories
  }

  /** The per-item checks of `validate_faq_quality`, in source order. */
  function CheckFaqItem(q: Question, index: nat): (r: Outcome<ValidationError>)
    ensures r.Pass? <==> FaqItemOk(q)
    ensures r.Fail? ==> ItemIndex(r.error) == Some(index)
  {
    if |q.answer| < MinAnswerLength then Fail(AnswerTooShort(index, |q.answer|))
    else if |q.question| < MinQuestionLength then Fail(QuestionTooShort(index))
    else CheckExternalSearch(q.answer, FaqAnswer(index))
  }

  /** `validate_faq_quality`: the count gate comes before any item is looked at;
      a failing item is the first one that fails. */
  method ValidateFaqQuality(faqs: seq<Question>) returns (r: Outcome<ValidationError>)
    ensures r.Pass? <==> FaqQualityOk(faqs)
    ensures |faqs| < MinFaqCount ==> r == Fail(TooFewFaqs(|faqs|))
    ensures r.Fail? && ItemIndex(r.error).Some? ==>
              var i := ItemIndex(r.error).value;
              && i < |faqs| && !FaqItemOk(faqs[i])
              && forall j :: 0 <= j < i ==> FaqItemOk(faqs[j])
    ensures r.Fail? && r.error.TooFewCategories? ==>
              && (forall i :: 0 <= i < |faqs| ==> FaqItemOk(faqs[i]))
              && r.error.count == |Categories(faqs)| < MinCategories
  {
    if |faqs| < MinFaqCount {
      return Fail(TooFewFaqs(|faqs|));
    }
    var i := 0;
    while i < |faqs|
      invariant 0 <= i <= |faqs|
      invariant forall j :: 0 <= j < i ==> FaqItemOk(faqs[j])
    {
      var c := CheckFaqItem(faqs[i], i);
      if c.Fail? {
        return c;
      }
      i := i + 1;
    }
    var categories := Categories(faqs);
    if |categories| < MinCategories {
      return Fail(TooFewCategories(|categories|));
    }
    return Pass;
  }

  // ---------------------------------------------------------------------------
  // Product description

  ghost predicate DescriptionOk(d: string) {
    && |d| >= MinDescriptionLength
    && !HasSearchIndicator(d)
    && forall k :: 0 <= k < |Placeholders| ==> !Contains(Lower(d), Placeholders[k])
  }

  /** The first placeholder phrase, from `k` on, that occurs in `s`. */
  function FirstPlaceholder(s: string, k: nat): (r: Option<nat>)
    requires k <= |Placeholders|
    ensures r.Some? ==> k <= r.value < |Placeholders| && Contains(s, Placeholders[r.value])
    ensures r.None? ==> forall m :: k <= m < |Placeholders| ==> !Contains(s, Placeholders[m])
    decreases |Placeholders| - k
  {
    if k == |Placeholders| then None
    else if Contains(s, Placeholders[k]) then Some(k)
    else FirstPlaceholder(s, k + 1)
  }

  /** `validate_product_description`. */
  function ValidateProductDescription(d: string): (r: Outcome<ValidationError>)
    ensures r.Pass? <==> DescriptionOk(d)
    ensures |d| < MinDescriptionLength ==> r == Fail(DescriptionTooShort(|d|))
    ensures r.Fail? && r.error.PlaceholderText? ==>
              && r.error.phrase in Placeholders && Contains(Lower(d), r.error.phrase)
              && |d| >= MinDescriptionLength && !HasSearchIndicator(d)
  {
    if |d| < MinDescriptionLength then Fail(DescriptionTooShort(|d|))
    else
      match CheckExternalSearch(d, Description)
      case Fail(e) => Fail(e)
      case Pass =>
        match FirstPlaceholder(Lower(d), 0)
        case Some(k) => Fail(PlaceholderText(Placeholders[k]))
        case None => Pass
  }

  // ---------------------------------------------------------------------------
  // Headline

  ghost predicate HeadlineOk(h: string) {
    MinHeadlineLength <= |h| <= MaxHeadlineLength && !HasSearchIndicator(h)
  }

  /** `validate_headline`. */
  function ValidateHeadline(h: string): (r: Outcome<ValidationError>)
    ensures r.Pass? <==> HeadlineOk(h)
    ensures |h| < MinHeadlineLength ==> r == Fail(HeadlineTooShort(|h|))
    ensures |h| > MaxHeadlineLength ==> r == Fail(HeadlineTooLong(|h|))
  {
    if |h| < MinHeadlineLength then Fail(HeadlineTooShort(|h|))
    else if |h| > MaxHeadlineLength then Fail(HeadlineTooLong(|h|))
    else CheckExternalSearch(h, Headline)
  }

  // ---------------------------------------------------------------------------
  // Feature lists

  ghost predicate ItemOk(item: string) {
    |item| >= MinItemLength && !HasSearchIndicator(item)
  }

  ghost predicate FeaturesOk(items: seq<string>, minCount: int) {
    && |items| >= minCount
    && (forall i :: 0 <= i < |items| ==> ItemOk(items[i]))
    && Distinct(items)
  }

  /** `validate_features_list`: count, then each item in order, then duplicates
      (written in the source as `len(features) != len(set(features))`). */
  method ValidateFeaturesList(items: seq<string>, minCount: int) returns (r: Outcome<ValidationError>)
    ensures r.Pass? <==> FeaturesOk(items, minCount)
    ensures |items| < minCount ==> r == Fail(TooFewItems(minCount, |items|))
    ensures r.Fail? && ItemIndex(r.error).Some? ==>
              var i := ItemIndex(r.error).value;
              && i < |items| && !ItemOk(items[i])
              && forall j :: 0 <= j < i ==> ItemOk(items[j])
    ensures r == Fail(DuplicateItems) ==> forall i :: 0 <= i < |items| ==> ItemOk(items[i])
  {
    if |items| < minCount {
      return Fail(TooFewItems(minCount, |items|));
    }
    var i := 0;
    while i < |items|
      invariant 0 <= i <= |items|
      invariant forall j :: 0 <= j < i ==> ItemOk(items[j])
    {
      if |items[i]| < MinItemLength {
        return Fail(ItemTooShort(i));
      }
      var c := CheckExternalSearch(items[i], Item(i));
      if c.Fail? {
        return c;
      }
      i := i + 1;
    }
    DistinctIffCard(items);
    if |Elems(items)| != |items| {
      return Fail(DuplicateItems);
    }
    return Pass;
  }

  // ---------------------------------------------------------------------------
  // Business rules

  /** `validate_price`: rejects a non-positive price, then one below a cent. */
  function ValidatePrice(price: real): (r: Outcome<ValidationError>)
    ensures r.Pass? <==> price >= MinPrice
    ensures price <= 0.0 ==> r == Fail(PriceNotPositive)
    ensures 0.0 < price < MinPrice ==> r == Fail(PriceTooLow)
  {
    if price <= 0.0 then Fail(PriceNotPositive)
    else if price < MinPrice then Fail(PriceTooLow)
    else Pass
  }

  /** `validate_currency`: only the length is enforced. */
  function ValidateCurrency(code: string): (r: Outcome<ValidationError>)
    ensures r.Pass? <==> |code| == 3
    ensures r.Fail? ==> r.error == BadCurrencyLength(code)
  {
    if |code| != 3 then Fail(BadCurrencyLength(code)) else Pass
  }

  /** An unknown code with three characters is accepted (it only produces a warning). */
  lemma UnknownCurrencyAccepted()
    ensures "ZZZ" !in KnownCurrencies && ValidateCurrency("ZZZ").Pass?
  {
  }

  function RowFeatures(rows: seq<ComparisonRow>): (r: seq<string>)
    ensures |r| == |rows|
    ensures forall i :: 0 <= i < |rows| ==> r[i] == rows[i].feature
  {
    seq(|rows|, i requires 0 <= i < |rows| => rows[i].feature)
  }

  ghost predicate RowFilled(row: ComparisonRow) {
    row.productValue != "" && row.competitorValue != ""
  }

  ghost predicate ComparisonTableOk(rows: seq<ComparisonRow>) {
    && |rows| >= MinRows
    && Distinct(RowFeatures(rows))
    && forall i :: 0 <= i < |rows| ==> RowFilled(rows[i])
  }

  /** `validate_comparison_table`: row count, duplicate feature names, then the
      first row with an empty value. */
  method ValidateComparisonTable(rows: seq<ComparisonRow>) returns (r: Outcome<ValidationError>)
    ensures r.Pass? <==> ComparisonTableOk(rows)
    ensures |rows| < MinRows ==> r == Fail(TooFewRows(|rows|))
    ensures r.Fail? && r.error.EmptyRowValue? ==>
              var i := r.error.index;
              && i < |rows| && !RowFilled(rows[i]) && Distinct(RowFeatures(rows))
              && forall j :: 0 <= j < i ==> RowFilled(rows[j])
  {
    if |rows| < MinRows {
      return Fail(TooFewRows(|rows|));
    }
    var features := RowFeatures(rows);
    DistinctIffCard(features);
    if |Elems(features)| != |features| {
      return Fail(DuplicateRowFeatures);
    }
    var i := 0;
    while i < |rows|
      invariant 0 <= i <= |rows|
      invariant forall j :: 0 <= j < i ==> RowFilled(rows[j])
    {
      if rows[i].productValue == "" || rows[i].competitorValue == "" {
        return Fail(EmptyRowValue(i));
      }
      i := i + 1;
    }
    return Pass;
  }
}

=== FILE: wrappers.dfy ===
/** Failure-carrying datatypes shared by every module of the model.
    - Option<T>: a value that may be missing (Python's `None`).
    - Result<T, E>: a value or the error that replaced it (a raised exception).
    - Outcome<E>: pass, or fail with an error (a validator that returns True or raises).
 */
module Wrappers {

  datatype Option<+T> = None | Some(value: T) {

    /** The value, or `default` when missing (Python's `dict.get(key, default)`). */
    function GetOr(default: T): T {
      match this
      case Some(v) => v
      case None => default
    }
  }

  datatype Result<+T, +E> = Ok(value: T) | Err(error: E)

  datatype Outcome<+E> = Pass | Fail(error: E)
}
